=== FILE: README.md ===
# kanshi configuration reader and writer, and the niri output mapping

This project models three pieces of monitoradlo, a display-layout tool for
the niri compositor, in Dafny.

- **kanshi `Parse`** reads the kanshi configuration language:
  - `profile [name] { ... }` blocks holding `output <criteria>` entries;
  - each entry's directives either in a `{ ... }` block or inline on the `output` line;
  - the directives are `enable`, `disable`, `mode`, `scale`, `position`, `transform` and `adaptive_sync`.
- **kanshi `Serialize`** writes a configuration back out:
  - in a fixed layout;
  - every output as a block;
  - the directives in a fixed order.
- **The niri output mapping** takes the records decoded from `niri msg --json outputs` and builds the application's outputs:
  - a description;
  - the modes, with the current one marked;
  - the logical placement.

The input text is a `string` whose characters stand for the bytes of the Go
string. Each loop of the Go parser is a pair of functions:

- a `...Step` function, one iteration of the loop body;
- a `...Loop` function that iterates the step.

A step that leaves its state unchanged is a state the Go loop never leaves,
so the loop returns `Hang` instead of a value.

The parser takes an `InlineRule`:

- `Parse` is the code as written (`AsWritten`).
- `ParseLineAware` ends inline directives at the line end. It also reads an unknown directive's value only on its own line.

See "## Findings" for the evidence behind both rules.

Modules:

- `Wrappers`: `Option` and `Result`.
- `GoStrings`: Go's byte classes, `strconv.Atoi`, `%d`, `strings.SplitN(t, sep, 2)` and `strings.Join`.
- `KanshiConfig`: the configuration types and the parse errors.
- `KanshiScanner`: the parser's scanning helpers.
- `KanshiParser`: the parser's loops and switches.
- `KanshiSerializer`: the writer.
- `KanshiLayout` and `KanshiSteps`: scanner and parser facts on texts of a known shape.
- `KanshiRoundTrip`: `Parse(Serialize(c)) == c`.
- `KanshiFacts`: what the loops do over many steps, and how errors and spins reach `Parse`.
- `KanshiExamples`: the parser on small texts.
- `NiriOutputs`: the niri mapping.

## Model

| member | source | states |
|---|---|---|
| KanshiScanner.SkipWhitespace | kanshi/parser.go:249-253 | The result is the first position at or after `p` that is not Go white space, or the end; everything skipped is white space. |
| KanshiScanner.SkipUntilNewline | kanshi/parser.go:269-273 | The result is the first `\n` at or after `p`, or the end; no `\n` is skipped. |
| KanshiScanner.SkipWhitespaceAndComments | kanshi/parser.go:255-267 | The result is neither white space nor `#`, and what was skipped is white space and `#` comments, each running to its line end. |
| KanshiScanner.CommentThenBlank | kanshi/parser.go:261-263 | A `#` comment up to its line end, followed by blank text, is blank text. |
| KanshiScanner.CommentsRunToLineEnd | kanshi/parser.go:255-267 | The skip never stops inside a comment: after every `#` it skipped there is a `\n` before the stop, unless the skip ran to the end of input. |
| KanshiScanner.ReadWord | kanshi/parser.go:212-222 | The word is exactly `s[p..e]`, holds no white space or brace, and ends at white space, a brace or the end. |
| KanshiScanner.ReadQuotedString | kanshi/parser.go:233-247 | Without a `"` at `p` it reads `""` and does not move. Otherwise it returns the text up to the next `"` and steps past that quote when there is one. |
| KanshiScanner.ReadStringOrWord | kanshi/parser.go:225-230 | At a `"` it returns the quote-free text that follows, up to the next `"`. It then stands just past that quote, or at the end when there is none. Anywhere else it returns the word `s[p..e]`, which ends at white space, a brace or the end. |
| KanshiLayout.ReadWordOver | kanshi/parser.go:212-222 | This is the inverse direction of `ReadWord`: on a text that is a word `w` followed by a word end, `ReadWord` returns `w` and its end. |
| KanshiLayout.ReadQuotedOver | kanshi/parser.go:233-247 | This is the inverse direction of `ReadQuotedString`: on `"text"` followed by anything, it returns `text` and the position after the closing quote. |
| KanshiLayout.SkipWhitespaceOver | kanshi/parser.go:249-253 | On white space followed by a non-space, the skip ends exactly after the white space. |
| KanshiLayout.SkipBlanksOver | kanshi/parser.go:255-267 | On white space followed by a character that is neither white space nor `#`, the comment-aware skip ends exactly after the white space. |
| GoStrings.Atoi | kanshi/parser.go:181-188 | `strconv.Atoi`: a value exactly for an optional sign followed by digits whose signed value lies in the 64-bit range. The value is the sign applied to the digits' decimal value. |
| GoStrings.FormatInt | kanshi/serializer.go:58 | `%d` gives a non-empty text of digits with a leading `-` exactly for negative values. |
| GoStrings.AtoiFormatInt | kanshi/serializer.go:58 | `Atoi` reads back every 64-bit value written by `%d`. |
| GoStrings.SplitN2 | kanshi/parser.go:177-180 | `strings.SplitN(t, ",", 2)` gives two parts exactly when `t` has a comma. The parts joined by the comma give back `t`, and the first part has no comma. |
| GoStrings.SplitAfter | kanshi/parser.go:177 | Splitting `x,y` with a comma-free `x` gives back `[x, y]`. |
| GoStrings.Join | niri/outputs.go:121 | `strings.Join` of no parts is empty, and of one part is that part. Otherwise the result begins with the first part and is at least as long as the parts and separators together. |
| GoStrings.JoinSnoc | niri/outputs.go:121 | Joining parts with one more part at the end gives the earlier parts joined, the separator, then the new part. |
| KanshiParser.ReadPosition | kanshi/parser.go:174-189 | `position` fails with the no-comma error exactly when the value has no comma. Every error it reports is a directive error. |
| KanshiParser.ReadPositionSplits | kanshi/parser.go:177-189 | The comma scan agrees on every text, result and error alike, with `SplitN(t, ",", 2)` followed by an `Atoi` on each part. |
| KanshiParser.Directive | kanshi/parser.go:155-206 | Each keyword changes only its own field. `enable` and `disable` set `enabled`. `mode` and `transform` take the quoted string or word after the white space. `scale` fails exactly when the float reader rejects the word after it. `position` fails exactly when that word is not `x,y` with two Go ints. `adaptive_sync` is on exactly for `on`. Unknown words change nothing. The cursor ends after the string or word for `mode` and `transform`, after the word for `scale`, `position` and `adaptive_sync` when they succeed, stays at `r` for `enable`, `disable` and the empty word, and moves to the end of the skipped value for any other word. |
| KanshiParser.SkipUnknownValue | kanshi/parser.go:200-205 | An unknown directive's value is skipped forward, within the text. As written, nothing is skipped when only white space lies before the end or a `}`; otherwise exactly one quoted string or word is skipped, even one on a later line. Under `LineAware` exactly one string or word is skipped when one follows on the same line, before any `}`. At the end, before a `}`, or past a line end, nothing is skipped and the cursor stays at `r`. This is the corrected half of the finding for kanshi/parser.go:202-203. |
| KanshiParser.DirectiveStep | kanshi/parser.go:142-206 | One directive-loop iteration never goes back. It stops exactly when the next token after white space and comments is at a scan end (the end, its terminator, or inline a line end), and it stops there with the entry unchanged. It returns its own state exactly on a brace that is not its terminator, which is where the Go loop spins. |
| KanshiParser.DirectiveLoop | kanshi/parser.go:141-209 | The loop ends where a directive scan may end (end, terminator, or inline line end) with the criteria kept. Its only errors are directive errors. |
| KanshiParser.DirectiveLoopAtScanEnd | kanshi/parser.go:142-153 | A directive loop whose next token is already at a scan end reads nothing and ends there with the entry unchanged. |
| KanshiParser.ParseOutput | kanshi/parser.go:117-139 | The entry's criteria is the word or quoted string after `output`. A block ends just after its `}`, or one past the end when the input ends inside it. Only a block can leave the cursor past the end. Only directive errors are raised. |
| KanshiParser.OutputBody | kanshi/parser.go:123-138 | The same as `ParseOutput`, once the criteria is read: the `{` decides block or inline. |
| KanshiParser.ProfileStep | kanshi/parser.go:89-112 | One profile-body iteration moves forward and adds at most one output, keeping the name and the earlier outputs. It fails with the unexpected-end error exactly when only white space and comments are left. Any word other than `output` adds nothing and moves to the end of its line. |
| KanshiParser.ProfileLoop | kanshi/parser.go:89-115 | The body loop keeps the name and extends the outputs. Its errors are the unexpected end or a directive error. |
| KanshiParser.ProfileHeader | kanshi/parser.go:74-81 | With the end or `{` after the white space, there is no name and the cursor stops there. Otherwise the name is the quoted string or word there, and the cursor stops after it and the white space that follows. |
| KanshiParser.ParseProfile | kanshi/parser.go:73-115 | It fails with the brace error, at the header's end, exactly when no `{` follows the header. On success the profile has the header's name. |
| KanshiParser.TopStep | kanshi/parser.go:43-63 | One top-level iteration keeps the profiles read so far and adds at most one. It returns its own state exactly on a `{` or `}`, where the Go loop spins. |
| KanshiParser.TopWord | kanshi/parser.go:49-62 | Only `profile` can fail or spin. It fails exactly when `ParseProfile` fails, with the same error, and spins exactly when `ParseProfile` never returns. An empty word leaves the cursor in place. Any other word keeps the profiles and moves to the end of its line. |
| KanshiParser.TopLoop | kanshi/parser.go:43-65 | A finished top-level loop has read the whole input and kept every profile read so far. |
| KanshiParser.ParseWith | kanshi/parser.go:39-66 | A text of nothing but white space and comments reads, under either rule, as a configuration with no profiles. |
| KanshiParser.LeadingBraceHangs | kanshi/parser.go:43-63 | When the first token is a `{` or `}`, `readWord` reads nothing there and the reader never returns. |
| KanshiParser.Parse | kanshi/parser.go:39-66 | `Parse`: a text of only white space and comments is a configuration with no profiles. |
| KanshiParser.ParseLineAware | kanshi/parser.go:39-66 | The corrected reader: a text of only white space and comments is a configuration with no profiles. |
| KanshiSerializer.ScaleText | kanshi/serializer.go:49-53 | The written scale always contains `.`: the `%g` text when it has one, and otherwise that text followed by `.0`. |
| KanshiSerializer.ScaleTextStable | kanshi/serializer.go:49-53 | Applying the `.0` rule to a text it already wrote changes nothing. |
| KanshiSerializer.PositionText | kanshi/serializer.go:58 | `%d,%d` contains a comma and no space. |
| KanshiSerializer.DirectiveLines | kanshi/serializer.go:36-71 | An output's directive lines are empty exactly when it sets no directive. |
| KanshiSerializer.OutputTextFrame | kanshi/serializer.go:33-74 | `serializeOutput` opens with `  output`, the quoted criteria and `{`, and closes with `  }` and a blank line. Exactly an output that sets nothing is written as that frame alone. |
| KanshiSerializer.ProfilesText | kanshi/serializer.go:12-28 | The profiles' text is empty exactly when there are no profiles. |
| KanshiSerializer.ProfilesTextAfter | kanshi/serializer.go:12-15 | Profiles written after others are the same text preceded by a blank line. |
| KanshiSerializer.Serialize | kanshi/serializer.go:9-31 | `Serialize` writes nothing exactly for a configuration with no profiles. |
| KanshiSerializer.ProfilesTextAppend | kanshi/serializer.go:12-28 | Writing two lists of profiles together is writing them one after the other: each profile is written on its own. |
| KanshiSerializer.SerializeAppend | kanshi/serializer.go:9-31 | `Serialize` of two configurations' profiles together is the two texts with a blank line between them when both are non-empty. |
| KanshiRoundTrip.ApplyDirectives | kanshi/serializer.go:33-74 | Applying the written directives of an output, in the writer's order, to a fresh entry with its criteria rebuilds the output. |
| KanshiRoundTrip.OutputTextShape | kanshi/serializer.go:34-73 | The output text is `  output`, then the criteria block with each directive on its own indented line, then a blank line. |
| KanshiRoundTrip.PositionRereads | kanshi/serializer.go:58 | The position reader returns every position as written by `%d,%d`. |
| KanshiRoundTrip.DirectiveOver | kanshi/parser.go:155-197 | On a written directive line, the directive switch applies exactly that directive and moves past its value. |
| KanshiRoundTrip.DirectiveLoopOver | kanshi/parser.go:141-209 | Running the block loop over the written directive lines, one per indented line, applies all of them in order. It then carries on from the text after them. |
| KanshiRoundTrip.ParseOutputOver | kanshi/parser.go:117-139 | `parseOutput` on a written output block returns that output and the position after its `}`. |
| KanshiRoundTrip.ProfileLoopOver | kanshi/parser.go:89-115 | The profile body loop over written output blocks returns those outputs in order, ending after the profile's `}`. |
| KanshiRoundTrip.TopLoopOver | kanshi/parser.go:43-65 | The top-level loop over written profiles returns those profiles in order. |
| KanshiRoundTrip.ParseSerialize | kanshi/serializer.go:9-31 | Under either inline rule, the reader returns `c` from `Serialize(c)`. This holds for every configuration without `"` in names and criteria, with single-word modes and transforms, and with scales whose written text reads back. |
| KanshiRoundTrip.RoundTrip | kanshi/parser.go:39-66 | `Parse(Serialize(c)) == c` and `ParseLineAware(Serialize(c)) == c` for those configurations. |
| KanshiRoundTrip.SerializeIsStable | kanshi/serializer.go:9-31 | Writing what was read back from a written configuration writes the same text. |
| KanshiFacts.DirectiveLoopTouches | kanshi/parser.go:141-209 | Over a whole directive loop, every field that changes was named by a keyword the switch read, in the list `KeywordsRead` of words the loop reads. The criteria never changes. So with no `enable` or `disable` read, `enabled` stays absent for a fresh entry. |
| KanshiFacts.DirectiveLoopSkipsUnknown | kanshi/parser.go:141-209 | A directive loop that reads no keyword leaves the entry as it was. |
| KanshiFacts.TopLoopAtProfile | kanshi/parser.go:49-56 | Wherever the top loop meets `profile`, a failing profile ends the loop with its error, and a profile that never returns keeps the loop from returning. |
| KanshiFacts.ParseAtFirstProfile | kanshi/parser.go:49-56 | When the first profile fails, `Parse` fails with its error. When it never returns, neither does `Parse`. |
| KanshiFacts.ParseMissingBrace | kanshi/parser.go:83-86 | A first profile header without `{` makes `Parse` fail with the brace error at the header's end. |
| KanshiFacts.ParseEndInProfile | kanshi/parser.go:89-93 | A first profile whose body holds only white space and comments up to the end makes `Parse` fail with the unexpected-end error. |
| KanshiFacts.ProfileEndsEarly | kanshi/parser.go:84-93 | `parseProfile` on a body of only white space and comments fails with the unexpected-end error. |
| KanshiFacts.ProfileLoopAtEnd | kanshi/parser.go:89-93 | The profile body loop fails at once where only white space and comments are left. |
| KanshiFacts.ProfileLoopAtOutput | kanshi/parser.go:101-105 | An output that fails ends its profile with the output's error. An output that never returns keeps the profile from returning. |
| KanshiFacts.DirectiveSpins | kanshi/parser.go:142-155 | A directive scan on a brace that is not its terminator never returns. |
| KanshiExamples.HangOnStrayBrace | kanshi/parser.go:43-63 | `Parse("}")` never returns. |
| KanshiExamples.HangOnInlineBrace | kanshi/parser.go:141-155 | `Parse("profile { output X enable }")` never returns: the inline scan spins on `}`. |
| KanshiExamples.HangOnNestedBrace | kanshi/parser.go:200-205 | A `{` where an unknown directive's value would be makes the block scan spin. |
| KanshiExamples.IndentedLineAsWritten | kanshi/parser.go:150-153 | An inline output followed by an indented `output Y { disable }` line makes `Parse` spin. |
| KanshiExamples.IndentedLineAware | kanshi/parser.go:150-153 | Under `LineAware` the same text reads as a profile with X enabled and Y disabled. |
| KanshiExamples.UnindentedLineAsWritten | kanshi/parser.go:147-153 | As written, an inline output followed by a line starting with `output` at its first column stops at that line: `profile {\noutput X enable\noutput Y { disable }\n}` reads X enabled and Y disabled. |
| KanshiExamples.ValuelessUnknownAsWritten | kanshi/parser.go:200-205 | A valueless unknown directive on its own line swallows the next line's `enable`, so `enabled` stays absent. |
| KanshiExamples.ValuelessUnknownLineAware | kanshi/parser.go:200-205 | Under `LineAware` the same text gives `enabled == Some(true)`. |
| KanshiExamples.BodyAtEndOfInput | kanshi/parser.go:87-89 | `profile {` at the end of input is accepted as an empty, unnamed profile. |
| KanshiExamples.UnterminatedBlock | kanshi/parser.go:126-131 | An output block cut off by the end of input is accepted with its criteria. |
| NiriOutputs.Description | niri/outputs.go:108-121 | The description is the make (when non-empty), the model (when non-empty) and the serial, or `Unknown` for an empty serial, separated by single spaces. |
| NiriOutputs.ConvertModes | niri/outputs.go:123-136 | There is one mode per raw mode, in order, with width, height, refresh rate and preference copied. `isCurrent` holds exactly at index `current_mode`. The current mode is that mode, or the zero mode when the index is out of range. |
| NiriOutputs.MapOutput | niri/outputs.go:98-154 | The output satisfies `Mapped`: key, make and model copied; a null serial gives `""`; the description as above; the modes as above. Without `logical`, the position and size are absent and the scale and transform are zero and empty; otherwise they are copied. |
| NiriOutputs.MapOutputs | niri/outputs.go:96-157 | There is one output per (key, record) pair, in the order given; its connector is the key and it satisfies `Mapped`. |
| NiriOutputs.MappedDetermines | niri/outputs.go:98-154 | `Mapped` fixes every field: two outputs it allows for the same record are equal. |
| NiriOutputs.LaptopPanel | niri/outputs.go:104-121 | For the test's laptop record (null serial): the serial is empty, the description is `Lenovo Group Limited 0x40A9 Unknown`, and the single mode is current. |
| NiriOutputs.Monitor | niri/outputs.go:108-135 | For the test's monitor record: the description is `Dell Inc. DELL U3419W 7VK66T2`, there are two modes, the first (3440x1440) is current and the second is not. |

## Left out

- Floating point is not modelled. `strconv.ParseFloat` and `%g` are function parameters (`FloatReader`, `FloatWriter`), and a `float64` is its bit pattern. The round trip assumes that the written scale text reads back as the same value.
- Characters are bytes. The model does not decode UTF-8. White space is Go's `unicode.IsSpace` on a byte below 256, as the Go parser applies it to `rune(byte)`.
- Go's `int` is 64-bit. `Atoi` rejects out-of-range text as `strconv.Atoi` does. The niri integers are unbounded, since the mapping only copies them.
- The error messages' text is not modelled. Each error is a `ParseError` value carrying the offending text or position.
- `Serialize`'s result type is a plain string. `strings.Builder` and `fmt.Fprintf` are string concatenation.
- KanshiRoundTrip.ParseSerialize: covered only for configurations whose names and criteria hold no `"`, whose modes and transforms are single words, and whose scales read back. The writer does not escape; other configurations do not read back, and the Go writer gives no promise for them.
- NiriOutputs.MapOutput: the refresh rate is kept in millihertz. The division by 1000.0 (niri/outputs.go:128) is floating point.
- The physical size (niri/outputs.go:146-152) is left out. It comes from `encoding/json` decoding a raw message inside the loop.
- The JSON decoding (niri/outputs.go:89-95) and `DetectOutputs` (niri/outputs.go:78-86) are left out: `encoding/json` and running `niri` as a process.
- The order of Go map iteration is not modelled. `MapOutputs` takes the pairs in whatever order the caller gives.
- app.go and the frontend are not part of this model.
- `Parse` returning a `*Config` and an error becomes `Outcome`: `Done`, `Fail`, or `Hang` for a Go loop that never returns.
- The code and its description disagree on two points, and the model follows the code:
  - Running out of input inside a profile body is an error only when white space or comments are left. `profile {` right at the end is accepted (parser.go:89).
  - An output block cut off by the end of input is accepted, with the cursor one past the end (parser.go:131).

## Findings

| source | as written | input that shows it | evidently intended | confidence | as-written member | corrected member |
|---|---|---|---|---|---|---|
| kanshi/parser.go:150 | An inline output's directives stop only when the character just before the next token is `\n`. An indented next line therefore keeps the scan going, and the next line's `output` is read as an unknown directive. | `profile {\n  output X enable\n  output Y { disable }\n}`: the scan reaches Y's `{` and spins, so `Parse` never returns. | The comment says inline directives stop at the newline: at the first line end skipped since the previous token. | not executed; proved in the model | KanshiExamples.IndentedLineAsWritten | KanshiExamples.IndentedLineAware |
| kanshi/parser.go:202-203 | `skipWhitespace` already skips `\n`, so the `!= '\n'` test that follows never holds. An unknown directive with no value takes the next line's first token as its value. | `profile {\noutput X {\nfoo\nenable\n}\n}`: `enable` is swallowed and `enabled` stays absent. | An unknown directive's value is read only on its own line. | not executed; proved in the model | KanshiExamples.ValuelessUnknownAsWritten | KanshiExamples.ValuelessUnknownLineAware |

The corrected rule is `InlineRule.LineAware`, in `InlineStop` and `SkipUnknownValue`. `KanshiRoundTrip.RoundTrip` proves the round trip under it as well as under the rule as written.

=== FILE: gostrings.dfy ===
/**
 * The pieces of Go's `unicode`, `strings` and `strconv` packages that the
 * kanshi parser and serializer and the niri output mapping rely on.
 * Strings are byte strings: every `char` stands for one byte (code < 256).
 */
module GoStrings {
  import opened Wrappers

  const MinInt64: int := -0x8000_0000_0000_0000
  const MaxInt64: int := 0x7FFF_FFFF_FFFF_FFFF

  /** Go's `int` on a 64-bit platform. */
  type Int64 = x: int | MinInt64 <= x <= MaxInt64

  /**
   * `unicode.IsSpace(rune(b))` for a single byte `b`: the Latin-1 white
   * space characters, including NEL (0x85) and NO-BREAK SPACE (0xA0).
   */
  predicate IsSpace(c: char) {
    var n := c as int;
    n == 0x09 || n == 0x0A || n == 0x0B || n == 0x0C || n == 0x0D
    || n == 0x20 || n == 0x85 || n == 0xA0
  }

  predicate AllSpace(t: string) {
    forall i | 0 <= i < |t| :: IsSpace(t[i])
  }

  predicate IsDigit(c: char) {
    '0' <= c <= '9'
  }

  predicate AllDigits(t: string) {
    forall i | 0 <= i < |t| :: IsDigit(t[i])
  }

  function DigitChar(d: nat): (c: char)
    requires d < 10
    ensures IsDigit(c) && c as int - '0' as int == d
  {
    ('0' as int + d) as char
  }

  function Pow10(n: nat): (r: nat)
    ensures r >= 1
  {
    if n == 0 then 1 else 10 * Pow10(n - 1)
  }

  /** The value of a run of decimal digits, most significant first. */
  function DecimalValue(t: string): (v: nat)
    requires AllDigits(t)
    ensures v < Pow10(|t|)
  {
    if |t| == 0 then 0
    else DecimalValue(t[..|t| - 1]) * 10 + (t[|t| - 1] as int - '0' as int)
  }

  /** The digits of `n` in base 10, without leading zeros. */
  function NatText(n: nat): (t: string)
    ensures 0 < |t| && AllDigits(t)
    ensures t[0] == '0' ==> n == 0
    decreases n
  {
    if n < 10 then [DigitChar(n)] else NatText(n / 10) + [DigitChar(n % 10)]
  }

  /** `strconv.Itoa`, also what `fmt`'s `%d` verb prints for an `int`. */
  function FormatInt(x: int): (t: string)
    ensures 0 < |t| && (x < 0 <==> t[0] == '-')
    ensures forall i | 0 <= i < |t| :: IsDigit(t[i]) || (i == 0 && t[i] == '-')
  {
    if x < 0 then "-" + NatText(-x) else NatText(x)
  }

  /** An optional sign followed by at least one decimal digit. */
  predicate IsDecimal(t: string) {
    if 0 < |t| && (t[0] == '-' || t[0] == '+') then 1 < |t| && AllDigits(t[1..])
    else 0 < |t| && AllDigits(t)
  }

  /** The value a decimal text denotes: its digits, negated after a `-`. */
  function SignedValue(t: string): int
    requires IsDecimal(t)
  {
    if t[0] == '-' then -(DecimalValue(t[1..]) as int)
    else if t[0] == '+' then DecimalValue(t[1..])
    else DecimalValue(t)
  }

  /**
   * `strconv.Atoi`: an optional `+` or `-` sign and one or more decimal
   * digits; anything else is a syntax error and a value outside the 64-bit
   * range is a range error (both `None`).
   */
  function Atoi(t: string): (r: Option<Int64>)
    ensures r.Some? <==> IsDecimal(t) && MinInt64 <= SignedValue(t) <= MaxInt64
    ensures r.Some? ==> r.value == SignedValue(t)
    ensures r.Some? ==> IsDecimal(t)
    ensures r.Some? && t[0] == '-' ==> r.value <= 0
    ensures r.Some? && t[0] != '-' ==> r.value >= 0
    ensures IsDecimal(t) && |t| <= 18 ==> r.Some?
  {
    if |t| == 0 then None
    else
      var digits := if t[0] == '-' || t[0] == '+' then t[1..] else t;
      if |digits| == 0 || !AllDigits(digits) then None
      else
        var magnitude: int := DecimalValue(digits);
        var v: int := if t[0] == '-' then -magnitude else magnitude;
        if MinInt64 <= v <= MaxInt64 then Some(v)
        else
          assert 18 < |digits| by {
            if |digits| <= 18 {
              Pow10Grows(|digits|, 18);
              Pow10Eighteen();
            }
          }
          None
  }

  lemma {:induction false} Pow10Grows(m: nat, n: nat)
    requires m <= n
    ensures Pow10(m) <= Pow10(n)
    decreases n - m
  {
    if m < n {
      Pow10Grows(m, n - 1);
    }
  }

  lemma Pow10Eighteen()
    ensures Pow10(18) == 1_000_000_000_000_000_000
  {
    assert Pow10(3) == 1000;
    assert Pow10(6) == 1000 * Pow10(3);
    assert Pow10(9) == 1000 * Pow10(6);
    assert Pow10(12) == 1000 * Pow10(9);
    assert Pow10(15) == 1000 * Pow10(12);
    assert Pow10(18) == 1000 * Pow10(15);
  }

  /** Formatting then reading a decimal integer gives the integer back. */
  lemma {:induction false} NatTextValue(n: nat)
    ensures DecimalValue(NatText(n)) == n
    decreases n
  {
    if n >= 10 {
      var t := NatText(n);
      var prefix := NatText(n / 10);
      assert t == prefix + [DigitChar(n % 10)];
      assert t[..|t| - 1] == prefix;
      NatTextValue(n / 10);
    }
  }

  /** `strconv.Atoi(strconv.Itoa(x)) == x` for every Go `int`. */
  lemma AtoiFormatInt(x: Int64)
    ensures Atoi(FormatInt(x)) == Some(x)
  {
    if x < 0 {
      AtoiFormatNegative(x);
    } else {
      AtoiFormatNatural(x);
    }
  }

  lemma AtoiFormatNatural(x: Int64)
    requires 0 <= x
    ensures Atoi(FormatInt(x)) == Some(x)
  {
    var t := FormatInt(x);
    assert t == NatText(x);
    assert IsDigit(t[0]);
    NatTextValue(x);
    assert DecimalValue(t) == x;
  }

  lemma AtoiFormatNegative(x: Int64)
    requires x < 0
    ensures Atoi(FormatInt(x)) == Some(x)
  {
    var n: nat := -(x as int);
    var t := FormatInt(x);
    assert t == "-" + NatText(n);
    assert t[0] == '-' && t[1..] == NatText(n);
    NatTextValue(n);
    assert DecimalValue(t[1..]) == n;
  }

  /** The index of the first `c` in `t`, or -1 (`strings.IndexByte`). */
  function IndexOf(t: string, c: char): (i: int)
    ensures -1 <= i < |t|
    ensures 0 <= i ==> t[i] == c && c !in t[..i]
    ensures i == -1 <==> c !in t
  {
    if |t| == 0 then -1
    else if t[0] == c then 0
    else
      var j := IndexOf(t[1..], c);
      if j < 0 then -1
      else
        assert t[..j + 1] == [t[0]] + t[1..][..j];
        j + 1
  }

  /**
   * `strings.SplitN(t, string(sep), 2)`: the whole string when `sep` does
   * not occur, otherwise the text before the first `sep` and everything
   * after it.
   */
  function SplitN2(t: string, sep: char): (parts: seq<string>)
    ensures |parts| == 1 || |parts| == 2
    ensures |parts| == 2 <==> sep in t
    ensures |parts| == 1 ==> parts[0] == t
    ensures |parts| == 2 ==> parts[0] + [sep] + parts[1] == t && sep !in parts[0]
  {
    var i := IndexOf(t, sep);
    if i < 0 then [t]
    else
      assert t[..i] + [sep] + t[i + 1..] == t;
      [t[..i], t[i + 1..]]
  }

  /** Splitting at the first separator finds the one after a separator-free prefix. */
  lemma SplitAfter(x: string, y: string, sep: char)
    requires sep !in x
    ensures SplitN2(x + [sep] + y, sep) == [x, y]
  {
    var t := x + [sep] + y;
    assert t[|x|] == sep;
    var parts := SplitN2(t, sep);
    var n := |parts[0]|;
    assert t[n] == sep && t[..n] == parts[0] by {
      assert (parts[0] + [sep] + parts[1])[n] == sep;
      assert (parts[0] + [sep] + parts[1])[..n] == parts[0];
    }
    assert forall k | 0 <= k < |x| :: t[k] == x[k] != sep;
    assert forall k | 0 <= k < n :: t[k] == parts[0][k] != sep;
    assert n == |x|;
    assert parts[0] == t[..|x|] == x;
    assert parts[1] == t[|x| + 1..] == y by {
      assert (parts[0] + [sep] + parts[1])[n + 1..] == parts[1];
    }
  }

  /** `strings.Join(parts, sep)`. */
  function Join(parts: seq<string>, sep: string): (r: string)
    ensures |parts| == 0 ==> r == ""
    ensures |parts| == 1 ==> r == parts[0]
    ensures 0 < |parts| ==> parts[0] <= r && |r| >= |parts[0]| + (|parts| - 1) * |sep|
  {
    if |parts| == 0 then ""
    else if |parts| == 1 then parts[0]
    else parts[0] + sep + Join(parts[1..], sep)
  }

  /** `strings.Join` on a first part and a non-empty rest: the first part, the separator, the rest joined. */
  lemma JoinCons(p: string, rest: seq<string>, sep: string)
    requires rest != []
    ensures Join([p] + rest, sep) == p + sep + Join(rest, sep)
  {
    assert ([p] + rest)[1..] == rest;
  }

  /**
   * `strings.Join` read from the other end: the parts but the last joined,
   * the separator, then the last part. Together with `JoinCons` this pins
   * the joined text for every number of parts.
   */
  lemma {:induction false} JoinSnoc(parts: seq<string>, x: string, sep: string)
    requires parts != []
    ensures Join(parts + [x], sep) == Join(parts, sep) + sep + x
    decreases |parts|
  {
    if |parts| == 1 {
      assert parts + [x] == [parts[0]] + [x];
      JoinCons(parts[0], [x], sep);
    } else {
      assert parts + [x] == [parts[0]] + (parts[1..] + [x]);
      JoinCons(parts[0], parts[1..] + [x], sep);
      JoinSnoc(parts[1..], x, sep);
      JoinCons(parts[0], parts[1..], sep);
      assert [parts[0]] + parts[1..] == parts;
    }
  }
}

=== FILE: kanshi_config.dfy ===
/**
 * The in-memory form of a kanshi configuration file: profiles holding
 * output entries holding optional directives. Plain Go strings whose empty
 * value means "absent" stay strings; nullable Go `*T` fields become `Option`s.
 */
module KanshiConfig {
  import opened Wrappers
  import opened GoStrings

  /** A Go `float64`, identified by its IEEE 754 bit pattern. */
  type Float64 = bv64

  /** `strconv.ParseFloat(text, 64)`: a value, or `None` for a syntax or range error. */
  type FloatReader = string -> Option<Float64>

  /** `fmt.Sprintf("%g", v)`. */
  type FloatWriter = Float64 -> string

  datatype Position = Position(x: Int64, y: Int64)

  datatype Output = Output(
    criteria: string,
    enabled: Option<bool>,
    mode: string,             // "" when absent
    scale: Option<Float64>,
    position: Option<Position>,
    transform: string,        // "" when absent
    adaptiveSync: Option<bool>)

  /** A profile; `name` is "" for an anonymous profile. */
  datatype Profile = Profile(name: string, outputs: seq<Output>)

  datatype Config = Config(profiles: seq<Profile>)

  /** A fresh entry for `criteria` with every directive absent. */
  function NewOutput(criteria: string): (o: Output)
    ensures o.criteria == criteria
  {
    Output(criteria, None, "", None, None, "", None)
  }

  /** The errors `Parse` reports; each aborts the whole parse. */
  datatype ParseError =
    | ExpectedBrace(pos: nat)           // a profile header not followed by `{`
    | UnexpectedEndInProfile            // only blanks left inside a profile body
    | InvalidScale(text: string)        // `scale` value the float reader rejects
    | InvalidPosition(text: string)     // `position` value without a comma
    | InvalidPositionX(text: string)    // x part not a Go int
    | InvalidPositionY(text: string)    // y part not a Go int

  /** The errors an output's directives can raise. */
  predicate IsDirectiveError(e: ParseError) {
    e.InvalidScale? || e.InvalidPosition? || e.InvalidPositionX? || e.InvalidPositionY?
  }
}

=== FILE: kanshi_examples.dfy ===
/**
 * The kanshi reader on small texts: the inputs on which the Go parser
 * never returns, the inputs behind the two findings in the README, read
 * as written and as evidently intended, and the end-of-input cases it
 * accepts. Each example is proved in three parts: what the scanners read
 * in the literal text, what each output entry parses to, and what the
 * profile and top-level loops make of that.
 */
module KanshiExamples {
  import opened Wrappers
  import opened GoStrings
  import opened KanshiConfig
  import opened KanshiScanner
  import opened KanshiParser
  import opened KanshiLayout

  /** `readWord` at `p` of a literal text: the word `s[p..e]`. */
  lemma WordAt(s: string, p: nat, e: nat, w: string)
    requires p <= e <= |s| && s[p..e] == w && IsWord(w) && (e == |s| || EndsWord(s[e]))
    ensures ReadWord(s, p) == (w, e)
    ensures w != [] && w[0] != '"' ==> ReadStringOrWord(s, p) == (w, e)
  {
    assert s[p..] == w + s[e..];
    ReadWordOver(s, p, w, s[e..]);
    if w != [] {
      assert s[p] == s[p..e][0];
    }
  }

  /** Both white-space skips at `p` of a literal text stop at `q`. */
  lemma BlanksAt(s: string, p: nat, q: nat)
    requires p <= q <= |s| && AllSpace(s[p..q]) && (q == |s| || (!IsSpace(s[q]) && s[q] != '#'))
    ensures SkipWhitespace(s, p) == q && SkipWhitespaceAndComments(s, p) == q
  {
    assert s[p..] == s[p..q] + s[q..];
    SkipWhitespaceOver(s, p, s[p..q], s[q..]);
    SkipBlanksOver(s, p, s[p..q], s[q..]);
  }

  /** A top-level `}` is a spin: `Parse` never returns. */
  lemma HangOnStrayBrace(readFloat: FloatReader)
    ensures Parse("}", readFloat) == Hang
  {
    var s := "}";
    assert SkipWhitespaceAndComments(s, 0) == 0;
    assert ReadWord(s, 0) == ("", 0);
  }

  /** An inline output that meets a `}` on its line: the scan spins on the brace and `Parse` never returns. */
  lemma HangOnInlineBrace(readFloat: FloatReader)
    ensures Parse("profile" + " {" + " output" + " X" + " enable" + " }", readFloat) == Hang
  {
    var s := "profile" + " {" + " output" + " X" + " enable" + " }";
    HangOnInlineBraceScan1(s);
    HangOnInlineBraceScan2(s);
    HangOnInlineBraceScan3(s);
    HangOnInlineBraceScan4(s);
    HangOnInlineBraceScan5(s);
    HangOnInlineBraceScan6(s);
    HangOnInlineBraceScan7(s);
    HangOnInlineBraceScan8(s);
    HangOnInlineBraceScan9(s);
    HangOnInlineBraceScan10(s);
    HangOnInlineBraceScan11(s);
    HangOnInlineBraceScan12(s);
    HangOnInlineBraceScan13(s);
    HangOnInlineBraceScan14(s);
    HangOnInlineBraceScan15(s);
    HangOnInlineBraceScan16(s);
    HangOnInlineBraceScan17(s);
    HangOnInlineBraceScan18(s);
    HangOnInlineBraceScan19(s);
    HangOnInlineBraceOutput1(s, readFloat);
    HangOnInlineBraceProfile(s, readFloat);
    HangOnInlineBraceParse(s, readFloat);
  }

  lemma HangOnInlineBraceScan1(s: string)
    requires s == "profile" + " {" + " output" + " X" + " enable" + " }"
    ensures |s| == 27
    ensures SkipWhitespaceAndComments(s, 0) == 0
  {
    BlanksAt(s, 0, 0);
  }

  lemma HangOnInlineBraceScan2(s: string)
    requires s == "profile" + " {" + " output" + " X" + " enable" + " }"
    ensures ReadWord(s, 0) == ("profile", 7)
  {
    WordAt(s, 0, 7, "profile");
  }

  lemma HangOnInlineBraceScan3(s: string)
    requires s == "profile" + " {" + " output" + " X" + " enable" + " }"
    ensures SkipWhitespace(s, 7) == 8
  {
    BlanksAt(s, 7, 8);
  }

  lemma HangOnInlineBraceScan4(s: string)
    requires s == "profile" + " {" + " output" + " X" + " enable" + " }"
    ensures s[8] == '{'
  {
  }

  lemma HangOnInlineBraceScan5(s: string)
    requires s == "profile" + " {" + " output" + " X" + " enable" + " }"
    ensures SkipWhitespaceAndComments(s, 9) == 10
  {
    BlanksAt(s, 9, 10);
  }

  lemma HangOnInlineBraceScan6(s: string)
    requires s == "profile" + " {" + " output" + " X" + " enable" + " }"
    ensures s[10] == 'o'
  {
  }

  lemma HangOnInlineBraceScan7(s: string)
    requires s == "profile" + " {" + " output" + " X" + " enable" + " }"
    ensures ReadWord(s, 10) == ("output", 16)
  {
    WordAt(s, 10, 16, "output");
  }

  lemma HangOnInlineBraceScan8(s: string)
    requires s == "profile" + " {" + " output" + " X" + " enable" + " }"
    ensures SkipWhitespace(s, 16) == 17
  {
    BlanksAt(s, 16, 17);
  }

  lemma HangOnInlineBraceScan9(s: string)
    requires s == "profile" + " {" + " output" + " X" + " enable" + " }"
    ensures ReadStringOrWord(s, 17) == ("X", 18)
  {
    WordAt(s, 17, 18, "X");
  }

  lemma HangOnInlineBraceScan10(s: string)
    requires s == "profile" + " {" + " output" + " X" + " enable" + " }"
    ensures SkipWhitespace(s, 18) == 19
  {
    BlanksAt(s, 18, 19);
  }

  lemma HangOnInlineBraceScan11(s: string)
    requires s == "profile" + " {" + " output" + " X" + " enable" + " }"
    ensures s[19] == 'e'
  {
  }

  lemma HangOnInlineBraceScan12(s: string)
    requires s == "profile" + " {" + " output" + " X" + " enable" + " }"
    ensures SkipWhitespaceAndComments(s, 19) == 19
  {
    BlanksAt(s, 19, 19);
  }

  lemma HangOnInlineBraceScan13(s: string)
    requires s == "profile" + " {" + " output" + " X" + " enable" + " }"
    ensures s[18] == ' '
  {
  }

  lemma HangOnInlineBraceScan14(s: string)
    requires s == "profile" + " {" + " output" + " X" + " enable" + " }"
    ensures ReadWord(s, 19) == ("enable", 25)
  {
    WordAt(s, 19, 25, "enable");
  }

  lemma HangOnInlineBraceScan15(s: string)
    requires s == "profile" + " {" + " output" + " X" + " enable" + " }"
    ensures SkipWhitespaceAndComments(s, 25) == 26
  {
    BlanksAt(s, 25, 26);
  }

  lemma HangOnInlineBraceScan16(s: string)
    requires s == "profile" + " {" + " output" + " X" + " enable" + " }"
    ensures s[26] == '}'
  {
  }

  lemma HangOnInlineBraceScan17(s: string)
    requires s == "profile" + " {" + " output" + " X" + " enable" + " }"
    ensures s[25] == ' '
  {
  }

  lemma HangOnInlineBraceScan18(s: string)
    requires s == "profile" + " {" + " output" + " X" + " enable" + " }"
    ensures ReadWord(s, 26) == ("", 26)
  {
    WordAt(s, 26, 26, "");
  }

  lemma HangOnInlineBraceScan19(s: string)
    requires s == "profile" + " {" + " output" + " X" + " enable" + " }"
    ensures SkipWhitespaceAndComments(s, 26) == 26
  {
    BlanksAt(s, 26, 26);
  }

  lemma HangOnInlineBraceOutput1(s: string, readFloat: FloatReader)
    requires |s| == 27
    requires SkipWhitespace(s, 16) == 17
    requires ReadStringOrWord(s, 17) == ("X", 18)
    requires SkipWhitespace(s, 18) == 19
    requires s[19] == 'e'
    requires SkipWhitespaceAndComments(s, 19) == 19
    requires s[18] == ' '
    requires ReadWord(s, 19) == ("enable", 25)
    requires SkipWhitespaceAndComments(s, 25) == 26
    requires s[26] == '}'
    requires s[25] == ' '
    requires ReadWord(s, 26) == ("", 26)
    requires SkipWhitespaceAndComments(s, 26) == 26
    ensures ParseOutput(AsWritten, s, readFloat, 16) == Hang
  {
    var o1 := Output("X", None, "", None, None, "", None);
    var o2 := Output("X", Some(true), "", None, None, "", None);
    assert DirectiveStep(AsWritten, s, readFloat, '\n', Cursor(19, o1)) == Next(Cursor(25, o2));
    assert DirectiveStep(AsWritten, s, readFloat, '\n', Cursor(25, o2)) == Next(Cursor(26, o2));
    assert DirectiveStep(AsWritten, s, readFloat, '\n', Cursor(26, o2)) == Next(Cursor(26, o2));
    assert DirectiveLoop(AsWritten, s, readFloat, '\n', Cursor(26, o2)) == Hang;
    assert DirectiveLoop(AsWritten, s, readFloat, '\n', Cursor(25, o2)) == Hang;
    assert DirectiveLoop(AsWritten, s, readFloat, '\n', Cursor(19, o1)) == Hang;
  }

  lemma HangOnInlineBraceStep1(s: string, readFloat: FloatReader)
    requires |s| == 27
    requires SkipWhitespaceAndComments(s, 0) == 0
    requires ReadWord(s, 0) == ("profile", 7)
    requires SkipWhitespace(s, 7) == 8
    requires s[8] == '{'
    requires SkipWhitespaceAndComments(s, 9) == 10
    requires s[10] == 'o'
    requires ReadWord(s, 10) == ("output", 16)
    requires ParseOutput(AsWritten, s, readFloat, 16) == Hang
    ensures ProfileStep(AsWritten, s, readFloat, Cursor(9, Profile("", []))) == Stuck
  {
  }

  lemma HangOnInlineBraceProfile(s: string, readFloat: FloatReader)
    requires |s| == 27
    requires SkipWhitespaceAndComments(s, 0) == 0
    requires ReadWord(s, 0) == ("profile", 7)
    requires SkipWhitespace(s, 7) == 8
    requires s[8] == '{'
    requires SkipWhitespaceAndComments(s, 9) == 10
    requires s[10] == 'o'
    requires ReadWord(s, 10) == ("output", 16)
    requires ParseOutput(AsWritten, s, readFloat, 16) == Hang
    ensures ParseProfile(AsWritten, s, readFloat, 7) == Hang
  {
    HangOnInlineBraceStep1(s, readFloat);
    var p1 := Profile("", []);
    assert ProfileHeader(s, 7) == ("", 8);
    assert ProfileLoop(AsWritten, s, readFloat, Cursor(9, p1)) == Hang;
  }

  lemma HangOnInlineBraceTopStep1(s: string, readFloat: FloatReader)
    requires |s| == 27
    requires SkipWhitespaceAndComments(s, 0) == 0
    requires ReadWord(s, 0) == ("profile", 7)
    requires SkipWhitespace(s, 7) == 8
    requires s[8] == '{'
    requires SkipWhitespaceAndComments(s, 9) == 10
    requires s[10] == 'o'
    requires ReadWord(s, 10) == ("output", 16)
    requires ParseProfile(AsWritten, s, readFloat, 7) == Hang
    ensures TopStep(AsWritten, s, readFloat, Cursor(0, [])) == Stuck
  {
  }

  lemma HangOnInlineBraceParse(s: string, readFloat: FloatReader)
    requires |s| == 27
    requires SkipWhitespaceAndComments(s, 0) == 0
    requires ReadWord(s, 0) == ("profile", 7)
    requires SkipWhitespace(s, 7) == 8
    requires s[8] == '{'
    requires SkipWhitespaceAndComments(s, 9) == 10
    requires s[10] == 'o'
    requires ReadWord(s, 10) == ("output", 16)
    requires ParseProfile(AsWritten, s, readFloat, 7) == Hang
    ensures ParseWith(AsWritten, s, readFloat) == Hang
  {
    HangOnInlineBraceTopStep1(s, readFloat);
    assert TopLoop(AsWritten, s, readFloat, Cursor(0, [])) == Hang;
  }

  /** A `{` where an unknown directive's value would be: the block scan spins on it. */
  lemma HangOnNestedBrace(readFloat: FloatReader)
    ensures Parse("profile" + " {\n" + "  output" + " X { foo" + " { } }\n" + "}", readFloat) == Hang
  {
    var s := "profile" + " {\n" + "  output" + " X { foo" + " { } }\n" + "}";
    HangOnNestedBraceScan1(s);
    HangOnNestedBraceScan2(s);
    HangOnNestedBraceScan3(s);
    HangOnNestedBraceScan4(s);
    HangOnNestedBraceScan5(s);
    HangOnNestedBraceScan6(s);
    HangOnNestedBraceScan7(s);
    HangOnNestedBraceScan8(s);
    HangOnNestedBraceScan9(s);
    HangOnNestedBraceScan10(s);
    HangOnNestedBraceScan11(s);
    HangOnNestedBraceScan12(s);
    HangOnNestedBraceScan13(s);
    HangOnNestedBraceScan14(s);
    HangOnNestedBraceScan15(s);
    HangOnNestedBraceScan16(s);
    HangOnNestedBraceScan17(s);
    HangOnNestedBraceScan18(s);
    HangOnNestedBraceScan19(s);
    HangOnNestedBraceOutput1(s, readFloat);
    HangOnNestedBraceProfile(s, readFloat);
    HangOnNestedBraceParse(s, readFloat);
  }

  lemma HangOnNestedBraceScan1(s: string)
    requires s == "profile" + " {\n" + "  output" + " X { foo" + " { } }\n" + "}"
    ensures |s| == 34
    ensures SkipWhitespaceAndComments(s, 0) == 0
  {
    BlanksAt(s, 0, 0);
  }

  lemma HangOnNestedBraceScan2(s: string)
    requires s == "profile" + " {\n" + "  output" + " X { foo" + " { } }\n" + "}"
    ensures ReadWord(s, 0) == ("profile", 7)
  {
    WordAt(s, 0, 7, "profile");
  }

  lemma HangOnNestedBraceScan3(s: string)
    requires s == "profile" + " {\n" + "  output" + " X { foo" + " { } }\n" + "}"
    ensures SkipWhitespace(s, 7) == 8
  {
    BlanksAt(s, 7, 8);
  }

  lemma HangOnNestedBraceScan4(s: string)
    requires s == "profile" + " {\n" + "  output" + " X { foo" + " { } }\n" + "}"
    ensures s[8] == '{'
  {
  }

  lemma HangOnNestedBraceScan5(s: string)
    requires s == "profile" + " {\n" + "  output" + " X { foo" + " { } }\n" + "}"
    ensures SkipWhitespaceAndComments(s, 9) == 12
  {
    BlanksAt(s, 9, 12);
  }

  lemma HangOnNestedBraceScan6(s: string)
    requires s == "profile" + " {\n" + "  output" + " X { foo" + " { } }\n" + "}"
    ensures s[12] == 'o'
  {
  }

  lemma HangOnNestedBraceScan7(s: string)
    requires s == "profile" + " {\n" + "  output" + " X { foo" + " { } }\n" + "}"
    ensures ReadWord(s, 12) == ("output", 18)
  {
    WordAt(s, 12, 18, "output");
  }

  lemma HangOnNestedBraceScan8(s: string)
    requires s == "profile" + " {\n" + "  output" + " X { foo" + " { } }\n" + "}"
    ensures SkipWhitespace(s, 18) == 19
  {
    BlanksAt(s, 18, 19);
  }

  lemma HangOnNestedBraceScan9(s: string)
    requires s == "profile" + " {\n" + "  output" + " X { foo" + " { } }\n" + "}"
    ensures ReadStringOrWord(s, 19) == ("X", 20)
  {
    WordAt(s, 19, 20, "X");
  }

  lemma HangOnNestedBraceScan10(s: string)
    requires s == "profile" + " {\n" + "  output" + " X { foo" + " { } }\n" + "}"
    ensures SkipWhitespace(s, 20) == 21
  {
    BlanksAt(s, 20, 21);
  }

  lemma HangOnNestedBraceScan11(s: string)
    requires s == "profile" + " {\n" + "  output" + " X { foo" + " { } }\n" + "}"
    ensures s[21] == '{'
  {
  }

  lemma HangOnNestedBraceScan12(s: string)
    requires s == "profile" + " {\n" + "  output" + " X { foo" + " { } }\n" + "}"
    ensures SkipWhitespaceAndComments(s, 22) == 23
  {
    BlanksAt(s, 22, 23);
  }

  lemma HangOnNestedBraceScan13(s: string)
    requires s == "profile" + " {\n" + "  output" + " X { foo" + " { } }\n" + "}"
    ensures s[23] == 'f'
  {
  }

  lemma HangOnNestedBraceScan14(s: string)
    requires s == "profile" + " {\n" + "  output" + " X { foo" + " { } }\n" + "}"
    ensures ReadWord(s, 23) == ("foo", 26)
  {
    WordAt(s, 23, 26, "foo");
  }

  lemma HangOnNestedBraceScan15(s: string)
    requires s == "profile" + " {\n" + "  output" + " X { foo" + " { } }\n" + "}"
    ensures SkipWhitespace(s, 26) == 27
  {
    BlanksAt(s, 26, 27);
  }

  lemma HangOnNestedBraceScan16(s: string)
    requires s == "profile" + " {\n" + "  output" + " X { foo" + " { } }\n" + "}"
    ensures s[27] == '{'
  {
  }

  lemma HangOnNestedBraceScan17(s: string)
    requires s == "profile" + " {\n" + "  output" + " X { foo" + " { } }\n" + "}"
    ensures ReadStringOrWord(s, 27) == ("", 27)
  {
    WordAt(s, 27, 27, "");
  }

  lemma HangOnNestedBraceScan18(s: string)
    requires s == "profile" + " {\n" + "  output" + " X { foo" + " { } }\n" + "}"
    ensures SkipWhitespaceAndComments(s, 27) == 27
  {
    BlanksAt(s, 27, 27);
  }

  lemma HangOnNestedBraceScan19(s: string)
    requires s == "profile" + " {\n" + "  output" + " X { foo" + " { } }\n" + "}"
    ensures ReadWord(s, 27) == ("", 27)
  {
    WordAt(s, 27, 27, "");
  }

  lemma HangOnNestedBraceOutput1(s: string, readFloat: FloatReader)
    requires |s| == 34
    requires SkipWhitespace(s, 18) == 19
    requires ReadStringOrWord(s, 19) == ("X", 20)
    requires SkipWhitespace(s, 20) == 21
    requires s[21] == '{'
    requires SkipWhitespaceAndComments(s, 22) == 23
    requires s[23] == 'f'
    requires ReadWord(s, 23) == ("foo", 26)
    requires SkipWhitespace(s, 26) == 27
    requires s[27] == '{'
    requires ReadStringOrWord(s, 27) == ("", 27)
    requires SkipWhitespaceAndComments(s, 27) == 27
    requires ReadWord(s, 27) == ("", 27)
    ensures ParseOutput(AsWritten, s, readFloat, 18) == Hang
  {
    var o1 := Output("X", None, "", None, None, "", None);
    assert DirectiveStep(AsWritten, s, readFloat, '}', Cursor(22, o1)) == Next(Cursor(27, o1));
    assert DirectiveStep(AsWritten, s, readFloat, '}', Cursor(27, o1)) == Next(Cursor(27, o1));
    assert DirectiveLoop(AsWritten, s, readFloat, '}', Cursor(27, o1)) == Hang;
    assert DirectiveLoop(AsWritten, s, readFloat, '}', Cursor(22, o1)) == Hang;
  }

  lemma HangOnNestedBraceStep1(s: string, readFloat: FloatReader)
    requires |s| == 34
    requires SkipWhitespaceAndComments(s, 0) == 0
    requires ReadWord(s, 0) == ("profile", 7)
    requires SkipWhitespace(s, 7) == 8
    requires s[8] == '{'
    requires SkipWhitespaceAndComments(s, 9) == 12
    requires s[12] == 'o'
    requires ReadWord(s, 12) == ("output", 18)
    requires ParseOutput(AsWritten, s, readFloat, 18) == Hang
    ensures ProfileStep(AsWritten, s, readFloat, Cursor(9, Profile("", []))) == Stuck
  {
  }

  lemma HangOnNestedBraceProfile(s: string, readFloat: FloatReader)
    requires |s| == 34
    requires SkipWhitespaceAndComments(s, 0) == 0
    requires ReadWord(s, 0) == ("profile", 7)
    requires SkipWhitespace(s, 7) == 8
    requires s[8] == '{'
    requires SkipWhitespaceAndComments(s, 9) == 12
    requires s[12] == 'o'
    requires ReadWord(s, 12) == ("output", 18)
    requires ParseOutput(AsWritten, s, readFloat, 18) == Hang
    ensures ParseProfile(AsWritten, s, readFloat, 7) == Hang
  {
    HangOnNestedBraceStep1(s, readFloat);
    var p1 := Profile("", []);
    assert ProfileHeader(s, 7) == ("", 8);
    assert ProfileLoop(AsWritten, s, readFloat, Cursor(9, p1)) == Hang;
  }

  lemma HangOnNestedBraceTopStep1(s: string, readFloat: FloatReader)
    requires |s| == 34
    requires SkipWhitespaceAndComments(s, 0) == 0
    requires ReadWord(s, 0) == ("profile", 7)
    requires SkipWhitespace(s, 7) == 8
    requires s[8] == '{'
    requires SkipWhitespaceAndComments(s, 9) == 12
    requires s[12] == 'o'
    requires ReadWord(s, 12) == ("output", 18)
    requires ParseProfile(AsWritten, s, readFloat, 7) == Hang
    ensures TopStep(AsWritten, s, readFloat, Cursor(0, [])) == Stuck
  {
  }

  lemma HangOnNestedBraceParse(s: string, readFloat: FloatReader)
    requires |s| == 34
    requires SkipWhitespaceAndComments(s, 0) == 0
    requires ReadWord(s, 0) == ("profile", 7)
    requires SkipWhitespace(s, 7) == 8
    requires s[8] == '{'
    requires SkipWhitespaceAndComments(s, 9) == 12
    requires s[12] == 'o'
    requires ReadWord(s, 12) == ("output", 18)
    requires ParseProfile(AsWritten, s, readFloat, 7) == Hang
    ensures ParseWith(AsWritten, s, readFloat) == Hang
  {
    HangOnNestedBraceTopStep1(s, readFloat);
    assert TopLoop(AsWritten, s, readFloat, Cursor(0, [])) == Hang;
  }

  /** An inline output followed by an indented line: the scan runs on into the next output and spins on its `{`. */
  lemma IndentedLineAsWritten(readFloat: FloatReader)
    ensures Parse("profile" + " {\n" + "  output" + " X" + " enable\n" + "  output" + " Y {" + " disable" + " }\n" + "}", readFloat) == Hang
  {
    var s := "profile" + " {\n" + "  output" + " X" + " enable\n" + "  output" + " Y {" + " disable" + " }\n" + "}";
    IndentedLineScan1(s);
    IndentedLineScan2(s);
    IndentedLineScan3(s);
    IndentedLineScan4(s);
    IndentedLineScan5(s);
    IndentedLineScan6(s);
    IndentedLineScan7(s);
    IndentedLineScan8(s);
    IndentedLineScan9(s);
    IndentedLineScan10(s);
    IndentedLineScan11(s);
    IndentedLineScan12(s);
    IndentedLineScan13(s);
    IndentedLineScan14(s);
    IndentedLineScan15(s);
    IndentedLineScan16(s);
    IndentedLineScan17(s);
    IndentedLineScan18(s);
    IndentedLineScan19(s);
    IndentedLineScan20(s);
    IndentedLineScan21(s);
    IndentedLineScan22(s);
    IndentedLineScan23(s);
    IndentedLineScan24(s);
    IndentedLineScan25(s);
    IndentedLineScan26(s);
    IndentedLineScan27(s);
    IndentedLineScan28(s);
    IndentedLineScan29(s);
    IndentedLineScan30(s);
    IndentedLineScan31(s);
    IndentedLineScan32(s);
    IndentedLineScan33(s);
    IndentedLineScan34(s);
    IndentedLineScan35(s);
    IndentedLineScan36(s);
    IndentedLineScan37(s);
    IndentedLineScan38(s);
    IndentedLineAsWrittenOutput1(s, readFloat);
    IndentedLineAsWrittenProfile(s, readFloat);
    IndentedLineAsWrittenParse(s, readFloat);
  }

  lemma IndentedLineScan1(s: string)
    requires s == "profile" + " {\n" + "  output" + " X" + " enable\n" + "  output" + " Y {" + " disable" + " }\n" + "}"
    ensures |s| == 52
    ensures SkipWhitespaceAndComments(s, 0) == 0
  {
    BlanksAt(s, 0, 0);
  }

  lemma IndentedLineScan2(s: string)
    requires s == "profile" + " {\n" + "  output" + " X" + " enable\n" + "  output" + " Y {" + " disable" + " }\n" + "}"
    ensures ReadWord(s, 0) == ("profile", 7)
  {
    WordAt(s, 0, 7, "profile");
  }

  lemma IndentedLineScan3(s: string)
    requires s == "profile" + " {\n" + "  output" + " X" + " enable\n" + "  output" + " Y {" + " disable" + " }\n" + "}"
    ensures SkipWhitespace(s, 7) == 8
  {
    BlanksAt(s, 7, 8);
  }

  lemma IndentedLineScan4(s: string)
    requires s == "profile" + " {\n" + "  output" + " X" + " enable\n" + "  output" + " Y {" + " disable" + " }\n" + "}"
    ensures s[8] == '{'
  {
  }

  lemma IndentedLineScan5(s: string)
    requires s == "profile" + " {\n" + "  output" + " X" + " enable\n" + "  output" + " Y {" + " disable" + " }\n" + "}"
    ensures SkipWhitespaceAndComments(s, 9) == 12
  {
    BlanksAt(s, 9, 12);
  }

  lemma IndentedLineScan6(s: string)
    requires s == "profile" + " {\n" + "  output" + " X" + " enable\n" + "  output" + " Y {" + " disable" + " }\n" + "}"
    ensures s[12] == 'o'
  {
  }

  lemma IndentedLineScan7(s: string)
    requires s == "profile" + " {\n" + "  output" + " X" + " enable\n" + "  output" + " Y {" + " disable" + " }\n" + "}"
    ensures ReadWord(s, 12) == ("output", 18)
  {
    WordAt(s, 12, 18, "output");
  }

  lemma IndentedLineScan8(s: string)
    requires s == "profile" + " {\n" + "  output" + " X" + " enable\n" + "  output" + " Y {" + " disable" + " }\n" + "}"
    ensures SkipWhitespace(s, 18) == 19
  {
    BlanksAt(s, 18, 19);
  }

  lemma IndentedLineScan9(s: string)
    requires s == "profile" + " {\n" + "  output" + " X" + " enable\n" + "  output" + " Y {" + " disable" + " }\n" + "}"
    ensures ReadStringOrWord(s, 19) == ("X", 20)
  {
    WordAt(s, 19, 20, "X");
  }

  lemma IndentedLineScan10(s: string)
    requires s == "profile" + " {\n" + "  output" + " X" + " enable\n" + "  output" + " Y {" + " disable" + " }\n" + "}"
    ensures SkipWhitespace(s, 20) == 21
  {
    BlanksAt(s, 20, 21);
  }

  lemma IndentedLineScan11(s: string)
    requires s == "profile" + " {\n" + "  output" + " X" + " enable\n" + "  output" + " Y {" + " disable" + " }\n" + "}"
    ensures s[21] == 'e'
  {
  }

  lemma IndentedLineScan12(s: string)
    requires s == "profile" + " {\n" + "  output" + " X" + " enable\n" + "  output" + " Y {" + " disable" + " }\n" + "}"
    ensures SkipWhitespaceAndComments(s, 21) == 21
  {
    BlanksAt(s, 21, 21);
  }

  lemma IndentedLineScan13(s: string)
    requires s == "profile" + " {\n" + "  output" + " X" + " enable\n" + "  output" + " Y {" + " disable" + " }\n" + "}"
    ensures s[20] == ' '
  {
  }

  lemma IndentedLineScan14(s: string)
    requires s == "profile" + " {\n" + "  output" + " X" + " enable\n" + "  output" + " Y {" + " disable" + " }\n" + "}"
    ensures ReadWord(s, 21) == ("enable", 27)
  {
    WordAt(s, 21, 27, "enable");
  }

  lemma IndentedLineScan15(s: string)
    requires s == "profile" + " {\n" + "  output" + " X" + " enable\n" + "  output" + " Y {" + " disable" + " }\n" + "}"
    ensures SkipWhitespaceAndComments(s, 27) == 30
  {
    BlanksAt(s, 27, 30);
  }

  lemma IndentedLineScan16(s: string)
    requires s == "profile" + " {\n" + "  output" + " X" + " enable\n" + "  output" + " Y {" + " disable" + " }\n" + "}"
    ensures s[30] == 'o'
  {
  }

  lemma IndentedLineScan17(s: string)
    requires s == "profile" + " {\n" + "  output" + " X" + " enable\n" + "  output" + " Y {" + " disable" + " }\n" + "}"
    ensures s[29] == ' '
  {
  }

  lemma IndentedLineScan18(s: string)
    requires s == "profile" + " {\n" + "  output" + " X" + " enable\n" + "  output" + " Y {" + " disable" + " }\n" + "}"
    ensures ReadWord(s, 30) == ("output", 36)
  {
    WordAt(s, 30, 36, "output");
  }

  lemma IndentedLineScan19(s: string)
    requires s == "profile" + " {\n" + "  output" + " X" + " enable\n" + "  output" + " Y {" + " disable" + " }\n" + "}"
    ensures SkipWhitespace(s, 36) == 37
  {
    BlanksAt(s, 36, 37);
  }

  lemma IndentedLineScan20(s: string)
    requires s == "profile" + " {\n" + "  output" + " X" + " enable\n" + "  output" + " Y {" + " disable" + " }\n" + "}"
    ensures s[37] == 'Y'
  {
  }

  lemma IndentedLineScan21(s: string)
    requires s == "profile" + " {\n" + "  output" + " X" + " enable\n" + "  output" + " Y {" + " disable" + " }\n" + "}"
    ensures ReadStringOrWord(s, 37) == ("Y", 38)
  {
    WordAt(s, 37, 38, "Y");
  }

  lemma IndentedLineScan22(s: string)
    requires s == "profile" + " {\n" + "  output" + " X" + " enable\n" + "  output" + " Y {" + " disable" + " }\n" + "}"
    ensures SkipWhitespaceAndComments(s, 38) == 39
  {
    BlanksAt(s, 38, 39);
  }

  lemma IndentedLineScan23(s: string)
    requires s == "profile" + " {\n" + "  output" + " X" + " enable\n" + "  output" + " Y {" + " disable" + " }\n" + "}"
    ensures s[39] == '{'
  {
  }

  lemma IndentedLineScan24(s: string)
    requires s == "profile" + " {\n" + "  output" + " X" + " enable\n" + "  output" + " Y {" + " disable" + " }\n" + "}"
    ensures s[38] == ' '
  {
  }

  lemma IndentedLineScan25(s: string)
    requires s == "profile" + " {\n" + "  output" + " X" + " enable\n" + "  output" + " Y {" + " disable" + " }\n" + "}"
    ensures ReadWord(s, 39) == ("", 39)
  {
    WordAt(s, 39, 39, "");
  }

  lemma IndentedLineScan26(s: string)
    requires s == "profile" + " {\n" + "  output" + " X" + " enable\n" + "  output" + " Y {" + " disable" + " }\n" + "}"
    ensures SkipWhitespaceAndComments(s, 39) == 39
  {
    BlanksAt(s, 39, 39);
  }

  lemma IndentedLineScan27(s: string)
    requires s == "profile" + " {\n" + "  output" + " X" + " enable\n" + "  output" + " Y {" + " disable" + " }\n" + "}"
    ensures SkipWhitespaceAndComments(s, 20) == 21
  {
    BlanksAt(s, 20, 21);
  }

  lemma IndentedLineScan28(s: string)
    requires s == "profile" + " {\n" + "  output" + " X" + " enable\n" + "  output" + " Y {" + " disable" + " }\n" + "}"
    ensures '\n' !in s[20..21]
  {
    assert s[20..21] == " ";
  }

  lemma IndentedLineScan29(s: string)
    requires s == "profile" + " {\n" + "  output" + " X" + " enable\n" + "  output" + " Y {" + " disable" + " }\n" + "}"
    ensures '\n' in s[27..30]
  {
    assert s[27..30] == "\n  ";
  }

  lemma IndentedLineScan30(s: string)
    requires s == "profile" + " {\n" + "  output" + " X" + " enable\n" + "  output" + " Y {" + " disable" + " }\n" + "}"
    ensures SkipWhitespaceAndComments(s, 30) == 30
  {
    BlanksAt(s, 30, 30);
  }

  lemma IndentedLineScan31(s: string)
    requires s == "profile" + " {\n" + "  output" + " X" + " enable\n" + "  output" + " Y {" + " disable" + " }\n" + "}"
    ensures SkipWhitespace(s, 38) == 39
  {
    BlanksAt(s, 38, 39);
  }

  lemma IndentedLineScan32(s: string)
    requires s == "profile" + " {\n" + "  output" + " X" + " enable\n" + "  output" + " Y {" + " disable" + " }\n" + "}"
    ensures SkipWhitespaceAndComments(s, 40) == 41
  {
    BlanksAt(s, 40, 41);
  }

  lemma IndentedLineScan33(s: string)
    requires s == "profile" + " {\n" + "  output" + " X" + " enable\n" + "  output" + " Y {" + " disable" + " }\n" + "}"
    ensures s[41] == 'd'
  {
  }

  lemma IndentedLineScan34(s: string)
    requires s == "profile" + " {\n" + "  output" + " X" + " enable\n" + "  output" + " Y {" + " disable" + " }\n" + "}"
    ensures ReadWord(s, 41) == ("disable", 48)
  {
    WordAt(s, 41, 48, "disable");
  }

  lemma IndentedLineScan35(s: string)
    requires s == "profile" + " {\n" + "  output" + " X" + " enable\n" + "  output" + " Y {" + " disable" + " }\n" + "}"
    ensures SkipWhitespaceAndComments(s, 48) == 49
  {
    BlanksAt(s, 48, 49);
  }

  lemma IndentedLineScan36(s: string)
    requires s == "profile" + " {\n" + "  output" + " X" + " enable\n" + "  output" + " Y {" + " disable" + " }\n" + "}"
    ensures s[49] == '}'
  {
  }

  lemma IndentedLineScan37(s: string)
    requires s == "profile" + " {\n" + "  output" + " X" + " enable\n" + "  output" + " Y {" + " disable" + " }\n" + "}"
    ensures SkipWhitespaceAndComments(s, 50) == 51
  {
    BlanksAt(s, 50, 51);
  }

  lemma IndentedLineScan38(s: string)
    requires s == "profile" + " {\n" + "  output" + " X" + " enable\n" + "  output" + " Y {" + " disable" + " }\n" + "}"
    ensures s[51] == '}'
  {
  }

  lemma IndentedLineAsWrittenOutput1(s: string, readFloat: FloatReader)
    requires |s| == 52
    requires SkipWhitespace(s, 18) == 19
    requires ReadStringOrWord(s, 19) == ("X", 20)
    requires SkipWhitespace(s, 20) == 21
    requires s[21] == 'e'
    requires SkipWhitespaceAndComments(s, 21) == 21
    requires s[20] == ' '
    requires ReadWord(s, 21) == ("enable", 27)
    requires SkipWhitespaceAndComments(s, 27) == 30
    requires s[30] == 'o'
    requires s[29] == ' '
    requires ReadWord(s, 30) == ("output", 36)
    requires SkipWhitespace(s, 36) == 37
    requires s[37] == 'Y'
    requires ReadStringOrWord(s, 37) == ("Y", 38)
    requires SkipWhitespaceAndComments(s, 38) == 39
    requires s[39] == '{'
    requires s[38] == ' '
    requires ReadWord(s, 39) == ("", 39)
    requires SkipWhitespaceAndComments(s, 39) == 39
    ensures ParseOutput(AsWritten, s, readFloat, 18) == Hang
  {
    var o1 := Output("X", None, "", None, None, "", None);
    var o2 := Output("X", Some(true), "", None, None, "", None);
    assert DirectiveStep(AsWritten, s, readFloat, '\n', Cursor(21, o1)) == Next(Cursor(27, o2));
    assert DirectiveStep(AsWritten, s, readFloat, '\n', Cursor(27, o2)) == Next(Cursor(38, o2));
    assert DirectiveStep(AsWritten, s, readFloat, '\n', Cursor(38, o2)) == Next(Cursor(39, o2));
    assert DirectiveStep(AsWritten, s, readFloat, '\n', Cursor(39, o2)) == Next(Cursor(39, o2));
    assert DirectiveLoop(AsWritten, s, readFloat, '\n', Cursor(39, o2)) == Hang;
    assert DirectiveLoop(AsWritten, s, readFloat, '\n', Cursor(38, o2)) == Hang;
    assert DirectiveLoop(AsWritten, s, readFloat, '\n', Cursor(27, o2)) == Hang;
    assert DirectiveLoop(AsWritten, s, readFloat, '\n', Cursor(21, o1)) == Hang;
  }

  lemma IndentedLineAsWrittenStep1(s: string, readFloat: FloatReader)
    requires |s| == 52
    requires SkipWhitespaceAndComments(s, 0) == 0
    requires ReadWord(s, 0) == ("profile", 7)
    requires SkipWhitespace(s, 7) == 8
    requires s[8] == '{'
    requires SkipWhitespaceAndComments(s, 9) == 12
    requires s[12] == 'o'
    requires ReadWord(s, 12) == ("output", 18)
    requires ParseOutput(AsWritten, s, readFloat, 18) == Hang
    ensures ProfileStep(AsWritten, s, readFloat, Cursor(9, Profile("", []))) == Stuck
  {
  }

  lemma IndentedLineAsWrittenProfile(s: string, readFloat: FloatReader)
    requires |s| == 52
    requires SkipWhitespaceAndComments(s, 0) == 0
    requires ReadWord(s, 0) == ("profile", 7)
    requires SkipWhitespace(s, 7) == 8
    requires s[8] == '{'
    requires SkipWhitespaceAndComments(s, 9) == 12
    requires s[12] == 'o'
    requires ReadWord(s, 12) == ("output", 18)
    requires ParseOutput(AsWritten, s, readFloat, 18) == Hang
    ensures ParseProfile(AsWritten, s, readFloat, 7) == Hang
  {
    IndentedLineAsWrittenStep1(s, readFloat);
    var p1 := Profile("", []);
    assert ProfileHeader(s, 7) == ("", 8);
    assert ProfileLoop(AsWritten, s, readFloat, Cursor(9, p1)) == Hang;
  }

  lemma IndentedLineAsWrittenTopStep1(s: string, readFloat: FloatReader)
    requires |s| == 52
    requires SkipWhitespaceAndComments(s, 0) == 0
    requires ReadWord(s, 0) == ("profile", 7)
    requires SkipWhitespace(s, 7) == 8
    requires s[8] == '{'
    requires SkipWhitespaceAndComments(s, 9) == 12
    requires s[12] == 'o'
    requires ReadWord(s, 12) == ("output", 18)
    requires ParseProfile(AsWritten, s, readFloat, 7) == Hang
    ensures TopStep(AsWritten, s, readFloat, Cursor(0, [])) == Stuck
  {
  }

  lemma IndentedLineAsWrittenParse(s: string, readFloat: FloatReader)
    requires |s| == 52
    requires SkipWhitespaceAndComments(s, 0) == 0
    requires ReadWord(s, 0) == ("profile", 7)
    requires SkipWhitespace(s, 7) == 8
    requires s[8] == '{'
    requires SkipWhitespaceAndComments(s, 9) == 12
    requires s[12] == 'o'
    requires ReadWord(s, 12) == ("output", 18)
    requires ParseProfile(AsWritten, s, readFloat, 7) == Hang
    ensures ParseWith(AsWritten, s, readFloat) == Hang
  {
    IndentedLineAsWrittenTopStep1(s, readFloat);
    assert TopLoop(AsWritten, s, readFloat, Cursor(0, [])) == Hang;
  }

  /** The same text, ending inline directives at the line end: both outputs are read. */
  lemma IndentedLineAware(readFloat: FloatReader)
    ensures ParseLineAware("profile" + " {\n" + "  output" + " X" + " enable\n" + "  output" + " Y {" + " disable" + " }\n" + "}", readFloat) == Done(Config([Profile("", [Output("X", Some(true), "", None, None, "", None), Output("Y", Some(false), "", None, None, "", None)])]))
  {
    var s := "profile" + " {\n" + "  output" + " X" + " enable\n" + "  output" + " Y {" + " disable" + " }\n" + "}";
    IndentedLineScan1(s);
    IndentedLineScan2(s);
    IndentedLineScan3(s);
    IndentedLineScan4(s);
    IndentedLineScan5(s);
    IndentedLineScan6(s);
    IndentedLineScan7(s);
    IndentedLineScan8(s);
    IndentedLineScan9(s);
    IndentedLineScan10(s);
    IndentedLineScan11(s);
    IndentedLineScan12(s);
    IndentedLineScan13(s);
    IndentedLineScan14(s);
    IndentedLineScan15(s);
    IndentedLineScan16(s);
    IndentedLineScan17(s);
    IndentedLineScan18(s);
    IndentedLineScan19(s);
    IndentedLineScan20(s);
    IndentedLineScan21(s);
    IndentedLineScan22(s);
    IndentedLineScan23(s);
    IndentedLineScan24(s);
    IndentedLineScan25(s);
    IndentedLineScan26(s);
    IndentedLineScan27(s);
    IndentedLineScan28(s);
    IndentedLineScan29(s);
    IndentedLineScan30(s);
    IndentedLineScan31(s);
    IndentedLineScan32(s);
    IndentedLineScan33(s);
    IndentedLineScan34(s);
    IndentedLineScan35(s);
    IndentedLineScan36(s);
    IndentedLineScan37(s);
    IndentedLineScan38(s);
    IndentedLineAwareOutput1(s, readFloat);
    IndentedLineAwareOutput2(s, readFloat);
    IndentedLineAwareProfile(s, readFloat);
    IndentedLineAwareParse(s, readFloat);
  }

  lemma IndentedLineAwareOutput1(s: string, readFloat: FloatReader)
    requires |s| == 52
    requires SkipWhitespace(s, 18) == 19
    requires ReadStringOrWord(s, 19) == ("X", 20)
    requires SkipWhitespace(s, 20) == 21
    requires s[21] == 'e'
    requires SkipWhitespaceAndComments(s, 20) == 21
    requires '\n' !in s[20..21]
    requires ReadWord(s, 21) == ("enable", 27)
    requires SkipWhitespaceAndComments(s, 27) == 30
    requires s[30] == 'o'
    requires '\n' in s[27..30]
    ensures ParseOutput(LineAware, s, readFloat, 18) == Done((Output("X", Some(true), "", None, None, "", None), 30))
  {
    var o1 := Output("X", None, "", None, None, "", None);
    var o2 := Output("X", Some(true), "", None, None, "", None);
    assert DirectiveStep(LineAware, s, readFloat, '\n', Cursor(20, o1)) == Next(Cursor(27, o2));
    assert DirectiveStep(LineAware, s, readFloat, '\n', Cursor(27, o2)) == Stop(Cursor(30, o2));
    assert DirectiveLoop(LineAware, s, readFloat, '\n', Cursor(27, o2)) == Done(Cursor(30, o2));
    assert DirectiveLoop(LineAware, s, readFloat, '\n', Cursor(20, o1)) == Done(Cursor(30, o2));
  }

  lemma IndentedLineAwareOutput2(s: string, readFloat: FloatReader)
    requires |s| == 52
    requires SkipWhitespace(s, 36) == 37
    requires ReadStringOrWord(s, 37) == ("Y", 38)
    requires SkipWhitespace(s, 38) == 39
    requires s[39] == '{'
    requires SkipWhitespaceAndComments(s, 40) == 41
    requires s[41] == 'd'
    requires ReadWord(s, 41) == ("disable", 48)
    requires SkipWhitespaceAndComments(s, 48) == 49
    requires s[49] == '}'
    ensures ParseOutput(LineAware, s, readFloat, 36) == Done((Output("Y", Some(false), "", None, None, "", None), 50))
  {
    var o1 := Output("Y", None, "", None, None, "", None);
    var o2 := Output("Y", Some(false), "", None, None, "", None);
    assert DirectiveStep(LineAware, s, readFloat, '}', Cursor(40, o1)) == Next(Cursor(48, o2));
    assert DirectiveStep(LineAware, s, readFloat, '}', Cursor(48, o2)) == Stop(Cursor(49, o2));
    assert DirectiveLoop(LineAware, s, readFloat, '}', Cursor(48, o2)) == Done(Cursor(49, o2));
    assert DirectiveLoop(LineAware, s, readFloat, '}', Cursor(40, o1)) == Done(Cursor(49, o2));
  }

  lemma IndentedLineAwareStep1(s: string, readFloat: FloatReader)
    requires |s| == 52
    requires SkipWhitespaceAndComments(s, 0) == 0
    requires ReadWord(s, 0) == ("profile", 7)
    requires SkipWhitespace(s, 7) == 8
    requires s[8] == '{'
    requires SkipWhitespaceAndComments(s, 9) == 12
    requires s[12] == 'o'
    requires ReadWord(s, 12) == ("output", 18)
    requires SkipWhitespaceAndComments(s, 30) == 30
    requires s[30] == 'o'
    requires ReadWord(s, 30) == ("output", 36)
    requires SkipWhitespaceAndComments(s, 50) == 51
    requires s[51] == '}'
    requires ParseOutput(LineAware, s, readFloat, 18) == Done((Output("X", Some(true), "", None, None, "", None), 30))
    requires ParseOutput(LineAware, s, readFloat, 36) == Done((Output("Y", Some(false), "", None, None, "", None), 50))
    ensures ProfileStep(LineAware, s, readFloat, Cursor(9, Profile("", []))) == Next(Cursor(30, Profile("", [Output("X", Some(true), "", None, None, "", None)])))
  {
    var o1 := Output("X", Some(true), "", None, None, "", None);
    assert [] + [o1] == [o1];
  }

  lemma IndentedLineAwareStep2(s: string, readFloat: FloatReader)
    requires |s| == 52
    requires SkipWhitespaceAndComments(s, 0) == 0
    requires ReadWord(s, 0) == ("profile", 7)
    requires SkipWhitespace(s, 7) == 8
    requires s[8] == '{'
    requires SkipWhitespaceAndComments(s, 9) == 12
    requires s[12] == 'o'
    requires ReadWord(s, 12) == ("output", 18)
    requires SkipWhitespaceAndComments(s, 30) == 30
    requires s[30] == 'o'
    requires ReadWord(s, 30) == ("output", 36)
    requires SkipWhitespaceAndComments(s, 50) == 51
    requires s[51] == '}'
    requires ParseOutput(LineAware, s, readFloat, 18) == Done((Output("X", Some(true), "", None, None, "", None), 30))
    requires ParseOutput(LineAware, s, readFloat, 36) == Done((Output("Y", Some(false), "", None, None, "", None), 50))
    ensures ProfileStep(LineAware, s, readFloat, Cursor(30, Profile("", [Output("X", Some(true), "", None, None, "", None)]))) == Next(Cursor(50, Profile("", [Output("X", Some(true), "", None, None, "", None), Output("Y", Some(false), "", None, None, "", None)])))
  {
    var o1 := Output("X", Some(true), "", None, None, "", None);
    var o2 := Output("Y", Some(false), "", None, None, "", None);
    assert [o1] + [o2] == [o1, o2];
  }

  lemma IndentedLineAwareStep3(s: string, readFloat: FloatReader)
    requires |s| == 52
    requires SkipWhitespaceAndComments(s, 0) == 0
    requires ReadWord(s, 0) == ("profile", 7)
    requires SkipWhitespace(s, 7) == 8
    requires s[8] == '{'
    requires SkipWhitespaceAndComments(s, 9) == 12
    requires s[12] == 'o'
    requires ReadWord(s, 12) == ("output", 18)
    requires SkipWhitespaceAndComments(s, 30) == 30
    requires s[30] == 'o'
    requires ReadWord(s, 30) == ("output", 36)
    requires SkipWhitespaceAndComments(s, 50) == 51
    requires s[51] == '}'
    requires ParseOutput(LineAware, s, readFloat, 18) == Done((Output("X", Some(true), "", None, None, "", None), 30))
    requires ParseOutput(LineAware, s, readFloat, 36) == Done((Output("Y", Some(false), "", None, None, "", None), 50))
    ensures ProfileStep(LineAware, s, readFloat, Cursor(50, Profile("", [Output("X", Some(true), "", None, None, "", None), Output("Y", Some(false), "", None, None, "", None)]))) == Stop(Cursor(52, Profile("", [Output("X", Some(true), "", None, None, "", None), Output("Y", Some(false), "", None, None, "", None)])))
  {
  }

  lemma IndentedLineAwareProfile(s: string, readFloat: FloatReader)
    requires |s| == 52
    requires SkipWhitespaceAndComments(s, 0) == 0
    requires ReadWord(s, 0) == ("profile", 7)
    requires SkipWhitespace(s, 7) == 8
    requires s[8] == '{'
    requires SkipWhitespaceAndComments(s, 9) == 12
    requires s[12] == 'o'
    requires ReadWord(s, 12) == ("output", 18)
    requires SkipWhitespaceAndComments(s, 30) == 30
    requires s[30] == 'o'
    requires ReadWord(s, 30) == ("output", 36)
    requires SkipWhitespaceAndComments(s, 50) == 51
    requires s[51] == '}'
    requires ParseOutput(LineAware, s, readFloat, 18) == Done((Output("X", Some(true), "", None, None, "", None), 30))
    requires ParseOutput(LineAware, s, readFloat, 36) == Done((Output("Y", Some(false), "", None, None, "", None), 50))
    ensures ParseProfile(LineAware, s, readFloat, 7) == Done(Cursor(52, Profile("", [Output("X", Some(true), "", None, None, "", None), Output("Y", Some(false), "", None, None, "", None)])))
  {
    IndentedLineAwareStep1(s, readFloat);
    IndentedLineAwareStep2(s, readFloat);
    IndentedLineAwareStep3(s, readFloat);
    var o1 := Output("X", Some(true), "", None, None, "", None);
    var o2 := Output("Y", Some(false), "", None, None, "", None);
    var p1 := Profile("", [o1, o2]);
    var p2 := Profile("", [o1]);
    var p3 := Profile("", []);
    assert ProfileHeader(s, 7) == ("", 8);
    assert ProfileLoop(LineAware, s, readFloat, Cursor(50, p1)) == Done(Cursor(52, p1));
    assert ProfileLoop(LineAware, s, readFloat, Cursor(30, p2)) == Done(Cursor(52, p1));
    assert ProfileLoop(LineAware, s, readFloat, Cursor(9, p3)) == Done(Cursor(52, p1));
  }

  lemma IndentedLineAwareTopStep1(s: string, readFloat: FloatReader)
    requires |s| == 52
    requires SkipWhitespaceAndComments(s, 0) == 0
    requires ReadWord(s, 0) == ("profile", 7)
    requires SkipWhitespace(s, 7) == 8
    requires s[8] == '{'
    requires SkipWhitespaceAndComments(s, 9) == 12
    requires s[12] == 'o'
    requires ReadWord(s, 12) == ("output", 18)
    requires SkipWhitespaceAndComments(s, 30) == 30
    requires s[30] == 'o'
    requires ReadWord(s, 30) == ("output", 36)
    requires SkipWhitespaceAndComments(s, 50) == 51
    requires s[51] == '}'
    requires ParseProfile(LineAware, s, readFloat, 7) == Done(Cursor(52, Profile("", [Output("X", Some(true), "", None, None, "", None), Output("Y", Some(false), "", None, None, "", None)])))
    ensures TopStep(LineAware, s, readFloat, Cursor(0, [])) == Next(Cursor(52, [Profile("", [Output("X", Some(true), "", None, None, "", None), Output("Y", Some(false), "", None, None, "", None)])]))
  {
    var o1 := Output("X", Some(true), "", None, None, "", None);
    var o2 := Output("Y", Some(false), "", None, None, "", None);
    var p1 := Profile("", [o1, o2]);
    assert [] + [p1] == [p1];
    assert TopWord(LineAware, s, readFloat, "profile", 7, Cursor(0, [])) == Next(Cursor(52, [p1]));
  }

  lemma IndentedLineAwareTopStep2(s: string, readFloat: FloatReader)
    requires |s| == 52
    requires SkipWhitespaceAndComments(s, 0) == 0
    requires ReadWord(s, 0) == ("profile", 7)
    requires SkipWhitespace(s, 7) == 8
    requires s[8] == '{'
    requires SkipWhitespaceAndComments(s, 9) == 12
    requires s[12] == 'o'
    requires ReadWord(s, 12) == ("output", 18)
    requires SkipWhitespaceAndComments(s, 30) == 30
    requires s[30] == 'o'
    requires ReadWord(s, 30) == ("output", 36)
    requires SkipWhitespaceAndComments(s, 50) == 51
    requires s[51] == '}'
    requires ParseProfile(LineAware, s, readFloat, 7) == Done(Cursor(52, Profile("", [Output("X", Some(true), "", None, None, "", None), Output("Y", Some(false), "", None, None, "", None)])))
    ensures TopStep(LineAware, s, readFloat, Cursor(52, [Profile("", [Output("X", Some(true), "", None, None, "", None), Output("Y", Some(false), "", None, None, "", None)])])) == Stop(Cursor(52, [Profile("", [Output("X", Some(true), "", None, None, "", None), Output("Y", Some(false), "", None, None, "", None)])]))
  {
  }

  lemma IndentedLineAwareParse(s: string, readFloat: FloatReader)
    requires |s| == 52
    requires SkipWhitespaceAndComments(s, 0) == 0
    requires ReadWord(s, 0) == ("profile", 7)
    requires SkipWhitespace(s, 7) == 8
    requires s[8] == '{'
    requires SkipWhitespaceAndComments(s, 9) == 12
    requires s[12] == 'o'
    requires ReadWord(s, 12) == ("output", 18)
    requires SkipWhitespaceAndComments(s, 30) == 30
    requires s[30] == 'o'
    requires ReadWord(s, 30) == ("output", 36)
    requires SkipWhitespaceAndComments(s, 50) == 51
    requires s[51] == '}'
    requires ParseProfile(LineAware, s, readFloat, 7) == Done(Cursor(52, Profile("", [Output("X", Some(true), "", None, None, "", None), Output("Y", Some(false), "", None, None, "", None)])))
    ensures ParseWith(LineAware, s, readFloat) == Done(Config([Profile("", [Output("X", Some(true), "", None, None, "", None), Output("Y", Some(false), "", None, None, "", None)])]))
  {
    IndentedLineAwareTopStep1(s, readFloat);
    IndentedLineAwareTopStep2(s, readFloat);
    var o1 := Output("X", Some(true), "", None, None, "", None);
    var o2 := Output("Y", Some(false), "", None, None, "", None);
    var p1 := Profile("", [o1, o2]);
    assert TopLoop(LineAware, s, readFloat, Cursor(52, [p1])).Done? && TopLoop(LineAware, s, readFloat, Cursor(52, [p1])).value.value == [p1];
    assert TopLoop(LineAware, s, readFloat, Cursor(0, [])).Done? && TopLoop(LineAware, s, readFloat, Cursor(0, [])).value.value == [p1];
  }

  /** An unknown directive with no value takes the next line's `enable` as its value: `enabled` stays absent. */
  lemma ValuelessUnknownAsWritten(readFloat: FloatReader)
    ensures Parse("profile" + " {\n" + "output X" + " {\n" + "foo\n" + "enable\n" + "}\n" + "}", readFloat) == Done(Config([Profile("", [Output("X", None, "", None, None, "", None)])]))
  {
    var s := "profile" + " {\n" + "output X" + " {\n" + "foo\n" + "enable\n" + "}\n" + "}";
    ValuelessUnknownScan1(s);
    ValuelessUnknownScan2(s);
    ValuelessUnknownScan3(s);
    ValuelessUnknownScan4(s);
    ValuelessUnknownScan5(s);
    ValuelessUnknownScan6(s);
    ValuelessUnknownScan7(s);
    ValuelessUnknownScan8(s);
    ValuelessUnknownScan9(s);
    ValuelessUnknownScan10(s);
    ValuelessUnknownScan11(s);
    ValuelessUnknownScan12(s);
    ValuelessUnknownScan13(s);
    ValuelessUnknownScan14(s);
    ValuelessUnknownScan15(s);
    ValuelessUnknownScan16(s);
    ValuelessUnknownScan17(s);
    ValuelessUnknownScan18(s);
    ValuelessUnknownScan19(s);
    ValuelessUnknownScan20(s);
    ValuelessUnknownScan21(s);
    ValuelessUnknownScan22(s);
    ValuelessUnknownScan23(s);
    ValuelessUnknownScan24(s);
    ValuelessUnknownAsWrittenOutput1(s, readFloat);
    ValuelessUnknownAsWrittenProfile(s, readFloat);
    ValuelessUnknownAsWrittenParse(s, readFloat);
  }

  lemma ValuelessUnknownScan1(s: string)
    requires s == "profile" + " {\n" + "output X" + " {\n" + "foo\n" + "enable\n" + "}\n" + "}"
    ensures |s| == 35
    ensures SkipWhitespaceAndComments(s, 0) == 0
  {
    BlanksAt(s, 0, 0);
  }

  lemma ValuelessUnknownScan2(s: string)
    requires s == "profile" + " {\n" + "output X" + " {\n" + "foo\n" + "enable\n" + "}\n" + "}"
    ensures ReadWord(s, 0) == ("profile", 7)
  {
    WordAt(s, 0, 7, "profile");
  }

  lemma ValuelessUnknownScan3(s: string)
    requires s == "profile" + " {\n" + "output X" + " {\n" + "foo\n" + "enable\n" + "}\n" + "}"
    ensures SkipWhitespace(s, 7) == 8
  {
    BlanksAt(s, 7, 8);
  }

  lemma ValuelessUnknownScan4(s: string)
    requires s == "profile" + " {\n" + "output X" + " {\n" + "foo\n" + "enable\n" + "}\n" + "}"
    ensures s[8] == '{'
  {
  }

  lemma ValuelessUnknownScan5(s: string)
    requires s == "profile" + " {\n" + "output X" + " {\n" + "foo\n" + "enable\n" + "}\n" + "}"
    ensures SkipWhitespaceAndComments(s, 9) == 10
  {
    BlanksAt(s, 9, 10);
  }

  lemma ValuelessUnknownScan6(s: string)
    requires s == "profile" + " {\n" + "output X" + " {\n" + "foo\n" + "enable\n" + "}\n" + "}"
    ensures s[10] == 'o'
  {
  }

  lemma ValuelessUnknownScan7(s: string)
    requires s == "profile" + " {\n" + "output X" + " {\n" + "foo\n" + "enable\n" + "}\n" + "}"
    ensures ReadWord(s, 10) == ("output", 16)
  {
    WordAt(s, 10, 16, "output");
  }

  lemma ValuelessUnknownScan8(s: string)
    requires s == "profile" + " {\n" + "output X" + " {\n" + "foo\n" + "enable\n" + "}\n" + "}"
    ensures SkipWhitespace(s, 16) == 17
  {
    BlanksAt(s, 16, 17);
  }

  lemma ValuelessUnknownScan9(s: string)
    requires s == "profile" + " {\n" + "output X" + " {\n" + "foo\n" + "enable\n" + "}\n" + "}"
    ensures ReadStringOrWord(s, 17) == ("X", 18)
  {
    WordAt(s, 17, 18, "X");
  }

  lemma ValuelessUnknownScan10(s: string)
    requires s == "profile" + " {\n" + "output X" + " {\n" + "foo\n" + "enable\n" + "}\n" + "}"
    ensures SkipWhitespace(s, 18) == 19
  {
    BlanksAt(s, 18, 19);
  }

  lemma ValuelessUnknownScan11(s: string)
    requires s == "profile" + " {\n" + "output X" + " {\n" + "foo\n" + "enable\n" + "}\n" + "}"
    ensures s[19] == '{'
  {
  }

  lemma ValuelessUnknownScan12(s: string)
    requires s == "profile" + " {\n" + "output X" + " {\n" + "foo\n" + "enable\n" + "}\n" + "}"
    ensures SkipWhitespaceAndComments(s, 20) == 21
  {
    BlanksAt(s, 20, 21);
  }

  lemma ValuelessUnknownScan13(s: string)
    requires s == "profile" + " {\n" + "output X" + " {\n" + "foo\n" + "enable\n" + "}\n" + "}"
    ensures s[21] == 'f'
  {
  }

  lemma ValuelessUnknownScan14(s: string)
    requires s == "profile" + " {\n" + "output X" + " {\n" + "foo\n" + "enable\n" + "}\n" + "}"
    ensures ReadWord(s, 21) == ("foo", 24)
  {
    WordAt(s, 21, 24, "foo");
  }

  lemma ValuelessUnknownScan15(s: string)
    requires s == "profile" + " {\n" + "output X" + " {\n" + "foo\n" + "enable\n" + "}\n" + "}"
    ensures SkipWhitespace(s, 24) == 25
  {
    BlanksAt(s, 24, 25);
  }

  lemma ValuelessUnknownScan16(s: string)
    requires s == "profile" + " {\n" + "output X" + " {\n" + "foo\n" + "enable\n" + "}\n" + "}"
    ensures s[25] == 'e'
  {
  }

  lemma ValuelessUnknownScan17(s: string)
    requires s == "profile" + " {\n" + "output X" + " {\n" + "foo\n" + "enable\n" + "}\n" + "}"
    ensures ReadStringOrWord(s, 25) == ("enable", 31)
  {
    WordAt(s, 25, 31, "enable");
  }

  lemma ValuelessUnknownScan18(s: string)
    requires s == "profile" + " {\n" + "output X" + " {\n" + "foo\n" + "enable\n" + "}\n" + "}"
    ensures SkipWhitespaceAndComments(s, 31) == 32
  {
    BlanksAt(s, 31, 32);
  }

  lemma ValuelessUnknownScan19(s: string)
    requires s == "profile" + " {\n" + "output X" + " {\n" + "foo\n" + "enable\n" + "}\n" + "}"
    ensures s[32] == '}'
  {
  }

  lemma ValuelessUnknownScan20(s: string)
    requires s == "profile" + " {\n" + "output X" + " {\n" + "foo\n" + "enable\n" + "}\n" + "}"
    ensures SkipWhitespaceAndComments(s, 33) == 34
  {
    BlanksAt(s, 33, 34);
  }

  lemma ValuelessUnknownScan21(s: string)
    requires s == "profile" + " {\n" + "output X" + " {\n" + "foo\n" + "enable\n" + "}\n" + "}"
    ensures s[34] == '}'
  {
  }

  lemma ValuelessUnknownScan22(s: string)
    requires s == "profile" + " {\n" + "output X" + " {\n" + "foo\n" + "enable\n" + "}\n" + "}"
    ensures '\n' in s[24..25]
  {
    assert s[24..25] == "\n";
  }

  lemma ValuelessUnknownScan23(s: string)
    requires s == "profile" + " {\n" + "output X" + " {\n" + "foo\n" + "enable\n" + "}\n" + "}"
    ensures SkipWhitespaceAndComments(s, 24) == 25
  {
    BlanksAt(s, 24, 25);
  }

  lemma ValuelessUnknownScan24(s: string)
    requires s == "profile" + " {\n" + "output X" + " {\n" + "foo\n" + "enable\n" + "}\n" + "}"
    ensures ReadWord(s, 25) == ("enable", 31)
  {
    WordAt(s, 25, 31, "enable");
  }

  lemma ValuelessUnknownAsWrittenOutput1(s: string, readFloat: FloatReader)
    requires |s| == 35
    requires SkipWhitespace(s, 16) == 17
    requires ReadStringOrWord(s, 17) == ("X", 18)
    requires SkipWhitespace(s, 18) == 19
    requires s[19] == '{'
    requires SkipWhitespaceAndComments(s, 20) == 21
    requires s[21] == 'f'
    requires ReadWord(s, 21) == ("foo", 24)
    requires SkipWhitespace(s, 24) == 25
    requires s[25] == 'e'
    requires ReadStringOrWord(s, 25) == ("enable", 31)
    requires SkipWhitespaceAndComments(s, 31) == 32
    requires s[32] == '}'
    ensures ParseOutput(AsWritten, s, readFloat, 16) == Done((Output("X", None, "", None, None, "", None), 33))
  {
    var o1 := Output("X", None, "", None, None, "", None);
    assert DirectiveStep(AsWritten, s, readFloat, '}', Cursor(20, o1)) == Next(Cursor(31, o1));
    assert DirectiveStep(AsWritten, s, readFloat, '}', Cursor(31, o1)) == Stop(Cursor(32, o1));
    assert DirectiveLoop(AsWritten, s, readFloat, '}', Cursor(31, o1)) == Done(Cursor(32, o1));
    assert DirectiveLoop(AsWritten, s, readFloat, '}', Cursor(20, o1)) == Done(Cursor(32, o1));
  }

  lemma ValuelessUnknownAsWrittenStep1(s: string, readFloat: FloatReader)
    requires |s| == 35
    requires SkipWhitespaceAndComments(s, 0) == 0
    requires ReadWord(s, 0) == ("profile", 7)
    requires SkipWhitespace(s, 7) == 8
    requires s[8] == '{'
    requires SkipWhitespaceAndComments(s, 9) == 10
    requires s[10] == 'o'
    requires ReadWord(s, 10) == ("output", 16)
    requires SkipWhitespaceAndComments(s, 33) == 34
    requires s[34] == '}'
    requires ParseOutput(AsWritten, s, readFloat, 16) == Done((Output("X", None, "", None, None, "", None), 33))
    ensures ProfileStep(AsWritten, s, readFloat, Cursor(9, Profile("", []))) == Next(Cursor(33, Profile("", [Output("X", None, "", None, None, "", None)])))
  {
    var o1 := Output("X", None, "", None, None, "", None);
    assert [] + [o1] == [o1];
  }

  lemma ValuelessUnknownAsWrittenStep2(s: string, readFloat: FloatReader)
    requires |s| == 35
    requires SkipWhitespaceAndComments(s, 0) == 0
    requires ReadWord(s, 0) == ("profile", 7)
    requires SkipWhitespace(s, 7) == 8
    requires s[8] == '{'
    requires SkipWhitespaceAndComments(s, 9) == 10
    requires s[10] == 'o'
    requires ReadWord(s, 10) == ("output", 16)
    requires SkipWhitespaceAndComments(s, 33) == 34
    requires s[34] == '}'
    requires ParseOutput(AsWritten, s, readFloat, 16) == Done((Output("X", None, "", None, None, "", None), 33))
    ensures ProfileStep(AsWritten, s, readFloat, Cursor(33, Profile("", [Output("X", None, "", None, None, "", None)]))) == Stop(Cursor(35, Profile("", [Output("X", None, "", None, None, "", None)])))
  {
  }

  lemma ValuelessUnknownAsWrittenProfile(s: string, readFloat: FloatReader)
    requires |s| == 35
    requires SkipWhitespaceAndComments(s, 0) == 0
    requires ReadWord(s, 0) == ("profile", 7)
    requires SkipWhitespace(s, 7) == 8
    requires s[8] == '{'
    requires SkipWhitespaceAndComments(s, 9) == 10
    requires s[10] == 'o'
    requires ReadWord(s, 10) == ("output", 16)
    requires SkipWhitespaceAndComments(s, 33) == 34
    requires s[34] == '}'
    requires ParseOutput(AsWritten, s, readFloat, 16) == Done((Output("X", None, "", None, None, "", None), 33))
    ensures ParseProfile(AsWritten, s, readFloat, 7) == Done(Cursor(35, Profile("", [Output("X", None, "", None, None, "", None)])))
  {
    ValuelessUnknownAsWrittenStep1(s, readFloat);
    ValuelessUnknownAsWrittenStep2(s, readFloat);
    var o1 := Output("X", None, "", None, None, "", None);
    var p1 := Profile("", [o1]);
    var p2 := Profile("", []);
    assert ProfileHeader(s, 7) == ("", 8);
    assert ProfileLoop(AsWritten, s, readFloat, Cursor(33, p1)) == Done(Cursor(35, p1));
    assert ProfileLoop(AsWritten, s, readFloat, Cursor(9, p2)) == Done(Cursor(35, p1));
  }

  lemma ValuelessUnknownAsWrittenTopStep1(s: string, readFloat: FloatReader)
    requires |s| == 35
    requires SkipWhitespaceAndComments(s, 0) == 0
    requires ReadWord(s, 0) == ("profile", 7)
    requires SkipWhitespace(s, 7) == 8
    requires s[8] == '{'
    requires SkipWhitespaceAndComments(s, 9) == 10
    requires s[10] == 'o'
    requires ReadWord(s, 10) == ("output", 16)
    requires SkipWhitespaceAndComments(s, 33) == 34
    requires s[34] == '}'
    requires ParseProfile(AsWritten, s, readFloat, 7) == Done(Cursor(35, Profile("", [Output("X", None, "", None, None, "", None)])))
    ensures TopStep(AsWritten, s, readFloat, Cursor(0, [])) == Next(Cursor(35, [Profile("", [Output("X", None, "", None, None, "", None)])]))
  {
    var o1 := Output("X", None, "", None, None, "", None);
    var p1 := Profile("", [o1]);
    assert [] + [p1] == [p1];
    assert TopWord(AsWritten, s, readFloat, "profile", 7, Cursor(0, [])) == Next(Cursor(35, [p1]));
  }

  lemma ValuelessUnknownAsWrittenTopStep2(s: string, readFloat: FloatReader)
    requires |s| == 35
    requires SkipWhitespaceAndComments(s, 0) == 0
    requires ReadWord(s, 0) == ("profile", 7)
    requires SkipWhitespace(s, 7) == 8
    requires s[8] == '{'
    requires SkipWhitespaceAndComments(s, 9) == 10
    requires s[10] == 'o'
    requires ReadWord(s, 10) == ("output", 16)
    requires SkipWhitespaceAndComments(s, 33) == 34
    requires s[34] == '}'
    requires ParseProfile(AsWritten, s, readFloat, 7) == Done(Cursor(35, Profile("", [Output("X", None, "", None, None, "", None)])))
    ensures TopStep(AsWritten, s, readFloat, Cursor(35, [Profile("", [Output("X", None, "", None, None, "", None)])])) == Stop(Cursor(35, [Profile("", [Output("X", None, "", None, None, "", None)])]))
  {
  }

  lemma ValuelessUnknownAsWrittenParse(s: string, readFloat: FloatReader)
    requires |s| == 35
    requires SkipWhitespaceAndComments(s, 0) == 0
    requires ReadWord(s, 0) == ("profile", 7)
    requires SkipWhitespace(s, 7) == 8
    requires s[8] == '{'
    requires SkipWhitespaceAndComments(s, 9) == 10
    requires s[10] == 'o'
    requires ReadWord(s, 10) == ("output", 16)
    requires SkipWhitespaceAndComments(s, 33) == 34
    requires s[34] == '}'
    requires ParseProfile(AsWritten, s, readFloat, 7) == Done(Cursor(35, Profile("", [Output("X", None, "", None, None, "", None)])))
    ensures ParseWith(AsWritten, s, readFloat) == Done(Config([Profile("", [Output("X", None, "", None, None, "", None)])]))
  {
    ValuelessUnknownAsWrittenTopStep1(s, readFloat);
    ValuelessUnknownAsWrittenTopStep2(s, readFloat);
    var o1 := Output("X", None, "", None, None, "", None);
    var p1 := Profile("", [o1]);
    assert TopLoop(AsWritten, s, readFloat, Cursor(35, [p1])).Done? && TopLoop(AsWritten, s, readFloat, Cursor(35, [p1])).value.value == [p1];
    assert TopLoop(AsWritten, s, readFloat, Cursor(0, [])).Done? && TopLoop(AsWritten, s, readFloat, Cursor(0, [])).value.value == [p1];
  }

  /** The same text, reading an unknown directive's value only on its own line: `enable` applies. */
  lemma ValuelessUnknownLineAware(readFloat: FloatReader)
    ensures ParseLineAware("profile" + " {\n" + "output X" + " {\n" + "foo\n" + "enable\n" + "}\n" + "}", readFloat) == Done(Config([Profile("", [Output("X", Some(true), "", None, None, "", None)])]))
  {
    var s := "profile" + " {\n" + "output X" + " {\n" + "foo\n" + "enable\n" + "}\n" + "}";
    ValuelessUnknownScan1(s);
    ValuelessUnknownScan2(s);
    ValuelessUnknownScan3(s);
    ValuelessUnknownScan4(s);
    ValuelessUnknownScan5(s);
    ValuelessUnknownScan6(s);
    ValuelessUnknownScan7(s);
    ValuelessUnknownScan8(s);
    ValuelessUnknownScan9(s);
    ValuelessUnknownScan10(s);
    ValuelessUnknownScan11(s);
    ValuelessUnknownScan12(s);
    ValuelessUnknownScan13(s);
    ValuelessUnknownScan14(s);
    ValuelessUnknownScan15(s);
    ValuelessUnknownScan16(s);
    ValuelessUnknownScan17(s);
    ValuelessUnknownScan18(s);
    ValuelessUnknownScan19(s);
    ValuelessUnknownScan20(s);
    ValuelessUnknownScan21(s);
    ValuelessUnknownScan22(s);
    ValuelessUnknownScan23(s);
    ValuelessUnknownScan24(s);
    ValuelessUnknownLineAwareOutput1(s, readFloat);
    ValuelessUnknownLineAwareProfile(s, readFloat);
    ValuelessUnknownLineAwareParse(s, readFloat);
  }

  lemma ValuelessUnknownLineAwareOutput1(s: string, readFloat: FloatReader)
    requires |s| == 35
    requires SkipWhitespace(s, 16) == 17
    requires ReadStringOrWord(s, 17) == ("X", 18)
    requires SkipWhitespace(s, 18) == 19
    requires s[19] == '{'
    requires SkipWhitespaceAndComments(s, 20) == 21
    requires s[21] == 'f'
    requires ReadWord(s, 21) == ("foo", 24)
    requires SkipWhitespace(s, 24) == 25
    requires s[25] == 'e'
    requires '\n' in s[24..25]
    requires SkipWhitespaceAndComments(s, 24) == 25
    requires ReadWord(s, 25) == ("enable", 31)
    requires SkipWhitespaceAndComments(s, 31) == 32
    requires s[32] == '}'
    ensures ParseOutput(LineAware, s, readFloat, 16) == Done((Output("X", Some(true), "", None, None, "", None), 33))
  {
    var o1 := Output("X", None, "", None, None, "", None);
    var o2 := Output("X", Some(true), "", None, None, "", None);
    assert DirectiveStep(LineAware, s, readFloat, '}', Cursor(20, o1)) == Next(Cursor(24, o1));
    assert DirectiveStep(LineAware, s, readFloat, '}', Cursor(24, o1)) == Next(Cursor(31, o2));
    assert DirectiveStep(LineAware, s, readFloat, '}', Cursor(31, o2)) == Stop(Cursor(32, o2));
    assert DirectiveLoop(LineAware, s, readFloat, '}', Cursor(31, o2)) == Done(Cursor(32, o2));
    assert DirectiveLoop(LineAware, s, readFloat, '}', Cursor(24, o1)) == Done(Cursor(32, o2));
    assert DirectiveLoop(LineAware, s, readFloat, '}', Cursor(20, o1)) == Done(Cursor(32, o2));
  }

  lemma ValuelessUnknownLineAwareStep1(s: string, readFloat: FloatReader)
    requires |s| == 35
    requires SkipWhitespaceAndComments(s, 0) == 0
    requires ReadWord(s, 0) == ("profile", 7)
    requires SkipWhitespace(s, 7) == 8
    requires s[8] == '{'
    requires SkipWhitespaceAndComments(s, 9) == 10
    requires s[10] == 'o'
    requires ReadWord(s, 10) == ("output", 16)
    requires SkipWhitespaceAndComments(s, 33) == 34
    requires s[34] == '}'
    requires ParseOutput(LineAware, s, readFloat, 16) == Done((Output("X", Some(true), "", None, None, "", None), 33))
    ensures ProfileStep(LineAware, s, readFloat, Cursor(9, Profile("", []))) == Next(Cursor(33, Profile("", [Output("X", Some(true), "", None, None, "", None)])))
  {
    var o1 := Output("X", Some(true), "", None, None, "", None);
    assert [] + [o1] == [o1];
  }

  lemma ValuelessUnknownLineAwareStep2(s: string, readFloat: FloatReader)
    requires |s| == 35
    requires SkipWhitespaceAndComments(s, 0) == 0
    requires ReadWord(s, 0) == ("profile", 7)
    requires SkipWhitespace(s, 7) == 8
    requires s[8] == '{'
    requires SkipWhitespaceAndComments(s, 9) == 10
    requires s[10] == 'o'
    requires ReadWord(s, 10) == ("output", 16)
    requires SkipWhitespaceAndComments(s, 33) == 34
    requires s[34] == '}'
    requires ParseOutput(LineAware, s, readFloat, 16) == Done((Output("X", Some(true), "", None, None, "", None), 33))
    ensures ProfileStep(LineAware, s, readFloat, Cursor(33, Profile("", [Output("X", Some(true), "", None, None, "", None)]))) == Stop(Cursor(35, Profile("", [Output("X", Some(true), "", None, None, "", None)])))
  {
  }

  lemma ValuelessUnknownLineAwareProfile(s: string, readFloat: FloatReader)
    requires |s| == 35
    requires SkipWhitespaceAndComments(s, 0) == 0
    requires ReadWord(s, 0) == ("profile", 7)
    requires SkipWhitespace(s, 7) == 8
    requires s[8] == '{'
    requires SkipWhitespaceAndComments(s, 9) == 10
    requires s[10] == 'o'
    requires ReadWord(s, 10) == ("output", 16)
    requires SkipWhitespaceAndComments(s, 33) == 34
    requires s[34] == '}'
    requires ParseOutput(LineAware, s, readFloat, 16) == Done((Output("X", Some(true), "", None, None, "", None), 33))
    ensures ParseProfile(LineAware, s, readFloat, 7) == Done(Cursor(35, Profile("", [Output("X", Some(true), "", None, None, "", None)])))
  {
    ValuelessUnknownLineAwareStep1(s, readFloat);
    ValuelessUnknownLineAwareStep2(s, readFloat);
    var o1 := Output("X", Some(true), "", None, None, "", None);
    var p1 := Profile("", [o1]);
    var p2 := Profile("", []);
    assert ProfileHeader(s, 7) == ("", 8);
    assert ProfileLoop(LineAware, s, readFloat, Cursor(33, p1)) == Done(Cursor(35, p1));
    assert ProfileLoop(LineAware, s, readFloat, Cursor(9, p2)) == Done(Cursor(35, p1));
  }

  lemma ValuelessUnknownLineAwareTopStep1(s: string, readFloat: FloatReader)
    requires |s| == 35
    requires SkipWhitespaceAndComments(s, 0) == 0
    requires ReadWord(s, 0) == ("profile", 7)
    requires SkipWhitespace(s, 7) == 8
    requires s[8] == '{'
    requires SkipWhitespaceAndComments(s, 9) == 10
    requires s[10] == 'o'
    requires ReadWord(s, 10) == ("output", 16)
    requires SkipWhitespaceAndComments(s, 33) == 34
    requires s[34] == '}'
    requires ParseProfile(LineAware, s, readFloat, 7) == Done(Cursor(35, Profile("", [Output("X", Some(true), "", None, None, "", None)])))
    ensures TopStep(LineAware, s, readFloat, Cursor(0, [])) == Next(Cursor(35, [Profile("", [Output("X", Some(true), "", None, None, "", None)])]))
  {
    var o1 := Output("X", Some(true), "", None, None, "", None);
    var p1 := Profile("", [o1]);
    assert [] + [p1] == [p1];
    assert TopWord(LineAware, s, readFloat, "profile", 7, Cursor(0, [])) == Next(Cursor(35, [p1]));
  }

  lemma ValuelessUnknownLineAwareTopStep2(s: string, readFloat: FloatReader)
    requires |s| == 35
    requires SkipWhitespaceAndComments(s, 0) == 0
    requires ReadWord(s, 0) == ("profile", 7)
    requires SkipWhitespace(s, 7) == 8
    requires s[8] == '{'
    requires SkipWhitespaceAndComments(s, 9) == 10
    requires s[10] == 'o'
    requires ReadWord(s, 10) == ("output", 16)
    requires SkipWhitespaceAndComments(s, 33) == 34
    requires s[34] == '}'
    requires ParseProfile(LineAware, s, readFloat, 7) == Done(Cursor(35, Profile("", [Output("X", Some(true), "", None, None, "", None)])))
    ensures TopStep(LineAware, s, readFloat, Cursor(35, [Profile("", [Output("X", Some(true), "", None, None, "", None)])])) == Stop(Cursor(35, [Profile("", [Output("X", Some(true), "", None, None, "", None)])]))
  {
  }

  lemma ValuelessUnknownLineAwareParse(s: string, readFloat: FloatReader)
    requires |s| == 35
    requires SkipWhitespaceAndComments(s, 0) == 0
    requires ReadWord(s, 0) == ("profile", 7)
    requires SkipWhitespace(s, 7) == 8
    requires s[8] == '{'
    requires SkipWhitespaceAndComments(s, 9) == 10
    requires s[10] == 'o'
    requires ReadWord(s, 10) == ("output", 16)
    requires SkipWhitespaceAndComments(s, 33) == 34
    requires s[34] == '}'
    requires ParseProfile(LineAware, s, readFloat, 7) == Done(Cursor(35, Profile("", [Output("X", Some(true), "", None, None, "", None)])))
    ensures ParseWith(LineAware, s, readFloat) == Done(Config([Profile("", [Output("X", Some(true), "", None, None, "", None)])]))
  {
    ValuelessUnknownLineAwareTopStep1(s, readFloat);
    ValuelessUnknownLineAwareTopStep2(s, readFloat);
    var o1 := Output("X", Some(true), "", None, None, "", None);
    var p1 := Profile("", [o1]);
    assert TopLoop(LineAware, s, readFloat, Cursor(35, [p1])).Done? && TopLoop(LineAware, s, readFloat, Cursor(35, [p1])).value.value == [p1];
    assert TopLoop(LineAware, s, readFloat, Cursor(0, [])).Done? && TopLoop(LineAware, s, readFloat, Cursor(0, [])).value.value == [p1];
  }

  /** A profile body that ends with the input is accepted, with no error. */
  lemma BodyAtEndOfInput(readFloat: FloatReader)
    ensures Parse("profile" + " {", readFloat) == Done(Config([Profile("", [])]))
  {
    var s := "profile" + " {";
    BodyAtEndOfInputScan1(s);
    BodyAtEndOfInputScan2(s);
    BodyAtEndOfInputScan3(s);
    BodyAtEndOfInputScan4(s);
    BodyAtEndOfInputProfile(s, readFloat);
    BodyAtEndOfInputParse(s, readFloat);
  }

  lemma BodyAtEndOfInputScan1(s: string)
    requires s == "profile" + " {"
    ensures |s| == 9
    ensures SkipWhitespaceAndComments(s, 0) == 0
  {
    BlanksAt(s, 0, 0);
  }

  lemma BodyAtEndOfInputScan2(s: string)
    requires s == "profile" + " {"
    ensures ReadWord(s, 0) == ("profile", 7)
  {
    WordAt(s, 0, 7, "profile");
  }

  lemma BodyAtEndOfInputScan3(s: string)
    requires s == "profile" + " {"
    ensures SkipWhitespace(s, 7) == 8
  {
    BlanksAt(s, 7, 8);
  }

  lemma BodyAtEndOfInputScan4(s: string)
    requires s == "profile" + " {"
    ensures s[8] == '{'
  {
  }

  lemma BodyAtEndOfInputStep1(s: string, readFloat: FloatReader)
    requires |s| == 9
    requires SkipWhitespaceAndComments(s, 0) == 0
    requires ReadWord(s, 0) == ("profile", 7)
    requires SkipWhitespace(s, 7) == 8
    requires s[8] == '{'
    ensures ProfileStep(AsWritten, s, readFloat, Cursor(9, Profile("", []))) == Stop(Cursor(9, Profile("", [])))
  {
  }

  lemma BodyAtEndOfInputProfile(s: string, readFloat: FloatReader)
    requires |s| == 9
    requires SkipWhitespaceAndComments(s, 0) == 0
    requires ReadWord(s, 0) == ("profile", 7)
    requires SkipWhitespace(s, 7) == 8
    requires s[8] == '{'
    ensures ParseProfile(AsWritten, s, readFloat, 7) == Done(Cursor(9, Profile("", [])))
  {
    BodyAtEndOfInputStep1(s, readFloat);
    var p1 := Profile("", []);
    assert ProfileHeader(s, 7) == ("", 8);
    assert ProfileLoop(AsWritten, s, readFloat, Cursor(9, p1)) == Done(Cursor(9, p1));
  }

  lemma BodyAtEndOfInputTopStep1(s: string, readFloat: FloatReader)
    requires |s| == 9
    requires SkipWhitespaceAndComments(s, 0) == 0
    requires ReadWord(s, 0) == ("profile", 7)
    requires SkipWhitespace(s, 7) == 8
    requires s[8] == '{'
    requires ParseProfile(AsWritten, s, readFloat, 7) == Done(Cursor(9, Profile("", [])))
    ensures TopStep(AsWritten, s, readFloat, Cursor(0, [])) == Next(Cursor(9, [Profile("", [])]))
  {
    var p1 := Profile("", []);
    assert [] + [p1] == [p1];
    assert TopWord(AsWritten, s, readFloat, "profile", 7, Cursor(0, [])) == Next(Cursor(9, [p1]));
  }

  lemma BodyAtEndOfInputTopStep2(s: string, readFloat: FloatReader)
    requires |s| == 9
    requires SkipWhitespaceAndComments(s, 0) == 0
    requires ReadWord(s, 0) == ("profile", 7)
    requires SkipWhitespace(s, 7) == 8
    requires s[8] == '{'
    requires ParseProfile(AsWritten, s, readFloat, 7) == Done(Cursor(9, Profile("", [])))
    ensures TopStep(AsWritten, s, readFloat, Cursor(9, [Profile("", [])])) == Stop(Cursor(9, [Profile("", [])]))
  {
  }

  lemma BodyAtEndOfInputParse(s: string, readFloat: FloatReader)
    requires |s| == 9
    requires SkipWhitespaceAndComments(s, 0) == 0
    requires ReadWord(s, 0) == ("profile", 7)
    requires SkipWhitespace(s, 7) == 8
    requires s[8] == '{'
    requires ParseProfile(AsWritten, s, readFloat, 7) == Done(Cursor(9, Profile("", [])))
    ensures ParseWith(AsWritten, s, readFloat) == Done(Config([Profile("", [])]))
  {
    BodyAtEndOfInputTopStep1(s, readFloat);
    BodyAtEndOfInputTopStep2(s, readFloat);
    var p1 := Profile("", []);
    assert TopLoop(AsWritten, s, readFloat, Cursor(9, [p1])).Done? && TopLoop(AsWritten, s, readFloat, Cursor(9, [p1])).value.value == [p1];
    assert TopLoop(AsWritten, s, readFloat, Cursor(0, [])).Done? && TopLoop(AsWritten, s, readFloat, Cursor(0, [])).value.value == [p1];
  }

  /** An inline output followed by an output line that starts at its line's first column: the scan stops at the next `output` word and both outputs are read. */
  lemma UnindentedLineAsWritten(readFloat: FloatReader)
    ensures Parse("profile" + " {\n" + "output X" + " enable\n" + "output Y" + " {" + " disable" + " }\n" + "}", readFloat) == Done(Config([Profile("", [Output("X", Some(true), "", None, None, "", None), Output("Y", Some(false), "", None, None, "", None)])]))
  {
    var s := "profile" + " {\n" + "output X" + " enable\n" + "output Y" + " {" + " disable" + " }\n" + "}";
    UnindentedLineAsWrittenScan1(s);
    UnindentedLineAsWrittenScan2(s);
    UnindentedLineAsWrittenScan3(s);
    UnindentedLineAsWrittenScan4(s);
    UnindentedLineAsWrittenScan5(s);
    UnindentedLineAsWrittenScan6(s);
    UnindentedLineAsWrittenScan7(s);
    UnindentedLineAsWrittenScan8(s);
    UnindentedLineAsWrittenScan9(s);
    UnindentedLineAsWrittenScan10(s);
    UnindentedLineAsWrittenScan11(s);
    UnindentedLineAsWrittenScan12(s);
    UnindentedLineAsWrittenScan13(s);
    UnindentedLineAsWrittenScan14(s);
    UnindentedLineAsWrittenScan15(s);
    UnindentedLineAsWrittenScan16(s);
    UnindentedLineAsWrittenScan17(s);
    UnindentedLineAsWrittenScan18(s);
    UnindentedLineAsWrittenScan19(s);
    UnindentedLineAsWrittenScan20(s);
    UnindentedLineAsWrittenScan21(s);
    UnindentedLineAsWrittenScan22(s);
    UnindentedLineAsWrittenScan23(s);
    UnindentedLineAsWrittenScan24(s);
    UnindentedLineAsWrittenScan25(s);
    UnindentedLineAsWrittenScan26(s);
    UnindentedLineAsWrittenScan27(s);
    UnindentedLineAsWrittenScan28(s);
    UnindentedLineAsWrittenScan29(s);
    UnindentedLineAsWrittenScan30(s);
    UnindentedLineAsWrittenOutput1(s, readFloat);
    UnindentedLineAsWrittenOutput2(s, readFloat);
    UnindentedLineAsWrittenProfile(s, readFloat);
    UnindentedLineAsWrittenParse(s, readFloat);
  }

  lemma UnindentedLineAsWrittenScan1(s: string)
    requires s == "profile" + " {\n" + "output X" + " enable\n" + "output Y" + " {" + " disable" + " }\n" + "}"
    ensures |s| == 48
    ensures SkipWhitespaceAndComments(s, 0) == 0
  {
    BlanksAt(s, 0, 0);
  }

  lemma UnindentedLineAsWrittenScan2(s: string)
    requires s == "profile" + " {\n" + "output X" + " enable\n" + "output Y" + " {" + " disable" + " }\n" + "}"
    ensures ReadWord(s, 0) == ("profile", 7)
  {
    WordAt(s, 0, 7, "profile");
  }

  lemma UnindentedLineAsWrittenScan3(s: string)
    requires s == "profile" + " {\n" + "output X" + " enable\n" + "output Y" + " {" + " disable" + " }\n" + "}"
    ensures SkipWhitespace(s, 7) == 8
  {
    BlanksAt(s, 7, 8);
  }

  lemma UnindentedLineAsWrittenScan4(s: string)
    requires s == "profile" + " {\n" + "output X" + " enable\n" + "output Y" + " {" + " disable" + " }\n" + "}"
    ensures s[8] == '{'
  {
  }

  lemma UnindentedLineAsWrittenScan5(s: string)
    requires s == "profile" + " {\n" + "output X" + " enable\n" + "output Y" + " {" + " disable" + " }\n" + "}"
    ensures SkipWhitespaceAndComments(s, 9) == 10
  {
    BlanksAt(s, 9, 10);
  }

  lemma UnindentedLineAsWrittenScan6(s: string)
    requires s == "profile" + " {\n" + "output X" + " enable\n" + "output Y" + " {" + " disable" + " }\n" + "}"
    ensures s[10] == 'o'
  {
  }

  lemma UnindentedLineAsWrittenScan7(s: string)
    requires s == "profile" + " {\n" + "output X" + " enable\n" + "output Y" + " {" + " disable" + " }\n" + "}"
    ensures ReadWord(s, 10) == ("output", 16)
  {
    WordAt(s, 10, 16, "output");
  }

  lemma UnindentedLineAsWrittenScan8(s: string)
    requires s == "profile" + " {\n" + "output X" + " enable\n" + "output Y" + " {" + " disable" + " }\n" + "}"
    ensures SkipWhitespace(s, 16) == 17
  {
    BlanksAt(s, 16, 17);
  }

  lemma UnindentedLineAsWrittenScan9(s: string)
    requires s == "profile" + " {\n" + "output X" + " enable\n" + "output Y" + " {" + " disable" + " }\n" + "}"
    ensures ReadStringOrWord(s, 17) == ("X", 18)
  {
    WordAt(s, 17, 18, "X");
  }

  lemma UnindentedLineAsWrittenScan10(s: string)
    requires s == "profile" + " {\n" + "output X" + " enable\n" + "output Y" + " {" + " disable" + " }\n" + "}"
    ensures SkipWhitespace(s, 18) == 19
  {
    BlanksAt(s, 18, 19);
  }

  lemma UnindentedLineAsWrittenScan11(s: string)
    requires s == "profile" + " {\n" + "output X" + " enable\n" + "output Y" + " {" + " disable" + " }\n" + "}"
    ensures s[19] == 'e'
  {
  }

  lemma UnindentedLineAsWrittenScan12(s: string)
    requires s == "profile" + " {\n" + "output X" + " enable\n" + "output Y" + " {" + " disable" + " }\n" + "}"
    ensures SkipWhitespaceAndComments(s, 19) == 19
  {
    BlanksAt(s, 19, 19);
  }

  lemma UnindentedLineAsWrittenScan13(s: string)
    requires s == "profile" + " {\n" + "output X" + " enable\n" + "output Y" + " {" + " disable" + " }\n" + "}"
    ensures s[18] == ' '
  {
  }

  lemma UnindentedLineAsWrittenScan14(s: string)
    requires s == "profile" + " {\n" + "output X" + " enable\n" + "output Y" + " {" + " disable" + " }\n" + "}"
    ensures ReadWord(s, 19) == ("enable", 25)
  {
    WordAt(s, 19, 25, "enable");
  }

  lemma UnindentedLineAsWrittenScan15(s: string)
    requires s == "profile" + " {\n" + "output X" + " enable\n" + "output Y" + " {" + " disable" + " }\n" + "}"
    ensures SkipWhitespaceAndComments(s, 25) == 26
  {
    BlanksAt(s, 25, 26);
  }

  lemma UnindentedLineAsWrittenScan16(s: string)
    requires s == "profile" + " {\n" + "output X" + " enable\n" + "output Y" + " {" + " disable" + " }\n" + "}"
    ensures s[26] == 'o'
  {
  }

  lemma UnindentedLineAsWrittenScan17(s: string)
    requires s == "profile" + " {\n" + "output X" + " enable\n" + "output Y" + " {" + " disable" + " }\n" + "}"
    ensures s[25] == '\n'
  {
  }

  lemma UnindentedLineAsWrittenScan18(s: string)
    requires s == "profile" + " {\n" + "output X" + " enable\n" + "output Y" + " {" + " disable" + " }\n" + "}"
    ensures SkipWhitespaceAndComments(s, 26) == 26
  {
    BlanksAt(s, 26, 26);
  }

  lemma UnindentedLineAsWrittenScan19(s: string)
    requires s == "profile" + " {\n" + "output X" + " enable\n" + "output Y" + " {" + " disable" + " }\n" + "}"
    ensures ReadWord(s, 26) == ("output", 32)
  {
    WordAt(s, 26, 32, "output");
  }

  lemma UnindentedLineAsWrittenScan20(s: string)
    requires s == "profile" + " {\n" + "output X" + " enable\n" + "output Y" + " {" + " disable" + " }\n" + "}"
    ensures SkipWhitespace(s, 32) == 33
  {
    BlanksAt(s, 32, 33);
  }

  lemma UnindentedLineAsWrittenScan21(s: string)
    requires s == "profile" + " {\n" + "output X" + " enable\n" + "output Y" + " {" + " disable" + " }\n" + "}"
    ensures ReadStringOrWord(s, 33) == ("Y", 34)
  {
    WordAt(s, 33, 34, "Y");
  }

  lemma UnindentedLineAsWrittenScan22(s: string)
    requires s == "profile" + " {\n" + "output X" + " enable\n" + "output Y" + " {" + " disable" + " }\n" + "}"
    ensures SkipWhitespace(s, 34) == 35
  {
    BlanksAt(s, 34, 35);
  }

  lemma UnindentedLineAsWrittenScan23(s: string)
    requires s == "profile" + " {\n" + "output X" + " enable\n" + "output Y" + " {" + " disable" + " }\n" + "}"
    ensures s[35] == '{'
  {
  }

  lemma UnindentedLineAsWrittenScan24(s: string)
    requires s == "profile" + " {\n" + "output X" + " enable\n" + "output Y" + " {" + " disable" + " }\n" + "}"
    ensures SkipWhitespaceAndComments(s, 36) == 37
  {
    BlanksAt(s, 36, 37);
  }

  lemma UnindentedLineAsWrittenScan25(s: string)
    requires s == "profile" + " {\n" + "output X" + " enable\n" + "output Y" + " {" + " disable" + " }\n" + "}"
    ensures s[37] == 'd'
  {
  }

  lemma UnindentedLineAsWrittenScan26(s: string)
    requires s == "profile" + " {\n" + "output X" + " enable\n" + "output Y" + " {" + " disable" + " }\n" + "}"
    ensures ReadWord(s, 37) == ("disable", 44)
  {
    WordAt(s, 37, 44, "disable");
  }

  lemma UnindentedLineAsWrittenScan27(s: string)
    requires s == "profile" + " {\n" + "output X" + " enable\n" + "output Y" + " {" + " disable" + " }\n" + "}"
    ensures SkipWhitespaceAndComments(s, 44) == 45
  {
    BlanksAt(s, 44, 45);
  }

  lemma UnindentedLineAsWrittenScan28(s: string)
    requires s == "profile" + " {\n" + "output X" + " enable\n" + "output Y" + " {" + " disable" + " }\n" + "}"
    ensures s[45] == '}'
  {
  }

  lemma UnindentedLineAsWrittenScan29(s: string)
    requires s == "profile" + " {\n" + "output X" + " enable\n" + "output Y" + " {" + " disable" + " }\n" + "}"
    ensures SkipWhitespaceAndComments(s, 46) == 47
  {
    BlanksAt(s, 46, 47);
  }

  lemma UnindentedLineAsWrittenScan30(s: string)
    requires s == "profile" + " {\n" + "output X" + " enable\n" + "output Y" + " {" + " disable" + " }\n" + "}"
    ensures s[47] == '}'
  {
  }

  lemma UnindentedLineAsWrittenOutput1(s: string, readFloat: FloatReader)
    requires |s| == 48
    requires SkipWhitespace(s, 16) == 17
    requires ReadStringOrWord(s, 17) == ("X", 18)
    requires SkipWhitespace(s, 18) == 19
    requires s[19] == 'e'
    requires SkipWhitespaceAndComments(s, 19) == 19
    requires s[18] == ' '
    requires ReadWord(s, 19) == ("enable", 25)
    requires SkipWhitespaceAndComments(s, 25) == 26
    requires s[26] == 'o'
    requires s[25] == '\n'
    ensures ParseOutput(AsWritten, s, readFloat, 16) == Done((Output("X", Some(true), "", None, None, "", None), 26))
  {
    var o1 := Output("X", None, "", None, None, "", None);
    var o2 := Output("X", Some(true), "", None, None, "", None);
    assert DirectiveStep(AsWritten, s, readFloat, '\n', Cursor(19, o1)) == Next(Cursor(25, o2));
    assert DirectiveStep(AsWritten, s, readFloat, '\n', Cursor(25, o2)) == Stop(Cursor(26, o2));
    assert DirectiveLoop(AsWritten, s, readFloat, '\n', Cursor(25, o2)) == Done(Cursor(26, o2));
    assert DirectiveLoop(AsWritten, s, readFloat, '\n', Cursor(19, o1)) == Done(Cursor(26, o2));
  }

  lemma UnindentedLineAsWrittenOutput2(s: string, readFloat: FloatReader)
    requires |s| == 48
    requires SkipWhitespace(s, 32) == 33
    requires ReadStringOrWord(s, 33) == ("Y", 34)
    requires SkipWhitespace(s, 34) == 35
    requires s[35] == '{'
    requires SkipWhitespaceAndComments(s, 36) == 37
    requires s[37] == 'd'
    requires ReadWord(s, 37) == ("disable", 44)
    requires SkipWhitespaceAndComments(s, 44) == 45
    requires s[45] == '}'
    ensures ParseOutput(AsWritten, s, readFloat, 32) == Done((Output("Y", Some(false), "", None, None, "", None), 46))
  {
    var o1 := Output("Y", None, "", None, None, "", None);
    var o2 := Output("Y", Some(false), "", None, None, "", None);
    assert DirectiveStep(AsWritten, s, readFloat, '}', Cursor(36, o1)) == Next(Cursor(44, o2));
    assert DirectiveStep(AsWritten, s, readFloat, '}', Cursor(44, o2)) == Stop(Cursor(45, o2));
    assert DirectiveLoop(AsWritten, s, readFloat, '}', Cursor(44, o2)) == Done(Cursor(45, o2));
    assert DirectiveLoop(AsWritten, s, readFloat, '}', Cursor(36, o1)) == Done(Cursor(45, o2));
  }

  lemma UnindentedLineAsWrittenStep1(s: string, readFloat: FloatReader)
    requires |s| == 48
    requires SkipWhitespaceAndComments(s, 0) == 0
    requires ReadWord(s, 0) == ("profile", 7)
    requires SkipWhitespace(s, 7) == 8
    requires s[8] == '{'
    requires SkipWhitespaceAndComments(s, 9) == 10
    requires s[10] == 'o'
    requires ReadWord(s, 10) == ("output", 16)
    requires SkipWhitespaceAndComments(s, 26) == 26
    requires s[26] == 'o'
    requires ReadWord(s, 26) == ("output", 32)
    requires SkipWhitespaceAndComments(s, 46) == 47
    requires s[47] == '}'
    requires ParseOutput(AsWritten, s, readFloat, 16) == Done((Output("X", Some(true), "", None, None, "", None), 26))
    requires ParseOutput(AsWritten, s, readFloat, 32) == Done((Output("Y", Some(false), "", None, None, "", None), 46))
    ensures ProfileStep(AsWritten, s, readFloat, Cursor(9, Profile("", []))) == Next(Cursor(26, Profile("", [Output("X", Some(true), "", None, None, "", None)])))
  {
    var o1 := Output("X", Some(true), "", None, None, "", None);
    assert [] + [o1] == [o1];
  }

  lemma UnindentedLineAsWrittenStep2(s: string, readFloat: FloatReader)
    requires |s| == 48
    requires SkipWhitespaceAndComments(s, 0) == 0
    requires ReadWord(s, 0) == ("profile", 7)
    requires SkipWhitespace(s, 7) == 8
    requires s[8] == '{'
    requires SkipWhitespaceAndComments(s, 9) == 10
    requires s[10] == 'o'
    requires ReadWord(s, 10) == ("output", 16)
    requires SkipWhitespaceAndComments(s, 26) == 26
    requires s[26] == 'o'
    requires ReadWord(s, 26) == ("output", 32)
    requires SkipWhitespaceAndComments(s, 46) == 47
    requires s[47] == '}'
    requires ParseOutput(AsWritten, s, readFloat, 16) == Done((Output("X", Some(true), "", None, None, "", None), 26))
    requires ParseOutput(AsWritten, s, readFloat, 32) == Done((Output("Y", Some(false), "", None, None, "", None), 46))
    ensures ProfileStep(AsWritten, s, readFloat, Cursor(26, Profile("", [Output("X", Some(true), "", None, None, "", None)]))) == Next(Cursor(46, Profile("", [Output("X", Some(true), "", None, None, "", None), Output("Y", Some(false), "", None, None, "", None)])))
  {
    var o1 := Output("X", Some(true), "", None, None, "", None);
    var o2 := Output("Y", Some(false), "", None, None, "", None);
    assert [o1] + [o2] == [o1, o2];
  }

  lemma UnindentedLineAsWrittenStep3(s: string, readFloat: FloatReader)
    requires |s| == 48
    requires SkipWhitespaceAndComments(s, 0) == 0
    requires ReadWord(s, 0) == ("profile", 7)
    requires SkipWhitespace(s, 7) == 8
    requires s[8] == '{'
    requires SkipWhitespaceAndComments(s, 9) == 10
    requires s[10] == 'o'
    requires ReadWord(s, 10) == ("output", 16)
    requires SkipWhitespaceAndComments(s, 26) == 26
    requires s[26] == 'o'
    requires ReadWord(s, 26) == ("output", 32)
    requires SkipWhitespaceAndComments(s, 46) == 47
    requires s[47] == '}'
    requires ParseOutput(AsWritten, s, readFloat, 16) == Done((Output("X", Some(true), "", None, None, "", None), 26))
    requires ParseOutput(AsWritten, s, readFloat, 32) == Done((Output("Y", Some(false), "", None, None, "", None), 46))
    ensures ProfileStep(AsWritten, s, readFloat, Cursor(46, Profile("", [Output("X", Some(true), "", None, None, "", None), Output("Y", Some(false), "", None, None, "", None)]))) == Stop(Cursor(48, Profile("", [Output("X", Some(true), "", None, None, "", None), Output("Y", Some(false), "", None, None, "", None)])))
  {
  }

  lemma UnindentedLineAsWrittenProfile(s: string, readFloat: FloatReader)
    requires |s| == 48
    requires SkipWhitespaceAndComments(s, 0) == 0
    requires ReadWord(s, 0) == ("profile", 7)
    requires SkipWhitespace(s, 7) == 8
    requires s[8] == '{'
    requires SkipWhitespaceAndComments(s, 9) == 10
    requires s[10] == 'o'
    requires ReadWord(s, 10) == ("output", 16)
    requires SkipWhitespaceAndComments(s, 26) == 26
    requires s[26] == 'o'
    requires ReadWord(s, 26) == ("output", 32)
    requires SkipWhitespaceAndComments(s, 46) == 47
    requires s[47] == '}'
    requires ParseOutput(AsWritten, s, readFloat, 16) == Done((Output("X", Some(true), "", None, None, "", None), 26))
    requires ParseOutput(AsWritten, s, readFloat, 32) == Done((Output("Y", Some(false), "", None, None, "", None), 46))
    ensures ParseProfile(AsWritten, s, readFloat, 7) == Done(Cursor(48, Profile("", [Output("X", Some(true), "", None, None, "", None), Output("Y", Some(false), "", None, None, "", None)])))
  {
    UnindentedLineAsWrittenStep1(s, readFloat);
    UnindentedLineAsWrittenStep2(s, readFloat);
    UnindentedLineAsWrittenStep3(s, readFloat);
    var o1 := Output("X", Some(true), "", None, None, "", None);
    var o2 := Output("Y", Some(false), "", None, None, "", None);
    var p1 := Profile("", [o1, o2]);
    var p2 := Profile("", [o1]);
    var p3 := Profile("", []);
    assert ProfileHeader(s, 7) == ("", 8);
    assert ProfileLoop(AsWritten, s, readFloat, Cursor(46, p1)) == Done(Cursor(48, p1));
    assert ProfileLoop(AsWritten, s, readFloat, Cursor(26, p2)) == Done(Cursor(48, p1));
    assert ProfileLoop(AsWritten, s, readFloat, Cursor(9, p3)) == Done(Cursor(48, p1));
  }

  lemma UnindentedLineAsWrittenTopStep1(s: string, readFloat: FloatReader)
    requires |s| == 48
    requires SkipWhitespaceAndComments(s, 0) == 0
    requires ReadWord(s, 0) == ("profile", 7)
    requires SkipWhitespace(s, 7) == 8
    requires s[8] == '{'
    requires SkipWhitespaceAndComments(s, 9) == 10
    requires s[10] == 'o'
    requires ReadWord(s, 10) == ("output", 16)
    requires SkipWhitespaceAndComments(s, 26) == 26
    requires s[26] == 'o'
    requires ReadWord(s, 26) == ("output", 32)
    requires SkipWhitespaceAndComments(s, 46) == 47
    requires s[47] == '}'
    requires ParseProfile(AsWritten, s, readFloat, 7) == Done(Cursor(48, Profile("", [Output("X", Some(true), "", None, None, "", None), Output("Y", Some(false), "", None, None, "", None)])))
    ensures TopStep(AsWritten, s, readFloat, Cursor(0, [])) == Next(Cursor(48, [Profile("", [Output("X", Some(true), "", None, None, "", None), Output("Y", Some(false), "", None, None, "", None)])]))
  {
    var o1 := Output("X", Some(true), "", None, None, "", None);
    var o2 := Output("Y", Some(false), "", None, None, "", None);
    var p1 := Profile("", [o1, o2]);
    assert [] + [p1] == [p1];
    assert TopWord(AsWritten, s, readFloat, "profile", 7, Cursor(0, [])) == Next(Cursor(48, [p1]));
  }

  lemma UnindentedLineAsWrittenTopStep2(s: string, readFloat: FloatReader)
    requires |s| == 48
    requires SkipWhitespaceAndComments(s, 0) == 0
    requires ReadWord(s, 0) == ("profile", 7)
    requires SkipWhitespace(s, 7) == 8
    requires s[8] == '{'
    requires SkipWhitespaceAndComments(s, 9) == 10
    requires s[10] == 'o'
    requires ReadWord(s, 10) == ("output", 16)
    requires SkipWhitespaceAndComments(s, 26) == 26
    requires s[26] == 'o'
    requires ReadWord(s, 26) == ("output", 32)
    requires SkipWhitespaceAndComments(s, 46) == 47
    requires s[47] == '}'
    requires ParseProfile(AsWritten, s, readFloat, 7) == Done(Cursor(48, Profile("", [Output("X", Some(true), "", None, None, "", None), Output("Y", Some(false), "", None, None, "", None)])))
    ensures TopStep(AsWritten, s, readFloat, Cursor(48, [Profile("", [Output("X", Some(true), "", None, None, "", None), Output("Y", Some(false), "", None, None, "", None)])])) == Stop(Cursor(48, [Profile("", [Output("X", Some(true), "", None, None, "", None), Output("Y", Some(false), "", None, None, "", None)])]))
  {
  }

  lemma UnindentedLineAsWrittenParse(s: string, readFloat: FloatReader)
    requires |s| == 48
    requires SkipWhitespaceAndComments(s, 0) == 0
    requires ReadWord(s, 0) == ("profile", 7)
    requires SkipWhitespace(s, 7) == 8
    requires s[8] == '{'
    requires SkipWhitespaceAndComments(s, 9) == 10
    requires s[10] == 'o'
    requires ReadWord(s, 10) == ("output", 16)
    requires SkipWhitespaceAndComments(s, 26) == 26
    requires s[26] == 'o'
    requires ReadWord(s, 26) == ("output", 32)
    requires SkipWhitespaceAndComments(s, 46) == 47
    requires s[47] == '}'
    requires ParseProfile(AsWritten, s, readFloat, 7) == Done(Cursor(48, Profile("", [Output("X", Some(true), "", None, None, "", None), Output("Y", Some(false), "", None, None, "", None)])))
    ensures ParseWith(AsWritten, s, readFloat) == Done(Config([Profile("", [Output("X", Some(true), "", None, None, "", None), Output("Y", Some(false), "", None, None, "", None)])]))
  {
    UnindentedLineAsWrittenTopStep1(s, readFloat);
    UnindentedLineAsWrittenTopStep2(s, readFloat);
    var o1 := Output("X", Some(true), "", None, None, "", None);
    var o2 := Output("Y", Some(false), "", None, None, "", None);
    var p1 := Profile("", [o1, o2]);
    assert TopLoop(AsWritten, s, readFloat, Cursor(48, [p1])).Done? && TopLoop(AsWritten, s, readFloat, Cursor(48, [p1])).value.value == [p1];
    assert TopLoop(AsWritten, s, readFloat, Cursor(0, [])).Done? && TopLoop(AsWritten, s, readFloat, Cursor(0, [])).value.value == [p1];
  }

  /** An output block cut off by the end of input is accepted: the cursor steps past the end and every loop stops. */
  lemma UnterminatedBlock(readFloat: FloatReader)
    ensures Parse("profile" + " {\n" + "output X" + " {", readFloat) == Done(Config([Profile("", [Output("X", None, "", None, None, "", None)])]))
  {
    var s := "profile" + " {\n" + "output X" + " {";
    UnterminatedBlockScan1(s);
    UnterminatedBlockScan2(s);
    UnterminatedBlockScan3(s);
    UnterminatedBlockScan4(s);
    UnterminatedBlockScan5(s);
    UnterminatedBlockScan6(s);
    UnterminatedBlockScan7(s);
    UnterminatedBlockScan8(s);
    UnterminatedBlockScan9(s);
    UnterminatedBlockScan10(s);
    UnterminatedBlockScan11(s);
    UnterminatedBlockOutput1(s, readFloat);
    UnterminatedBlockProfile(s, readFloat);
    UnterminatedBlockParse(s, readFloat);
  }

  lemma UnterminatedBlockScan1(s: string)
    requires s == "profile" + " {\n" + "output X" + " {"
    ensures |s| == 20
    ensures SkipWhitespaceAndComments(s, 0) == 0
  {
    BlanksAt(s, 0, 0);
  }

  lemma UnterminatedBlockScan2(s: string)
    requires s == "profile" + " {\n" + "output X" + " {"
    ensures ReadWord(s, 0) == ("profile", 7)
  {
    WordAt(s, 0, 7, "profile");
  }

  lemma UnterminatedBlockScan3(s: string)
    requires s == "profile" + " {\n" + "output X" + " {"
    ensures SkipWhitespace(s, 7) == 8
  {
    BlanksAt(s, 7, 8);
  }

  lemma UnterminatedBlockScan4(s: string)
    requires s == "profile" + " {\n" + "output X" + " {"
    ensures s[8] == '{'
  {
  }

  lemma UnterminatedBlockScan5(s: string)
    requires s == "profile" + " {\n" + "output X" + " {"
    ensures SkipWhitespaceAndComments(s, 9) == 10
  {
    BlanksAt(s, 9, 10);
  }

  lemma UnterminatedBlockScan6(s: string)
    requires s == "profile" + " {\n" + "output X" + " {"
    ensures s[10] == 'o'
  {
  }

  lemma UnterminatedBlockScan7(s: string)
    requires s == "profile" + " {\n" + "output X" + " {"
    ensures ReadWord(s, 10) == ("output", 16)
  {
    WordAt(s, 10, 16, "output");
  }

  lemma UnterminatedBlockScan8(s: string)
    requires s == "profile" + " {\n" + "output X" + " {"
    ensures SkipWhitespace(s, 16) == 17
  {
    BlanksAt(s, 16, 17);
  }

  lemma UnterminatedBlockScan9(s: string)
    requires s == "profile" + " {\n" + "output X" + " {"
    ensures ReadStringOrWord(s, 17) == ("X", 18)
  {
    WordAt(s, 17, 18, "X");
  }

  lemma UnterminatedBlockScan10(s: string)
    requires s == "profile" + " {\n" + "output X" + " {"
    ensures SkipWhitespace(s, 18) == 19
  {
    BlanksAt(s, 18, 19);
  }

  lemma UnterminatedBlockScan11(s: string)
    requires s == "profile" + " {\n" + "output X" + " {"
    ensures s[19] == '{'
  {
  }

  lemma UnterminatedBlockOutput1(s: string, readFloat: FloatReader)
    requires |s| == 20
    requires SkipWhitespace(s, 16) == 17
    requires ReadStringOrWord(s, 17) == ("X", 18)
    requires SkipWhitespace(s, 18) == 19
    requires s[19] == '{'
    ensures ParseOutput(AsWritten, s, readFloat, 16) == Done((Output("X", None, "", None, None, "", None), 21))
  {
    var o1 := Output("X", None, "", None, None, "", None);
    assert DirectiveStep(AsWritten, s, readFloat, '}', Cursor(20, o1)) == Stop(Cursor(20, o1));
    assert DirectiveLoop(AsWritten, s, readFloat, '}', Cursor(20, o1)) == Done(Cursor(20, o1));
  }

  lemma UnterminatedBlockStep1(s: string, readFloat: FloatReader)
    requires |s| == 20
    requires SkipWhitespaceAndComments(s, 0) == 0
    requires ReadWord(s, 0) == ("profile", 7)
    requires SkipWhitespace(s, 7) == 8
    requires s[8] == '{'
    requires SkipWhitespaceAndComments(s, 9) == 10
    requires s[10] == 'o'
    requires ReadWord(s, 10) == ("output", 16)
    requires ParseOutput(AsWritten, s, readFloat, 16) == Done((Output("X", None, "", None, None, "", None), 21))
    ensures ProfileStep(AsWritten, s, readFloat, Cursor(9, Profile("", []))) == Next(Cursor(21, Profile("", [Output("X", None, "", None, None, "", None)])))
  {
    var o1 := Output("X", None, "", None, None, "", None);
    assert [] + [o1] == [o1];
  }

  lemma UnterminatedBlockStep2(s: string, readFloat: FloatReader)
    requires |s| == 20
    requires SkipWhitespaceAndComments(s, 0) == 0
    requires ReadWord(s, 0) == ("profile", 7)
    requires SkipWhitespace(s, 7) == 8
    requires s[8] == '{'
    requires SkipWhitespaceAndComments(s, 9) == 10
    requires s[10] == 'o'
    requires ReadWord(s, 10) == ("output", 16)
    requires ParseOutput(AsWritten, s, readFloat, 16) == Done((Output("X", None, "", None, None, "", None), 21))
    ensures ProfileStep(AsWritten, s, readFloat, Cursor(21, Profile("", [Output("X", None, "", None, None, "", None)]))) == Stop(Cursor(21, Profile("", [Output("X", None, "", None, None, "", None)])))
  {
  }

  lemma UnterminatedBlockProfile(s: string, readFloat: FloatReader)
    requires |s| == 20
    requires SkipWhitespaceAndComments(s, 0) == 0
    requires ReadWord(s, 0) == ("profile", 7)
    requires SkipWhitespace(s, 7) == 8
    requires s[8] == '{'
    requires SkipWhitespaceAndComments(s, 9) == 10
    requires s[10] == 'o'
    requires ReadWord(s, 10) == ("output", 16)
    requires ParseOutput(AsWritten, s, readFloat, 16) == Done((Output("X", None, "", None, None, "", None), 21))
    ensures ParseProfile(AsWritten, s, readFloat, 7) == Done(Cursor(21, Profile("", [Output("X", None, "", None, None, "", None)])))
  {
    UnterminatedBlockStep1(s, readFloat);
    UnterminatedBlockStep2(s, readFloat);
    var o1 := Output("X", None, "", None, None, "", None);
    var p1 := Profile("", [o1]);
    var p2 := Profile("", []);
    assert ProfileHeader(s, 7) == ("", 8);
    assert ProfileLoop(AsWritten, s, readFloat, Cursor(21, p1)) == Done(Cursor(21, p1));
    assert ProfileLoop(AsWritten, s, readFloat, Cursor(9, p2)) == Done(Cursor(21, p1));
  }

  lemma UnterminatedBlockTopStep1(s: string, readFloat: FloatReader)
    requires |s| == 20
    requires SkipWhitespaceAndComments(s, 0) == 0
    requires ReadWord(s, 0) == ("profile", 7)
    requires SkipWhitespace(s, 7) == 8
    requires s[8] == '{'
    requires SkipWhitespaceAndComments(s, 9) == 10
    requires s[10] == 'o'
    requires ReadWord(s, 10) == ("output", 16)
    requires ParseProfile(AsWritten, s, readFloat, 7) == Done(Cursor(21, Profile("", [Output("X", None, "", None, None, "", None)])))
    ensures TopStep(AsWritten, s, readFloat, Cursor(0, [])) == Next(Cursor(21, [Profile("", [Output("X", None, "", None, None, "", None)])]))
  {
    var o1 := Output("X", None, "", None, None, "", None);
    var p1 := Profile("", [o1]);
    assert [] + [p1] == [p1];
    assert TopWord(AsWritten, s, readFloat, "profile", 7, Cursor(0, [])) == Next(Cursor(21, [p1]));
  }

  lemma UnterminatedBlockTopStep2(s: string, readFloat: FloatReader)
    requires |s| == 20
    requires SkipWhitespaceAndComments(s, 0) == 0
    requires ReadWord(s, 0) == ("profile", 7)
    requires SkipWhitespace(s, 7) == 8
    requires s[8] == '{'
    requires SkipWhitespaceAndComments(s, 9) == 10
    requires s[10] == 'o'
    requires ReadWord(s, 10) == ("output", 16)
    requires ParseProfile(AsWritten, s, readFloat, 7) == Done(Cursor(21, Profile("", [Output("X", None, "", None, None, "", None)])))
    ensures TopStep(AsWritten, s, readFloat, Cursor(21, [Profile("", [Output("X", None, "", None, None, "", None)])])) == Stop(Cursor(21, [Profile("", [Output("X", None, "", None, None, "", None)])]))
  {
  }

  lemma UnterminatedBlockParse(s: string, readFloat: FloatReader)
    requires |s| == 20
    requires SkipWhitespaceAndComments(s, 0) == 0
    requires ReadWord(s, 0) == ("profile", 7)
    requires SkipWhitespace(s, 7) == 8
    requires s[8] == '{'
    requires SkipWhitespaceAndComments(s, 9) == 10
    requires s[10] == 'o'
    requires ReadWord(s, 10) == ("output", 16)
    requires ParseProfile(AsWritten, s, readFloat, 7) == Done(Cursor(21, Profile("", [Output("X", None, "", None, None, "", None)])))
    ensures ParseWith(AsWritten, s, readFloat) == Done(Config([Profile("", [Output("X", None, "", None, None, "", None)])]))
  {
    UnterminatedBlockTopStep1(s, readFloat);
    UnterminatedBlockTopStep2(s, readFloat);
    var o1 := Output("X", None, "", None, None, "", None);
    var p1 := Profile("", [o1]);
    assert TopLoop(AsWritten, s, readFloat, Cursor(21, [p1])).Done? && TopLoop(AsWritten, s, readFloat, Cursor(21, [p1])).value.value == [p1];
    assert TopLoop(AsWritten, s, readFloat, Cursor(0, [])).Done? && TopLoop(AsWritten, s, readFloat, Cursor(0, [])).value.value == [p1];
  }
}

=== FILE: kanshi_facts.dfy ===
/**
 * Properties of the kanshi reader as a whole: what its loops do over many
 * steps, how an error in a profile ends the parse, and where a scan spins.
 */
module KanshiFacts {
  import opened Wrappers
  import opened GoStrings
  import opened KanshiConfig
  import opened KanshiScanner
  import opened KanshiParser

  /**
   * The directive keywords `parseOutputDirectives` reads, in order: the
   * word its `switch` is on in every iteration that goes on.
   */
  function KeywordsRead(rule: InlineRule, s: string, readFloat: FloatReader, term: char, st: Cursor<Output>)
    : seq<string>
    requires st.pos <= |s|
    decreases |s| - st.pos
  {
    match DirectiveStep(rule, s, readFloat, term, st)
    case Next(next) =>
      if next == st then []
      else [ReadWord(s, SkipWhitespaceAndComments(s, st.pos)).0] + KeywordsRead(rule, s, readFloat, term, next)
    case _ => []
  }

  /** `o'` differs from `o` only in fields whose directive keyword is among `ws`; the criteria never changes. */
  predicate ChangedOnlyBy(ws: seq<string>, o: Output, o': Output) {
    && o'.criteria == o.criteria
    && (o'.enabled != o.enabled ==> "enable" in ws || "disable" in ws)
    && (o'.mode != o.mode ==> "mode" in ws)
    && (o'.scale != o.scale ==> "scale" in ws)
    && (o'.position != o.position ==> "position" in ws)
    && (o'.transform != o.transform ==> "transform" in ws)
    && (o'.adaptiveSync != o.adaptiveSync ==> "adaptive_sync" in ws)
  }

  lemma ChangedOnlyByChain(w: string, ws: seq<string>, o: Output, o': Output, o'': Output)
    requires OnlyTouches(o, o', w) && ChangedOnlyBy(ws, o', o'')
    ensures ChangedOnlyBy([w] + ws, o, o'')
  {
    assert w in [w] + ws;
    forall k | k in ws ensures k in [w] + ws { }
  }

  /**
   * `parseOutputDirectives` over many steps: every field it changes was
   * named by a directive keyword its `switch` read, and the criteria is
   * kept. With neither `enable` nor `disable` read, `enabled` stays as it
   * was, absent for a fresh entry.
   */
  lemma {:induction false} DirectiveLoopTouches(rule: InlineRule, s: string, readFloat: FloatReader, term: char,
                                                st: Cursor<Output>)
    requires st.pos <= |s|
    ensures DirectiveLoop(rule, s, readFloat, term, st).Done? ==>
      ChangedOnlyBy(KeywordsRead(rule, s, readFloat, term, st),
                    st.value, DirectiveLoop(rule, s, readFloat, term, st).value.value)
    decreases |s| - st.pos
  {
    var r := DirectiveLoop(rule, s, readFloat, term, st);
    match DirectiveStep(rule, s, readFloat, term, st)
    case Next(next) =>
      if next != st && r.Done? {
        var q := SkipWhitespaceAndComments(s, st.pos);
        var w := ReadWord(s, q).0;
        assert DirectiveStep(rule, s, readFloat, term, st) == Directive(rule, s, readFloat, w, ReadWord(s, q).1, st.value);
        DirectiveLoopTouches(rule, s, readFloat, term, next);
        ChangedOnlyByChain(w, KeywordsRead(rule, s, readFloat, term, next), st.value, next.value, r.value.value);
      }
    case Stop(last) =>
    case Abort(e) =>
    case Stuck =>
  }

  /** A directive scan that read no known keyword, only skipped words, leaves the entry as it was. */
  lemma DirectiveLoopSkipsUnknown(rule: InlineRule, s: string, readFloat: FloatReader, term: char, st: Cursor<Output>)
    requires st.pos <= |s|
    requires forall k | k in KeywordsRead(rule, s, readFloat, term, st) :: k !in Keywords
    ensures DirectiveLoop(rule, s, readFloat, term, st).Done? ==>
      DirectiveLoop(rule, s, readFloat, term, st).value.value == st.value
  {
    DirectiveLoopTouches(rule, s, readFloat, term, st);
  }

  /**
   * Wherever `Parse`'s loop meets a `profile` keyword, a failing profile
   * ends the whole parse with the profile's error, and a profile that
   * never returns keeps `Parse` from returning.
   */
  lemma TopLoopAtProfile(rule: InlineRule, s: string, readFloat: FloatReader, st: Cursor<seq<Profile>>, q: nat, e: nat)
    requires st.pos < |s| && SkipWhitespaceAndComments(s, st.pos) == q && q < |s|
    requires ReadWord(s, q) == ("profile", e)
    ensures ParseProfile(rule, s, readFloat, e).Fail? ==>
      TopLoop(rule, s, readFloat, st) == Fail(ParseProfile(rule, s, readFloat, e).error)
    ensures ParseProfile(rule, s, readFloat, e) == Hang ==> TopLoop(rule, s, readFloat, st) == Hang
  {
    assert s[q] == 'p';
    assert TopStep(rule, s, readFloat, st) == TopWord(rule, s, readFloat, "profile", e, st);
  }

  /** The first profile decides: when it fails or never returns, so does the parse. */
  lemma ParseAtFirstProfile(rule: InlineRule, s: string, readFloat: FloatReader, q: nat, e: nat)
    requires 0 < |s| && SkipWhitespaceAndComments(s, 0) == q && q < |s|
    requires ReadWord(s, q) == ("profile", e)
    ensures ParseProfile(rule, s, readFloat, e).Fail? ==>
      ParseWith(rule, s, readFloat) == Fail(ParseProfile(rule, s, readFloat, e).error)
    ensures ParseProfile(rule, s, readFloat, e) == Hang ==> ParseWith(rule, s, readFloat) == Hang
  {
    TopLoopAtProfile(rule, s, readFloat, Cursor(0, []), q, e);
  }

  /**
   * A first profile whose header is not followed by `{` makes `Parse` fail
   * with no configuration, reporting where the brace was expected.
   */
  lemma ParseMissingBrace(rule: InlineRule, s: string, readFloat: FloatReader, q: nat, e: nat, h: nat)
    requires 0 < |s| && SkipWhitespaceAndComments(s, 0) == q && q < |s|
    requires ReadWord(s, q) == ("profile", e) && h == ProfileHeader(s, e).1
    requires h == |s| || s[h] != '{'
    ensures ParseWith(rule, s, readFloat) == Fail(ExpectedBrace(h))
  {
    ParseAtFirstProfile(rule, s, readFloat, q, e);
  }

  /**
   * A first profile whose body, after its `{`, holds nothing but white space
   * and comments up to the end of input makes `Parse` fail with the
   * unexpected-end error.
   */
  lemma ParseEndInProfile(rule: InlineRule, s: string, readFloat: FloatReader, q: nat, e: nat, h: nat)
    requires 0 < |s| && SkipWhitespaceAndComments(s, 0) == q && q < |s|
    requires ReadWord(s, q) == ("profile", e) && h == ProfileHeader(s, e).1
    requires h + 1 < |s| && s[h] == '{' && SkipWhitespaceAndComments(s, h + 1) == |s|
    ensures ParseWith(rule, s, readFloat) == Fail(UnexpectedEndInProfile)
  {
    ProfileEndsEarly(rule, s, readFloat, e, h);
    ParseAtFirstProfile(rule, s, readFloat, q, e);
  }

  /** `parseProfile` on a body that is only white space and comments up to the end of input. */
  lemma ProfileEndsEarly(rule: InlineRule, s: string, readFloat: FloatReader, e: nat, h: nat)
    requires e <= |s| && h == ProfileHeader(s, e).1
    requires h + 1 < |s| && s[h] == '{' && SkipWhitespaceAndComments(s, h + 1) == |s|
    ensures ParseProfile(rule, s, readFloat, e) == Fail(UnexpectedEndInProfile)
  {
    var st := Cursor(h + 1, Profile(ProfileHeader(s, e).0, []));
    ProfileLoopAtEnd(rule, s, readFloat, st);
  }

  /** The body loop fails at once where only white space and comments are left. */
  lemma ProfileLoopAtEnd(rule: InlineRule, s: string, readFloat: FloatReader, st: Cursor<Profile>)
    requires st.pos < |s| && SkipWhitespaceAndComments(s, st.pos) == |s|
    ensures ProfileLoop(rule, s, readFloat, st) == Fail(UnexpectedEndInProfile)
  {
    assert ProfileStep(rule, s, readFloat, st) == Abort(UnexpectedEndInProfile);
  }

  /**
   * Wherever `parseProfile`'s loop meets an `output` keyword, an output
   * that fails ends the profile with its error, and one that never
   * returns keeps the profile from returning.
   */
  lemma ProfileLoopAtOutput(rule: InlineRule, s: string, readFloat: FloatReader, st: Cursor<Profile>, q: nat, e: nat)
    requires st.pos < |s| && SkipWhitespaceAndComments(s, st.pos) == q && q < |s|
    requires ReadWord(s, q) == ("output", e)
    ensures ParseOutput(rule, s, readFloat, e).Fail? ==>
      ProfileLoop(rule, s, readFloat, st) == Fail(ParseOutput(rule, s, readFloat, e).error)
    ensures ParseOutput(rule, s, readFloat, e) == Hang ==> ProfileLoop(rule, s, readFloat, st) == Hang
  {
    assert s[q] == 'o';
  }

  /** A directive scan that sits on a brace other than its terminator never returns. */
  lemma DirectiveSpins(rule: InlineRule, s: string, readFloat: FloatReader, term: char, st: Cursor<Output>)
    requires st.pos <= |s| && SpinsAt(rule, s, term, st.pos)
    ensures DirectiveLoop(rule, s, readFloat, term, st) == Hang
  {
  }
}

=== FILE: kanshi_layout.dfy ===
/**
 * What the scanners do on text of a known shape: `s[p..]` starts with a
 * given piece followed by a given rest.
 */
module KanshiLayout {
  import opened GoStrings
  import opened KanshiScanner

  /** Moving the cursor past a known piece of text. */
  lemma Advance(s: string, p: nat, a: string, b: string)
    requires p <= |s| && s[p..] == a + b
    ensures p + |a| <= |s| && s[p + |a|..] == b
  {
    assert |s[p..]| == |a| + |b|;
    assert s[p + |a|..] == s[p..][|a|..];
  }

  lemma {:induction false} SkipWhitespaceOver(s: string, p: nat, ws: string, rest: string)
    requires p <= |s| && s[p..] == ws + rest
    requires AllSpace(ws) && (rest == [] || !IsSpace(rest[0]))
    ensures SkipWhitespace(s, p) == p + |ws|
    decreases |ws|
  {
    Advance(s, p, ws, rest);
    if 0 < |ws| {
      assert s[p] == ws[0];
      assert s[p + 1..] == ws[1..] + rest by {
        assert s[p + 1..] == s[p..][1..];
      }
      SkipWhitespaceOver(s, p + 1, ws[1..], rest);
    } else if p < |s| {
      assert s[p] == rest[0];
    }
  }

  lemma {:induction false} SkipBlanksOver(s: string, p: nat, ws: string, rest: string)
    requires p <= |s| && s[p..] == ws + rest
    requires AllSpace(ws) && (rest == [] || (!IsSpace(rest[0]) && rest[0] != '#'))
    ensures SkipWhitespaceAndComments(s, p) == p + |ws|
    decreases |ws|
  {
    Advance(s, p, ws, rest);
    if 0 < |ws| {
      assert s[p] == ws[0];
      assert s[p + 1..] == ws[1..] + rest by {
        assert s[p + 1..] == s[p..][1..];
      }
      SkipBlanksOver(s, p + 1, ws[1..], rest);
    } else if p < |s| {
      assert s[p] == rest[0];
    }
  }

  lemma ReadWordOver(s: string, p: nat, w: string, rest: string)
    requires p <= |s| && s[p..] == w + rest
    requires IsWord(w) && (rest == [] || EndsWord(rest[0]))
    ensures ReadWord(s, p) == (w, p + |w|)
  {
    Advance(s, p, w, rest);
    assert s[p..p + |w|] == s[p..][..|w|];
  }

  lemma ReadQuotedOver(s: string, p: nat, text: string, rest: string)
    requires p <= |s| && s[p..] == "\"" + text + "\"" + rest
    requires '"' !in text
    ensures ReadQuotedString(s, p) == (text, p + |text| + 2)
  {
    Advance(s, p, "\"" + text + "\"", rest);
    assert s[p] == '"';
    assert forall i | 0 <= i < |text| :: s[p + 1 + i] == text[i];
    assert s[p + 1 + |text|] == '"';
    assert QuoteEnd(s, p + 1) == p + 1 + |text|;
    assert s[p + 1..p + 1 + |text|] == text;
    assert p + 1 + |text| < |s|;
  }

  /** One space and then a word. */
  lemma SpaceThenWord(s: string, p: nat, v: string, tail: string, b: nat, c: nat)
    requires p <= |s| && s[p..] == " " + v + tail
    requires 0 < |v| && IsWord(v)
    requires tail == [] || EndsWord(tail[0])
    requires b == p + 1 && c == b + |v|
    ensures SkipWhitespace(s, p) == b
    ensures ReadWord(s, b) == (v, c)
    ensures v[0] != '"' ==> ReadStringOrWord(s, b) == (v, c)
  {
    assert " " + v + tail == " " + (v + tail);
    assert !IsSpace((v + tail)[0]) by { assert (v + tail)[0] == v[0]; }
    assert AllSpace(" ");
    SkipWhitespaceOver(s, p, " ", v + tail);
    Advance(s, p, " ", v + tail);
    ReadWordOver(s, b, v, tail);
    assert s[b] == v[0];
  }

  /** A keyword and then text that ends it: `readWord` returns the keyword whole. */
  lemma KeywordThen(s: string, q: nat, k: string, rest: string, a: nat)
    requires q <= |s| && s[q..] == k + rest && IsWord(k)
    requires 0 < |rest| && EndsWord(rest[0]) && a == q + |k|
    ensures ReadWord(s, q) == (k, a)
    ensures a <= |s| && s[a..] == rest
  {
    ReadWordOver(s, q, k, rest);
    Advance(s, q, k, rest);
  }

  /** A space and a quoted text: the reader skips the space and reads the text. */
  lemma QuotedAfterSpace(s: string, e: nat, c: string, x: string, e': nat)
    requires e <= |s| && s[e..] == " \"" + c + "\"" + x && '"' !in c && e' == e + |c| + 3
    ensures SkipWhitespace(s, e) == e + 1
    ensures ReadStringOrWord(s, e + 1) == (c, e')
    ensures e' <= |s| && s[e'..] == x
  {
    assert " \"" + c + "\"" + x == " " + ("\"" + c + "\"" + x);
    assert AllSpace(" ");
    SkipWhitespaceOver(s, e, " ", "\"" + c + "\"" + x);
    Advance(s, e, " ", "\"" + c + "\"" + x);
    ReadQuotedOver(s, e + 1, c, x);
    assert s[e + 1] == '"';
    Advance(s, e + 1, "\"" + c + "\"", x);
  }

  /** A space and `{`: the reader skips the space and finds the brace. */
  lemma SpaceBrace(s: string, h: nat, y: string, q: nat)
    requires h <= |s| && s[h..] == " {" + y && q == h + 1
    ensures SkipWhitespace(s, h) == q && q < |s| && s[q] == '{'
    ensures s[q + 1..] == y
  {
    assert " {" + y == " " + ("{" + y);
    assert AllSpace(" ");
    SkipWhitespaceOver(s, h, " ", "{" + y);
    Advance(s, h, " {", y);
    Advance(s, h, " ", "{" + y);
  }

  /** The head of a written output block: quoted criteria ending at `h`, a space and `{` at `q`. */
  lemma OutputHeaderLayout(s: string, e: nat, c: string, j: string, x: string, h: nat, q: nat)
    requires e <= |s| && s[e..] == " \"" + c + "\" {" + j + x && '"' !in c
    requires h == e + |c| + 3 && q == h + 1
    ensures ReadStringOrWord(s, SkipWhitespace(s, e)) == (c, h)
    ensures SkipWhitespace(s, h) == q && q < |s| && s[q] == '{'
    ensures s[q + 1..] == j + x
  {
    assert " \"" + c + "\" {" + j + x == " \"" + c + "\"" + (" {" + (j + x));
    QuotedAfterSpace(s, e, c, " {" + (j + x), h);
    SpaceBrace(s, h, j + x, q);
  }

  /** White space `ws`, then a keyword `w`: the reader skips to the keyword and reads it whole. */
  lemma BlanksThenWord(s: string, p: nat, ws: string, w: string, rest: string, q: nat, e: nat)
    requires p <= |s| && s[p..] == ws + w + rest
    requires AllSpace(ws) && 0 < |w| && IsWord(w) && w[0] != '#'
    requires 0 < |rest| && EndsWord(rest[0])
    requires q == p + |ws| && e == q + |w|
    ensures q < |s| && SkipWhitespaceAndComments(s, p) == q && s[q] == w[0]
    ensures ReadWord(s, q) == (w, e)
    ensures e < |s| && s[e..] == rest
  {
    assert ws + w + rest == ws + (w + rest);
    assert (w + rest)[0] == w[0];
    SkipBlanksOver(s, p, ws, w + rest);
    Advance(s, p, ws, w + rest);
    assert s[q] == w[0];
    ReadWordOver(s, q, w, rest);
    Advance(s, q, w, rest);
  }

  /** White space and the closing brace of a profile. */
  lemma ProfileEndLayout(s: string, p: nat, lead: string, x: string, q: nat)
    requires p <= |s| && s[p..] == lead + "}" + x && AllSpace(lead) && q == p + |lead|
    ensures p <= q < |s| && SkipWhitespaceAndComments(s, p) == q && s[q] == '}'
  {
    assert lead + "}" + x == lead + ("}" + x);
    SkipBlanksOver(s, p, lead, "}" + x);
    Advance(s, p, lead, "}" + x);
    assert s[q] == '}';
  }

  /** A `profile` keyword after white space, then the text `y` after it. */
  lemma TopLayout(s: string, p: nat, ws: string, y: string, q: nat, e: nat)
    requires p <= |s| && s[p..] == ws + "profile" + y
    requires AllSpace(ws) && 0 < |y| && y[0] == ' '
    requires q == p + |ws| && e == q + 7
    ensures q < |s| && SkipWhitespaceAndComments(s, p) == q && s[q] == 'p'
    ensures ReadWord(s, q) == ("profile", e) && e < |s|
    ensures s[e..] == y
  {
    BlanksThenWord(s, p, ws, "profile", y, q, e);
  }

  /** Past a profile's header and body: what follows it. */
  lemma ProfileAfter(s: string, e: nat, ht: string, body: string, x: string, r: nat)
    requires e <= |s| && s[e..] == ht + (body + x) && r == e + |ht| + |body|
    ensures r <= |s| && s[r..] == x
  {
    assert ht + (body + x) == (ht + body) + x;
    Advance(s, e, ht + body, x);
  }

  lemma SpaceAppend(a: string, b: string)
    requires AllSpace(a) && AllSpace(b)
    ensures AllSpace(a + b)
  {
    assert forall i | 0 <= i < |a + b| :: (a + b)[i] == if i < |a| then a[i] else b[i - |a|];
  }
}

=== FILE: kanshi_parser.dfy ===
/**
 * The kanshi configuration reader. Every loop of the Go parser is a `...Step`
 * function (one iteration of the loop body) and a `...Loop` function that
 * iterates it. A step that leaves its state unchanged is a state the Go
 * parser never leaves, since the loop body is deterministic: the loop then
 * reports `Hang` instead of a result.
 */
module KanshiParser {
  import opened Wrappers
  import opened GoStrings
  import opened KanshiConfig
  import opened KanshiScanner

  /** A parser state: the cursor and what has been built so far. */
  datatype Cursor<T> = Cursor(pos: nat, value: T)

  /** The outcome of one loop iteration. `Stuck`: a nested loop spins forever. */
  datatype Step<S> = Next(state: S) | Stop(state: S) | Abort(error: ParseError) | Stuck

  /** The outcome of a loop or a parse. `Hang`: the Go parser never returns. */
  datatype Outcome<T> = Done(value: T) | Fail(error: ParseError) | Hang

  /**
   * When a brace-less ("inline") output's directives end. `AsWritten` is
   * the Go parser's test: the character just before the next token is a
   * newline. `LineAware` ends them at the first newline skipped since the
   * previous token, which is what the comment beside that test says it does.
   */
  datatype InlineRule = AsWritten | LineAware

  predicate InlineStop(rule: InlineRule, s: string, from: nat, q: nat)
    requires from <= q <= |s|
  {
    match rule
    case AsWritten => 0 < q && s[q - 1] == '\n'
    case LineAware => '\n' in s[from..q]
  }

  /** The output directives the model represents. */
  const Keywords: set<string> :=
    {"enable", "disable", "mode", "scale", "position", "transform", "adaptive_sync"}

  /**
   * `position` values: `<x>,<y>`, split at the first comma, both Go ints.
   * The first comma is found by a scan from `i`; `PositionBySplit` is the
   * same reading written with `strings.SplitN`, and `ReadPositionSplits`
   * shows the two agree.
   */
  function ReadPosition(t: string): (r: Result<Position, ParseError>)
    ensures r.Err? ==> IsDirectiveError(r.error)
    ensures r.Err? && r.error.InvalidPosition? <==> ',' !in t
  {
    PositionFrom(t, 0)
  }

  function PositionFrom(t: string, i: nat): (r: Result<Position, ParseError>)
    requires i <= |t|
    ensures r.Err? ==> IsDirectiveError(r.error)
    ensures r.Err? && r.error.InvalidPosition? <==> ',' !in t[i..]
    decreases |t| - i
  {
    if i == |t| then Err(InvalidPosition(t))
    else if t[i] != ',' then
      assert t[i..] == [t[i]] + t[i + 1..];
      PositionFrom(t, i + 1)
    else match Atoi(t[..i])
      case None => Err(InvalidPositionX(t[..i]))
      case Some(x) =>
        match Atoi(t[i + 1..])
        case None => Err(InvalidPositionY(t[i + 1..]))
        case Some(y) => Ok(Position(x, y))
  }

  /** `position` as the Go parser writes it: `strings.SplitN(t, ",", 2)`, then `strconv.Atoi` on each part. */
  function PositionBySplit(t: string): Result<Position, ParseError> {
    var parts := SplitN2(t, ',');
    if |parts| != 2 then Err(InvalidPosition(t))
    else match Atoi(parts[0])
      case None => Err(InvalidPositionX(parts[0]))
      case Some(x) =>
        match Atoi(parts[1])
        case None => Err(InvalidPositionY(parts[1]))
        case Some(y) => Ok(Position(x, y))
  }

  /** The comma scan reads every text exactly as `SplitN` followed by two `Atoi`s does. */
  lemma ReadPositionSplits(t: string)
    ensures ReadPosition(t) == PositionBySplit(t)
  {
    PositionFromSplits(t, 0);
  }

  lemma {:induction false} PositionFromSplits(t: string, i: nat)
    requires i <= |t| && ',' !in t[..i]
    ensures PositionFrom(t, i) == PositionBySplit(t)
    decreases |t| - i
  {
    if i == |t| {
      assert t[..i] == t;
    } else if t[i] != ',' {
      assert t[..i + 1] == t[..i] + [t[i]];
      PositionFromSplits(t, i + 1);
    } else {
      assert t == t[..i] + [','] + t[i + 1..];
      SplitAfter(t[..i], t[i + 1..], ',');
    }
  }

  /** Every field other than the ones directive `w` sets is unchanged. */
  predicate OnlyTouches(o: Output, o': Output, w: string) {
    && o'.criteria == o.criteria
    && (w != "enable" && w != "disable" ==> o'.enabled == o.enabled)
    && (w != "mode" ==> o'.mode == o.mode)
    && (w != "scale" ==> o'.scale == o.scale)
    && (w != "position" ==> o'.position == o.position)
    && (w != "transform" ==> o'.transform == o.transform)
    && (w != "adaptive_sync" ==> o'.adaptiveSync == o.adaptiveSync)
  }

  /** The token after directive keyword `w` read at `r`, as `scale`, `position` and `adaptive_sync` read it. */
  function ValueWord(s: string, r: nat): (t: string)
    requires r <= |s|
    ensures IsWord(t)
  {
    ReadWord(s, SkipWhitespace(s, r)).0
  }

  /**
   * The `switch` on a directive keyword `w` that ended at `r`: applies it
   * to `o` and moves past its value. `mode` and `transform` take a quoted
   * string or a word after the white space.
   */
  function Directive(rule: InlineRule, s: string, readFloat: FloatReader, w: string, r: nat, o: Output)
    : (res: Step<Cursor<Output>>)
    requires r <= |s|
    ensures res.Next? || res.Abort?
    ensures res.Next? ==> r <= res.state.pos <= |s| && OnlyTouches(o, res.state.value, w)
    ensures res.Abort? ==> IsDirectiveError(res.error)
    ensures w !in Keywords ==> res.Next? && res.state.value == o
    ensures w == "enable" ==> res == Next(Cursor(r, o.(enabled := Some(true))))
    ensures w == "disable" ==> res == Next(Cursor(r, o.(enabled := Some(false))))
    ensures w == "scale" ==> (res.Abort? <==> readFloat(ValueWord(s, r)).None?)
    ensures w == "scale" && res.Next? ==> res.state.value.scale == readFloat(ValueWord(s, r))
    ensures w == "position" ==> (res.Abort? <==> ReadPosition(ValueWord(s, r)).Err?)
    ensures w == "position" && res.Next? ==> res.state.value.position == Some(ReadPosition(ValueWord(s, r)).value)
    ensures w == "adaptive_sync" ==> res.Next? && res.state.value.adaptiveSync == Some(ValueWord(s, r) == "on")
    ensures w == "mode" ==> res.Next? && res.state.value.mode == ReadStringOrWord(s, SkipWhitespace(s, r)).0
    ensures w == "transform" ==> res.Next? && res.state.value.transform == ReadStringOrWord(s, SkipWhitespace(s, r)).0
    ensures (w == "mode" || w == "transform") ==> res.state.pos == ReadStringOrWord(s, SkipWhitespace(s, r)).1
    ensures (w == "scale" || w == "position" || w == "adaptive_sync") && res.Next? ==> res.state.pos == ReadWord(s, SkipWhitespace(s, r)).1
    ensures w == "" ==> res == Next(Cursor(r, o))
    ensures w !in Keywords && w != "" ==> res == Next(Cursor(SkipUnknownValue(rule, s, r), o))
  {
    if w == "enable" then Next(Cursor(r, o.(enabled := Some(true))))
    else if w == "disable" then Next(Cursor(r, o.(enabled := Some(false))))
    else if w == "mode" then
      var (m, e) := ReadStringOrWord(s, SkipWhitespace(s, r));
      Next(Cursor(e, o.(mode := m)))
    else if w == "scale" then
      var (t, e) := ReadWord(s, SkipWhitespace(s, r));
      match readFloat(t)
      case None => Abort(InvalidScale(t))
      case Some(f) => Next(Cursor(e, o.(scale := Some(f))))
    else if w == "position" then
      var (t, e) := ReadWord(s, SkipWhitespace(s, r));
      match ReadPosition(t)
      case Err(err) => Abort(err)
      case Ok(pos) => Next(Cursor(e, o.(position := Some(pos))))
    else if w == "transform" then
      var (t, e) := ReadStringOrWord(s, SkipWhitespace(s, r));
      Next(Cursor(e, o.(transform := t)))
    else if w == "adaptive_sync" then
      var (t, e) := ReadWord(s, SkipWhitespace(s, r));
      Next(Cursor(e, o.(adaptiveSync := Some(t == "on"))))
    else if w == "" then Next(Cursor(r, o))
    else Next(Cursor(SkipUnknownValue(rule, s, r), o))
  }

  /**
   * An unknown directive's value, skipped from `r`. As written, the Go
   * parser skips white space first, line ends included, so its test for a
   * line end never holds and a valueless directive swallows the next
   * line's first token. `LineAware` reads a value only on the same line.
   * As written, nothing more is skipped at the end or before `}`, and
   * otherwise exactly one string or word, even on a later line.
   */
  function SkipUnknownValue(rule: InlineRule, s: string, r: nat): (e: nat)
    requires r <= |s|
    ensures r <= e <= |s|
    ensures rule == LineAware && e != r ==> '\n' !in s[r..SkipWhitespace(s, r)]
    ensures rule == AsWritten && (SkipWhitespace(s, r) == |s| || s[SkipWhitespace(s, r)] == '}') ==>
      e == SkipWhitespace(s, r)
    ensures rule == AsWritten && SkipWhitespace(s, r) < |s| && s[SkipWhitespace(s, r)] != '}' ==>
      e == ReadStringOrWord(s, SkipWhitespace(s, r)).1
    ensures (&& rule == LineAware && SkipWhitespace(s, r) < |s| && s[SkipWhitespace(s, r)] != '}'
             && '\n' !in s[r..SkipWhitespace(s, r)]) ==>
      e == ReadStringOrWord(s, SkipWhitespace(s, r)).1
    ensures (&& rule == LineAware
             && (SkipWhitespace(s, r) == |s| || s[SkipWhitespace(s, r)] == '}' || '\n' in s[r..SkipWhitespace(s, r)])) ==>
      e == r
  {
    var q := SkipWhitespace(s, r);
    match rule
    case AsWritten =>
      if q < |s| && s[q] != '\n' && s[q] != '}' then ReadStringOrWord(s, q).1 else q
    case LineAware =>
      if q < |s| && s[q] != '}' && '\n' !in s[r..q] then ReadStringOrWord(s, q).1 else r
  }

  /**
   * The directive scan spins at `p`: it sits on a brace that is not its
   * terminator, where `readWord` reads nothing and nothing moves.
   */
  predicate SpinsAt(rule: InlineRule, s: string, term: char, p: nat) {
    && p < |s|
    && (s[p] == '{' || s[p] == '}')
    && s[p] != term
    && !(term == '\n' && InlineStop(rule, s, p, p))
  }

  /** How a directive scan may end: at end of input, at its terminator, or (inline) at a line end. */
  predicate ScanEnd(rule: InlineRule, s: string, term: char, from: nat, q: nat)
    requires from <= q <= |s|
  {
    q == |s| || s[q] == term || (term == '\n' && InlineStop(rule, s, from, q))
  }

  /**
   * One iteration of `parseOutputDirectives`' loop; `term` is `}` for a
   * block and `\n` inline. It stops exactly when the next token is where a
   * scan may end, and stops there.
   */
  function DirectiveStep(rule: InlineRule, s: string, readFloat: FloatReader, term: char, st: Cursor<Output>)
    : (r: Step<Cursor<Output>>)
    requires st.pos <= |s|
    ensures !r.Stuck?
    ensures r.Next? ==> r.state.pos <= |s| && (r.state == st || st.pos < r.state.pos)
    ensures r.Next? ==> r.state.value.criteria == st.value.criteria
    ensures r.Stop? ==> r.state.value == st.value && st.pos <= r.state.pos <= |s|
    ensures r.Stop? ==> ScanEnd(rule, s, term, st.pos, r.state.pos)
    ensures r.Abort? ==> IsDirectiveError(r.error)
    ensures r == Next(st) <==> SpinsAt(rule, s, term, st.pos)
    ensures r.Stop? <==> ScanEnd(rule, s, term, st.pos, SkipWhitespaceAndComments(s, st.pos))
    ensures r.Stop? ==> r.state == Cursor(SkipWhitespaceAndComments(s, st.pos), st.value)
  {
    if st.pos >= |s| then Stop(st)
    else
      var q := SkipWhitespaceAndComments(s, st.pos);
      if q >= |s| || s[q] == term then Stop(Cursor(q, st.value))
      else if term == '\n' && InlineStop(rule, s, st.pos, q) then Stop(Cursor(q, st.value))
      else
        assert q == st.pos ==> s[st.pos..q] == [];
        assert (s[st.pos] == '{' || s[st.pos] == '}') ==> q == st.pos by { NotBlank(s[st.pos..q]); }
        Directive(rule, s, readFloat, ReadWord(s, q).0, ReadWord(s, q).1, st.value)
  }

  /** A blank text starting with a brace is empty. */
  lemma NotBlank(t: string)
    requires Blank(t)
    ensures |t| == 0 || (t[0] != '{' && t[0] != '}')
  {
  }

  /** `parseOutputDirectives`: the whole loop. */
  function DirectiveLoop(rule: InlineRule, s: string, readFloat: FloatReader, term: char, st: Cursor<Output>)
    : (r: Outcome<Cursor<Output>>)
    requires st.pos <= |s|
    ensures r.Done? ==> st.pos <= r.value.pos <= |s| && r.value.value.criteria == st.value.criteria
    ensures r.Done? ==> ScanEnd(rule, s, term, st.pos, r.value.pos)
    ensures r.Fail? ==> IsDirectiveError(r.error)
    decreases |s| - st.pos
  {
    match DirectiveStep(rule, s, readFloat, term, st)
    case Next(next) =>
      if next == st then Hang
      else
        DirectiveLoop(rule, s, readFloat, term, next)
    case Stop(last) => Done(last)
    case Abort(e) => Fail(e)
    case Stuck => Hang
  }

  /** A scan whose next token is already at a scan end reads nothing and stops there. */
  lemma DirectiveLoopAtScanEnd(rule: InlineRule, s: string, readFloat: FloatReader, term: char, st: Cursor<Output>)
    requires st.pos <= |s|
    ensures ScanEnd(rule, s, term, st.pos, SkipWhitespaceAndComments(s, st.pos)) ==>
      DirectiveLoop(rule, s, readFloat, term, st) == Done(Cursor(SkipWhitespaceAndComments(s, st.pos), st.value))
  {
  }

  /** White space from `e` on, then `{`. */
  predicate BraceAfter(s: string, e: nat)
    requires e <= |s|
  {
    SkipWhitespace(s, e) < |s| && s[SkipWhitespace(s, e)] == '{'
  }

  /** The output's criteria is followed (after white space) by `{`. */
  predicate OpensBlock(s: string, p: nat)
    requires p <= |s|
  {
    BraceAfter(s, ReadStringOrWord(s, SkipWhitespace(s, p)).1)
  }

  /**
   * `parseOutput`, entered just after the `output` keyword: the criteria,
   * then either a `{ ... }` block or inline directives. Returns the entry
   * and the cursor after it, which is one past the end of input when a
   * block runs into the end of input.
   */
  function ParseOutput(rule: InlineRule, s: string, readFloat: FloatReader, p: nat): (r: Outcome<(Output, nat)>)
    requires p <= |s|
    ensures r.Done? ==> p <= r.value.1 <= |s| + 1
    ensures r.Done? ==> r.value.0.criteria == ReadStringOrWord(s, SkipWhitespace(s, p)).0
    ensures r.Done? && OpensBlock(s, p) ==> r.value.1 == |s| + 1 || (0 < r.value.1 <= |s| && s[r.value.1 - 1] == '}')
    ensures r.Done? && r.value.1 == |s| + 1 ==> OpensBlock(s, p)
    ensures r.Fail? ==> IsDirectiveError(r.error)
  {
    var (criteria, e) := ReadStringOrWord(s, SkipWhitespace(s, p));
    OutputBody(rule, s, readFloat, criteria, e)
  }

  /** The rest of `parseOutput` once the criteria, ending at `e`, is read. */
  function OutputBody(rule: InlineRule, s: string, readFloat: FloatReader, criteria: string, e: nat)
    : (r: Outcome<(Output, nat)>)
    requires e <= |s|
    ensures r.Done? ==> e <= r.value.1 <= |s| + 1 && r.value.0.criteria == criteria
    ensures r.Done? && BraceAfter(s, e) ==> r.value.1 == |s| + 1 || (0 < r.value.1 <= |s| && s[r.value.1 - 1] == '}')
    ensures r.Done? && r.value.1 == |s| + 1 ==> BraceAfter(s, e)
    ensures r.Fail? ==> IsDirectiveError(r.error)
  {
    var q := SkipWhitespace(s, e);
    if q < |s| && s[q] == '{' then
      match DirectiveLoop(rule, s, readFloat, '}', Cursor(q + 1, NewOutput(criteria)))
      case Done(last) => Done((last.value, last.pos + 1))
      case Fail(err) => Fail(err)
      case Hang => Hang
    else
      var start := if rule == AsWritten then q else e;
      match DirectiveLoop(rule, s, readFloat, '\n', Cursor(start, NewOutput(criteria)))
      case Done(last) => Done((last.value, last.pos))
      case Fail(err) => Fail(err)
      case Hang => Hang
  }

  /**
   * One iteration of `parseProfile`'s body loop. Any word but `output`
   * (`exec` included) adds nothing and skips to the end of its line.
   */
  function ProfileStep(rule: InlineRule, s: string, readFloat: FloatReader, st: Cursor<Profile>)
    : (r: Step<Cursor<Profile>>)
    requires st.pos <= |s| + 1
    ensures r.Next? ==> st.pos < r.state.pos <= |s| + 1
    ensures r.Stop? ==> st.pos <= r.state.pos <= |s| + 1 && r.state.value == st.value
    ensures r.Next? ==> r.state.value.name == st.value.name && st.value.outputs <= r.state.value.outputs
    ensures r.Next? ==> |r.state.value.outputs| <= |st.value.outputs| + 1
    ensures r == Abort(UnexpectedEndInProfile) <==> st.pos < |s| && SkipWhitespaceAndComments(s, st.pos) == |s|
    ensures (&& st.pos < |s| && SkipWhitespaceAndComments(s, st.pos) < |s|
             && s[SkipWhitespaceAndComments(s, st.pos)] != '}'
             && ReadWord(s, SkipWhitespaceAndComments(s, st.pos)).0 != "output") ==>
      r == Next(Cursor(SkipUntilNewline(s, ReadWord(s, SkipWhitespaceAndComments(s, st.pos)).1), st.value))
  {
    if st.pos >= |s| then Stop(st)
    else
      var q := SkipWhitespaceAndComments(s, st.pos);
      if q >= |s| then Abort(UnexpectedEndInProfile)
      else if s[q] == '}' then Stop(Cursor(q + 1, st.value))
      else
        var (w, e) := ReadWord(s, q);
        if w == "output" then
          match ParseOutput(rule, s, readFloat, e)
          case Done((o, next)) => Next(Cursor(next, st.value.(outputs := st.value.outputs + [o])))
          case Fail(err) => Abort(err)
          case Hang => Stuck
        else if w == "exec" then Next(Cursor(SkipUntilNewline(s, e), st.value))
        else
          // any other word, or a stray `{`: skip to the end of the line
          Next(Cursor(SkipUntilNewline(s, e), st.value))
  }

  /** The rest of `parseProfile`: its body loop, entered after the `{`. */
  function ProfileLoop(rule: InlineRule, s: string, readFloat: FloatReader, st: Cursor<Profile>)
    : (r: Outcome<Cursor<Profile>>)
    requires st.pos <= |s| + 1
    ensures r.Done? ==> st.pos <= r.value.pos <= |s| + 1
    ensures r.Done? ==> r.value.value.name == st.value.name && st.value.outputs <= r.value.value.outputs
    ensures r.Fail? ==> r.error == UnexpectedEndInProfile || IsDirectiveError(r.error)
    decreases |s| + 1 - st.pos
  {
    match ProfileStep(rule, s, readFloat, st)
    case Next(next) => ProfileLoop(rule, s, readFloat, next)
    case Stop(last) => Done(last)
    case Abort(e) => Fail(e)
    case Stuck => Hang
  }

  /**
   * The header of `parseProfile`, entered after the `profile` keyword: the
   * optional name and the position where its `{` is expected. There is no
   * name when `{` or the end follows the white space; otherwise the name is
   * the quoted string or word there.
   */
  function ProfileHeader(s: string, p: nat): (r: (string, nat))
    requires p <= |s|
    ensures p <= r.1 <= |s|
    ensures r.1 == |s| || !IsSpace(s[r.1])
    ensures SkipWhitespace(s, p) == |s| || s[SkipWhitespace(s, p)] == '{' ==> r == ("", SkipWhitespace(s, p))
    ensures SkipWhitespace(s, p) < |s| && s[SkipWhitespace(s, p)] != '{' ==>
      && r.0 == ReadStringOrWord(s, SkipWhitespace(s, p)).0
      && r.1 == SkipWhitespace(s, ReadStringOrWord(s, SkipWhitespace(s, p)).1)
  {
    var q := SkipWhitespace(s, p);
    if q < |s| && s[q] != '{' then
      var (name, e) := ReadStringOrWord(s, q);
      (name, SkipWhitespace(s, e))
    else ("", q)
  }

  /** `parseProfile`: a header, a `{` and the body. */
  function ParseProfile(rule: InlineRule, s: string, readFloat: FloatReader, p: nat): (r: Outcome<Cursor<Profile>>)
    requires p <= |s|
    ensures (r.Fail? && r.error.ExpectedBrace?) <==> ProfileHeader(s, p).1 == |s| || s[ProfileHeader(s, p).1] != '{'
    ensures r.Fail? && r.error.ExpectedBrace? ==> r.error.pos == ProfileHeader(s, p).1
    ensures r.Done? ==> r.value.value.name == ProfileHeader(s, p).0 && p < r.value.pos <= |s| + 1
  {
    var (name, h) := ProfileHeader(s, p);
    if h >= |s| || s[h] != '{' then Fail(ExpectedBrace(h))
    else ProfileLoop(rule, s, readFloat, Cursor(h + 1, Profile(name, [])))
  }

  /** One iteration of `Parse`'s top-level loop. */
  function TopStep(rule: InlineRule, s: string, readFloat: FloatReader, st: Cursor<seq<Profile>>)
    : (r: Step<Cursor<seq<Profile>>>)
    requires st.pos <= |s| + 1
    ensures !r.Stop? || st.pos <= r.state.pos
    ensures r.Stop? ==> |s| <= r.state.pos <= |s| + 1 && r.state.value == st.value
    ensures r.Next? ==> r.state.pos <= |s| + 1 && (r.state == st || st.pos < r.state.pos)
    ensures r.Next? ==> st.value <= r.state.value && |r.state.value| <= |st.value| + 1
    ensures r == Next(st) <==> st.pos < |s| && (s[st.pos] == '{' || s[st.pos] == '}')
  {
    if st.pos >= |s| then Stop(st)
    else
      var q := SkipWhitespaceAndComments(s, st.pos);
      if q >= |s| then Stop(Cursor(q, st.value))
      else
        assert q == st.pos ==> s[st.pos..q] == [];
        assert (s[st.pos] == '{' || s[st.pos] == '}') ==> q == st.pos by { NotBlank(s[st.pos..q]); }
        TopWord(rule, s, readFloat, ReadWord(s, q).0, ReadWord(s, q).1, st)
  }

  /** The `switch` on a top-level word `w` that ended at `e`. */
  function TopWord(rule: InlineRule, s: string, readFloat: FloatReader, w: string, e: nat, st: Cursor<seq<Profile>>)
    : (r: Step<Cursor<seq<Profile>>>)
    requires e <= |s|
    ensures r.Next? ==> e <= r.state.pos <= |s| + 1
    ensures r.Next? ==> st.value <= r.state.value && |r.state.value| <= |st.value| + 1
    ensures w == "" ==> r == Next(Cursor(e, st.value))
    ensures w != "profile" ==> r.Next? && r.state.value == st.value
    ensures w != "profile" && w != "" ==> r == Next(Cursor(SkipUntilNewline(s, e), st.value))
    ensures !r.Stop?
    ensures r.Abort? <==> w == "profile" && ParseProfile(rule, s, readFloat, e).Fail?
    ensures r.Abort? ==> r.error == ParseProfile(rule, s, readFloat, e).error
    ensures r.Stuck? <==> w == "profile" && ParseProfile(rule, s, readFloat, e).Hang?
  {
    if w == "profile" then
      match ParseProfile(rule, s, readFloat, e)
      case Done(p) => Next(Cursor(p.pos, st.value + [p.value]))
      case Fail(err) => Abort(err)
      case Hang => Stuck
    else if w == "" then Next(Cursor(e, st.value))
    else
      // unknown top-level directives (include, output defaults, ...) are skipped to the end of the line
      Next(Cursor(SkipUntilNewline(s, e), st.value))
  }

  /** `Parse`'s top-level loop. */
  function TopLoop(rule: InlineRule, s: string, readFloat: FloatReader, st: Cursor<seq<Profile>>)
    : (r: Outcome<Cursor<seq<Profile>>>)
    requires st.pos <= |s| + 1
    ensures r.Done? ==> |s| <= r.value.pos && st.value <= r.value.value
    decreases |s| + 1 - st.pos
  {
    match TopStep(rule, s, readFloat, st)
    case Next(next) => if next == st then Hang else TopLoop(rule, s, readFloat, next)
    case Stop(last) => Done(last)
    case Abort(e) => Fail(e)
    case Stuck => Hang
  }

  /**
   * The reader, with either rule for inline outputs. A file of nothing but
   * white space and comments is an empty configuration.
   */
  function ParseWith(rule: InlineRule, s: string, readFloat: FloatReader): (r: Outcome<Config>)
    ensures SkipWhitespaceAndComments(s, 0) == |s| ==> r == Done(Config([]))
  {
    match TopLoop(rule, s, readFloat, Cursor(0, []))
    case Done(last) => Done(Config(last.value))
    case Fail(e) => Fail(e)
    case Hang => Hang
  }

  /** A brace as the first token: `readWord` reads nothing there and the top-level loop spins. */
  lemma LeadingBraceHangs(rule: InlineRule, s: string, readFloat: FloatReader)
    ensures LeadingBrace(s) ==> ParseWith(rule, s, readFloat) == Hang
  {
    if LeadingBrace(s) {
      var q := SkipWhitespaceAndComments(s, 0);
      if q == 0 {
        assert TopStep(rule, s, readFloat, Cursor(0, [])) == Next(Cursor(0, []));
      } else {
        assert ReadWord(s, q) == ("", q);
        assert TopStep(rule, s, readFloat, Cursor(0, [])) == Next(Cursor(q, []));
        assert TopStep(rule, s, readFloat, Cursor(q, [])) == Next(Cursor(q, []));
        assert TopLoop(rule, s, readFloat, Cursor(q, [])) == Hang;
      }
    }
  }

  /** The first token of `s`, after white space and comments, is a brace. */
  predicate LeadingBrace(s: string) {
    SkipWhitespaceAndComments(s, 0) < |s|
    && (s[SkipWhitespaceAndComments(s, 0)] == '{' || s[SkipWhitespaceAndComments(s, 0)] == '}')
  }

  /** kanshi's `Parse`, inline test as written. */
  function Parse(s: string, readFloat: FloatReader): (r: Outcome<Config>)
    ensures SkipWhitespaceAndComments(s, 0) == |s| ==> r == Done(Config([]))
  {
    ParseWith(AsWritten, s, readFloat)
  }

  /** `Parse` with inline outputs ending at the end of their line. */
  function ParseLineAware(s: string, readFloat: FloatReader): (r: Outcome<Config>)
    ensures SkipWhitespaceAndComments(s, 0) == |s| ==> r == Done(Config([]))
  {
    ParseWith(LineAware, s, readFloat)
  }
}

=== FILE: kanshi_roundtrip.dfy ===
/**
 * Reading back what the writer wrote: `Parse(Serialize(c)) == c` for every
 * configuration whose strings survive the writer's unescaped layout.
 */
module KanshiRoundTrip {
  import opened Wrappers
  import opened GoStrings
  import opened KanshiConfig
  import opened KanshiScanner
  import opened KanshiParser
  import opened KanshiSerializer
  import opened KanshiLayout
  import opened KanshiSteps

  /** A mode or transform value that prints as one word and reads back whole. */
  predicate IsValueWord(v: string) {
    v == "" || (IsWord(v) && v[0] != '"')
  }

  /** The written scale text is one word that reads back as the same float. */
  predicate ScaleRereads(v: Float64, formatG: FloatWriter, readFloat: FloatReader) {
    IsWord(ScaleText(formatG(v))) && readFloat(ScaleText(formatG(v))) == Some(v)
  }

  predicate OutputRereads(o: Output, formatG: FloatWriter, readFloat: FloatReader) {
    && '"' !in o.criteria
    && IsValueWord(o.mode)
    && IsValueWord(o.transform)
    && (o.scale.Some? ==> ScaleRereads(o.scale.value, formatG, readFloat))
  }

  predicate AllOutputsReread(outs: seq<Output>, formatG: FloatWriter, readFloat: FloatReader) {
    forall i | 0 <= i < |outs| :: OutputRereads(outs[i], formatG, readFloat)
  }

  predicate ProfileRereads(p: Profile, formatG: FloatWriter, readFloat: FloatReader) {
    '"' !in p.name && AllOutputsReread(p.outputs, formatG, readFloat)
  }

  predicate AllProfilesReread(ps: seq<Profile>, formatG: FloatWriter, readFloat: FloatReader) {
    forall i | 0 <= i < |ps| :: ProfileRereads(ps[i], formatG, readFloat)
  }

  /**
   * A configuration the writer's layout can carry: no `"` inside a quoted
   * string, mode and transform single words, and every scale written in a
   * form the float reader reads back as the same value.
   */
  predicate ConfigRereads(c: Config, formatG: FloatWriter, readFloat: FloatReader) {
    AllProfilesReread(c.profiles, formatG, readFloat)
  }

  /** What one directive line sets. */
  datatype Effect =
    | SetEnabled(on: bool)
    | SetMode(mode: string)
    | SetScale(scale: Float64)
    | SetPosition(position: Position)
    | SetTransform(transform: string)
    | SetAdaptiveSync(on: bool)

  /**
   * One written directive line: its text without indentation and newline,
   * the value word in it (empty for `enable` and `disable`), and what it sets.
   */
  datatype Dir = Dir(text: string, value: string, effect: Effect)

  /** The line is spelled as `serializeOutput` spells a line with this effect. */
  predicate Spelled(d: Dir) {
    match d.effect
    case SetEnabled(on) => d.value == "" && d.text == (if on then "enable" else "disable")
    case SetMode(m) => d.value == m && d.text == "mode " + m
    case SetScale(_) => d.text == "scale " + d.value
    case SetPosition(_) => d.text == "position " + d.value
    case SetTransform(t) => d.value == t && d.text == "transform " + t
    case SetAdaptiveSync(on) => d.value == (if on then "on" else "off") && d.text == "adaptive_sync " + d.value
  }

  /** A spelled line that the reader reads back whole, as the effect it carries. */
  predicate DirRereads(d: Dir, readFloat: FloatReader) {
    && Spelled(d)
    && match d.effect
       case SetMode(m) => m != "" && IsValueWord(m)
       case SetScale(v) => d.value != "" && IsWord(d.value) && readFloat(d.value) == Some(v)
       case SetPosition(p) => d.value != "" && IsWord(d.value) && ReadPosition(d.value) == Ok(p)
       case SetTransform(t) => t != "" && IsValueWord(t)
       case _ => true
  }

  predicate AllReread(ds: seq<Dir>, readFloat: FloatReader) {
    forall i | 0 <= i < |ds| :: DirRereads(ds[i], readFloat)
  }

  /** What reading directive `d` does to an output. */
  function Apply(o: Output, d: Dir): Output {
    match d.effect
    case SetEnabled(on) => o.(enabled := Some(on))
    case SetMode(m) => o.(mode := m)
    case SetScale(v) => o.(scale := Some(v))
    case SetPosition(p) => o.(position := Some(p))
    case SetTransform(t) => o.(transform := t)
    case SetAdaptiveSync(on) => o.(adaptiveSync := Some(on))
  }

  function ApplyAll(o: Output, ds: seq<Dir>): Output
    decreases |ds|
  {
    if |ds| == 0 then o else ApplyAll(Apply(o, ds[0]), ds[1..])
  }

  function EnabledDirs(enabled: Option<bool>): seq<Dir> {
    match enabled
    case None => []
    case Some(on) => [Dir(if on then "enable" else "disable", "", SetEnabled(on))]
  }

  function ModeDirs(mode: string): seq<Dir> {
    if mode != "" then [Dir("mode " + mode, mode, SetMode(mode))] else []
  }

  function ScaleDirs(scale: Option<Float64>, formatG: FloatWriter): seq<Dir> {
    match scale
    case None => []
    case Some(v) => [Dir("scale " + ScaleText(formatG(v)), ScaleText(formatG(v)), SetScale(v))]
  }

  function PositionDirs(position: Option<Position>): seq<Dir> {
    match position
    case None => []
    case Some(p) => [Dir("position " + PositionText(p), PositionText(p), SetPosition(p))]
  }

  function TransformDirs(transform: string): seq<Dir> {
    if transform != "" then [Dir("transform " + transform, transform, SetTransform(transform))] else []
  }

  function AdaptiveSyncDirs(adaptiveSync: Option<bool>): seq<Dir> {
    match adaptiveSync
    case None => []
    case Some(on) =>
      var v := if on then "on" else "off";
      [Dir("adaptive_sync " + v, v, SetAdaptiveSync(on))]
  }

  /** The directives `serializeOutput` writes for `o`, in its order. */
  function Directives(o: Output, formatG: FloatWriter): seq<Dir> {
    EnabledDirs(o.enabled) + ModeDirs(o.mode) + ScaleDirs(o.scale, formatG)
    + PositionDirs(o.position) + TransformDirs(o.transform) + AdaptiveSyncDirs(o.adaptiveSync)
  }

  /** The directives, each preceded by the white space `ws`. */
  function Joined(ds: seq<Dir>, ws: string): string
    decreases |ds|
  {
    if |ds| == 0 then "" else ws + ds[0].text + Joined(ds[1..], ws)
  }

  /** The directive lines as `serializeOutput` writes them. */
  function Lines(ds: seq<Dir>): string
    decreases |ds|
  {
    if |ds| == 0 then "" else "    " + ds[0].text + "\n" + Lines(ds[1..])
  }

  lemma {:induction false} LinesAppend(a: seq<Dir>, b: seq<Dir>)
    ensures Lines(a + b) == Lines(a) + Lines(b)
    decreases |a|
  {
    if |a| == 0 {
      assert a + b == b;
    } else {
      assert (a + b)[1..] == a[1..] + b;
      LinesAppend(a[1..], b);
    }
  }

  lemma LinesOne(d: Dir)
    ensures Lines([d]) == "    " + d.text + "\n"
  {
    assert [d][1..] == [];
  }

  /** A line written as indentation, keyword text, value and newline. */
  lemma LineOf(k: string, v: string)
    ensures "    " + k + v + "\n" == "    " + (k + v) + "\n"
  {
  }

  lemma EnabledLines(enabled: Option<bool>)
    ensures Lines(EnabledDirs(enabled)) == EnabledLine(enabled)
  {
    if enabled.Some? { LinesOne(EnabledDirs(enabled)[0]); }
  }

  lemma ModeLines(mode: string)
    ensures Lines(ModeDirs(mode)) == ModeLine(mode)
  {
    if mode != "" {
      LinesOne(ModeDirs(mode)[0]);
      LineOf("mode ", mode);
    }
  }

  lemma ScaleLines(scale: Option<Float64>, formatG: FloatWriter)
    ensures Lines(ScaleDirs(scale, formatG)) == ScaleLine(scale, formatG)
  {
    if scale.Some? {
      LinesOne(ScaleDirs(scale, formatG)[0]);
      LineOf("scale ", ScaleText(formatG(scale.value)));
    }
  }

  lemma PositionLines(position: Option<Position>)
    ensures Lines(PositionDirs(position)) == PositionLine(position)
  {
    if position.Some? {
      LinesOne(PositionDirs(position)[0]);
      LineOf("position ", PositionText(position.value));
    }
  }

  lemma TransformLines(transform: string)
    ensures Lines(TransformDirs(transform)) == TransformLine(transform)
  {
    if transform != "" {
      LinesOne(TransformDirs(transform)[0]);
      LineOf("transform ", transform);
    }
  }

  lemma AdaptiveSyncLines(adaptiveSync: Option<bool>)
    ensures Lines(AdaptiveSyncDirs(adaptiveSync)) == AdaptiveSyncLine(adaptiveSync)
  {
    if adaptiveSync.Some? {
      LinesOne(AdaptiveSyncDirs(adaptiveSync)[0]);
      if adaptiveSync.value {
        LineOf("adaptive_sync ", "on");
      } else {
        LineOf("adaptive_sync ", "off");
      }
    }
  }

  /** The writer's directive lines are the lines of `Directives(o)`. */
  lemma LinesOfOutput(o: Output, formatG: FloatWriter)
    ensures DirectiveLines(o, formatG) == Lines(Directives(o, formatG))
  {
    var e := EnabledDirs(o.enabled);
    var m := ModeDirs(o.mode);
    var sc := ScaleDirs(o.scale, formatG);
    var p := PositionDirs(o.position);
    var t := TransformDirs(o.transform);
    var a := AdaptiveSyncDirs(o.adaptiveSync);
    LinesAppend(e + m + sc + p + t, a);
    LinesAppend(e + m + sc + p, t);
    LinesAppend(e + m + sc, p);
    LinesAppend(e + m, sc);
    LinesAppend(e, m);
    EnabledLines(o.enabled);
    ModeLines(o.mode);
    ScaleLines(o.scale, formatG);
    PositionLines(o.position);
    TransformLines(o.transform);
    AdaptiveSyncLines(o.adaptiveSync);
  }

  /** The regrouping step of `LinesRegrouped`, on plain strings. */
  lemma Regroup(a: string, d: string, l: string, j: string, x: string)
    requires "\n" + l + x == j + "\n" + x
    ensures "\n" + (a + d + "\n" + l) + x == ("\n" + a + d + j) + "\n" + x
  {
    var n := "\n";
    calc {
      n + (a + d + n + l) + x;
      (n + a + d) + (n + l + x);
      (n + a + d) + (j + n + x);
      (n + a + d + j) + n + x;
    }
  }

  /** Regrouping: each line's newline becomes the white space before the next line. */
  lemma {:induction false} LinesRegrouped(ds: seq<Dir>, x: string)
    ensures "\n" + Lines(ds) + x == Joined(ds, "\n    ") + "\n" + x
    decreases |ds|
  {
    if |ds| > 0 {
      LinesRegrouped(ds[1..], x);
      Regroup("    ", ds[0].text, Lines(ds[1..]), Joined(ds[1..], "\n    "), x);
    }
  }

  /** Cutting an output block where the reader's tokens begin, for any criteria and lines. */
  lemma BlockRegrouped(c: string, l: string, j: string)
    requires "\n" + l + "  }\n\n" == j + "\n" + "  }\n\n"
    ensures "  output \"" + c + "\" {\n" + l + "  }\n\n"
      == "  " + "output" + (" \"" + c + "\" {" + j + "\n  }") + "\n\n"
  {
    var head, sp, kw, q1, q2, nl, tail := "  output \"", "  ", "output", " \"", "\" {", "\n", "  }\n\n";
    assert head == sp + kw + q1;
    assert "\" {\n" == q2 + nl;
    assert nl + tail == "\n  }" + "\n\n";
    calc {
      head + c + (q2 + nl) + l + tail;
      { assert head + c + (q2 + nl) + l + tail == head + c + q2 + (nl + l + tail); }
      head + c + q2 + (nl + l + tail);
      head + c + q2 + (j + nl + tail);
      { assert head + c + q2 + (j + nl + tail) == head + c + q2 + j + (nl + tail); }
      head + c + q2 + j + ("\n  }" + "\n\n");
      { assert head + c + q2 + j + ("\n  }" + "\n\n") == sp + kw + (q1 + c + q2 + j + "\n  }") + "\n\n"; }
      sp + kw + (q1 + c + q2 + j + "\n  }") + "\n\n";
    }
  }

  /** `serializeOutput`'s text, cut where the reader's tokens begin. */
  lemma OutputTextShape(o: Output, formatG: FloatWriter)
    ensures OutputText(o, formatG) == "  " + "output" + BlockText(o, formatG) + "\n\n"
  {
    var ds := Directives(o, formatG);
    LinesOfOutput(o, formatG);
    LinesRegrouped(ds, "  }\n\n");
    BlockRegrouped(o.criteria, DirectiveLines(o, formatG), Joined(ds, "\n    "));
  }

  lemma {:induction false} ApplyAllAppend(o: Output, a: seq<Dir>, b: seq<Dir>)
    ensures ApplyAll(o, a + b) == ApplyAll(ApplyAll(o, a), b)
    decreases |a|
  {
    if |a| == 0 {
      assert a + b == b;
    } else {
      assert (a + b)[1..] == a[1..] + b;
      ApplyAllAppend(Apply(o, a[0]), a[1..], b);
    }
  }

  lemma ApplyOne(o: Output, d: Dir)
    ensures ApplyAll(o, [d]) == Apply(o, d)
  {
    assert [d][1..] == [];
  }

  lemma ApplyEnabled(x: Output, enabled: Option<bool>)
    requires x.enabled == None
    ensures ApplyAll(x, EnabledDirs(enabled)) == x.(enabled := enabled)
  {
    if enabled.Some? { ApplyOne(x, EnabledDirs(enabled)[0]); }
  }

  lemma ApplyMode(x: Output, mode: string)
    requires x.mode == ""
    ensures ApplyAll(x, ModeDirs(mode)) == x.(mode := mode)
  {
    if mode != "" { ApplyOne(x, ModeDirs(mode)[0]); }
  }

  lemma ApplyScale(x: Output, scale: Option<Float64>, formatG: FloatWriter)
    requires x.scale == None
    ensures ApplyAll(x, ScaleDirs(scale, formatG)) == x.(scale := scale)
  {
    if scale.Some? { ApplyOne(x, ScaleDirs(scale, formatG)[0]); }
  }

  lemma ApplyPosition(x: Output, position: Option<Position>)
    requires x.position == None
    ensures ApplyAll(x, PositionDirs(position)) == x.(position := position)
  {
    if position.Some? { ApplyOne(x, PositionDirs(position)[0]); }
  }

  lemma ApplyTransform(x: Output, transform: string)
    requires x.transform == ""
    ensures ApplyAll(x, TransformDirs(transform)) == x.(transform := transform)
  {
    if transform != "" { ApplyOne(x, TransformDirs(transform)[0]); }
  }

  lemma ApplyAdaptiveSync(x: Output, adaptiveSync: Option<bool>)
    requires x.adaptiveSync == None
    ensures ApplyAll(x, AdaptiveSyncDirs(adaptiveSync)) == x.(adaptiveSync := adaptiveSync)
  {
    if adaptiveSync.Some? { ApplyOne(x, AdaptiveSyncDirs(adaptiveSync)[0]); }
  }

  /** Reading the written directives into a fresh entry rebuilds the output. */
  lemma ApplyDirectives(o: Output, formatG: FloatWriter)
    ensures ApplyAll(NewOutput(o.criteria), Directives(o, formatG)) == o
  {
    var e := EnabledDirs(o.enabled);
    var m := ModeDirs(o.mode);
    var sc := ScaleDirs(o.scale, formatG);
    var p := PositionDirs(o.position);
    var t := TransformDirs(o.transform);
    var a := AdaptiveSyncDirs(o.adaptiveSync);
    var x0 := NewOutput(o.criteria);
    var x1 := x0.(enabled := o.enabled);
    var x2 := x1.(mode := o.mode);
    var x3 := x2.(scale := o.scale);
    var x4 := x3.(position := o.position);
    var x5 := x4.(transform := o.transform);
    ApplyEnabled(x0, o.enabled);
    ApplyMode(x1, o.mode);
    ApplyScale(x2, o.scale, formatG);
    ApplyPosition(x3, o.position);
    ApplyTransform(x4, o.transform);
    ApplyAdaptiveSync(x5, o.adaptiveSync);
    ApplyAllAppend(x0, e + m + sc + p + t, a);
    ApplyAllAppend(x0, e + m + sc + p, t);
    ApplyAllAppend(x0, e + m + sc, p);
    ApplyAllAppend(x0, e + m, sc);
    ApplyAllAppend(x0, e, m);
  }

  /** A written position is one word. */
  lemma PositionIsWord(p: Position)
    ensures IsWord(PositionText(p))
  {
    var x, y := FormatInt(p.x), FormatInt(p.y);
    var t := PositionText(p);
    assert t == x + [','] + y;
    forall i | 0 <= i < |t|
      ensures !EndsWord(t[i])
    {
      if i < |x| { assert t[i] == x[i]; }
      else if i > |x| { assert t[i] == y[i - |x| - 1]; }
    }
  }

  /** A written position reads back as the same position. */
  lemma PositionRereads(p: Position)
    ensures ReadPosition(PositionText(p)) == Ok(p)
  {
    var x, y := FormatInt(p.x), FormatInt(p.y);
    assert PositionText(p) == x + [','] + y;
    assert ',' !in x;
    ReadPositionSplits(PositionText(p));
    SplitAfter(x, y, ',');
    AtoiFormatInt(p.x);
    AtoiFormatInt(p.y);
  }

  lemma {:induction false} AllRereadAppend(a: seq<Dir>, b: seq<Dir>, readFloat: FloatReader)
    requires AllReread(a, readFloat) && AllReread(b, readFloat)
    ensures AllReread(a + b, readFloat)
  {
    forall i | 0 <= i < |a + b|
      ensures DirRereads((a + b)[i], readFloat)
    {
      if i < |a| { assert (a + b)[i] == a[i]; } else { assert (a + b)[i] == b[i - |a|]; }
    }
  }

  /** Each group of lines the writer emits for a re-readable output reads back whole. */
  lemma FlagsReread(o: Output, readFloat: FloatReader)
    ensures AllReread(EnabledDirs(o.enabled), readFloat) && AllReread(AdaptiveSyncDirs(o.adaptiveSync), readFloat)
  {
  }

  lemma WordsReread(o: Output, readFloat: FloatReader)
    requires IsValueWord(o.mode) && IsValueWord(o.transform)
    ensures AllReread(ModeDirs(o.mode), readFloat) && AllReread(TransformDirs(o.transform), readFloat)
  {
  }

  lemma NumbersReread(o: Output, formatG: FloatWriter, readFloat: FloatReader)
    requires o.scale.Some? ==> ScaleRereads(o.scale.value, formatG, readFloat)
    ensures AllReread(ScaleDirs(o.scale, formatG), readFloat) && AllReread(PositionDirs(o.position), readFloat)
  {
    ScaleReread(o.scale, formatG, readFloat);
    PositionReread(o.position, readFloat);
  }

  lemma ScaleReread(scale: Option<Float64>, formatG: FloatWriter, readFloat: FloatReader)
    requires scale.Some? ==> ScaleRereads(scale.value, formatG, readFloat)
    ensures AllReread(ScaleDirs(scale, formatG), readFloat)
  {
  }

  lemma PositionReread(position: Option<Position>, readFloat: FloatReader)
    ensures AllReread(PositionDirs(position), readFloat)
  {
    if position.Some? {
      PositionIsWord(position.value);
      PositionRereads(position.value);
    }
  }

  /** Every line the writer emits for a re-readable output reads back whole, as what it carries. */
  lemma DirectivesReread(o: Output, formatG: FloatWriter, readFloat: FloatReader)
    requires OutputRereads(o, formatG, readFloat)
    ensures AllReread(Directives(o, formatG), readFloat)
  {
    var e := EnabledDirs(o.enabled);
    var m := ModeDirs(o.mode);
    var sc := ScaleDirs(o.scale, formatG);
    var p := PositionDirs(o.position);
    var t := TransformDirs(o.transform);
    var a := AdaptiveSyncDirs(o.adaptiveSync);
    FlagsReread(o, readFloat);
    WordsReread(o, readFloat);
    NumbersReread(o, formatG, readFloat);
    AllRereadAppend(e, m, readFloat);
    AllRereadAppend(e + m, sc, readFloat);
    AllRereadAppend(e + m + sc, p, readFloat);
    AllRereadAppend(e + m + sc + p, t, readFloat);
    AllRereadAppend(e + m + sc + p + t, a, readFloat);
  }

  // What the scanners find on each written directive line (text layout only).

  lemma ValueLineLayout(s: string, q: nat, d: Dir, k: string, tail: string, a: nat, c: nat)
    requires q <= |s| && s[q..] == d.text + tail && d.text == k + " " + d.value
    requires 0 < |k| && IsWord(k) && d.value != "" && IsWord(d.value)
    requires tail == [] || EndsWord(tail[0])
    requires a == q + |k| && c == q + |d.text|
    ensures c <= |s| && ReadWord(s, q) == (k, a)
    ensures ReadWord(s, SkipWhitespace(s, a)) == (d.value, c)
    ensures d.value[0] != '"' ==> ReadStringOrWord(s, SkipWhitespace(s, a)) == (d.value, c)
  {
    assert d.text + tail == k + (" " + d.value + tail);
    KeywordThen(s, q, k, " " + d.value + tail, a);
    SpaceThenWord(s, a, d.value, tail, a + 1, c);
  }

  // The directive switch, given what the scanners read (no text layout).

  lemma EnabledRead(rule: InlineRule, s: string, readFloat: FloatReader, q: nat, d: Dir, o: Output)
    requires d.effect.SetEnabled? && Spelled(d) && q <= |s| && ReadWord(s, q) == (d.text, q + |d.text|)
    ensures Directive(rule, s, readFloat, ReadWord(s, q).0, ReadWord(s, q).1, o)
      == Next(Cursor(q + |d.text|, Apply(o, d)))
  {
  }

  lemma ModeRead(rule: InlineRule, s: string, readFloat: FloatReader, q: nat, d: Dir, o: Output)
    requires d.effect.SetMode? && Spelled(d) && q + |d.text| <= |s| && ReadWord(s, q) == ("mode", q + 4)
    requires ReadStringOrWord(s, SkipWhitespace(s, q + 4)) == (d.value, q + |d.text|)
    ensures Directive(rule, s, readFloat, ReadWord(s, q).0, ReadWord(s, q).1, o)
      == Next(Cursor(q + |d.text|, Apply(o, d)))
  {
  }

  lemma ScaleRead(rule: InlineRule, s: string, readFloat: FloatReader, q: nat, d: Dir, o: Output)
    requires d.effect.SetScale? && q + |d.text| <= |s| && ReadWord(s, q) == ("scale", q + 5)
    requires ReadWord(s, SkipWhitespace(s, q + 5)) == (d.value, q + |d.text|)
    requires readFloat(d.value) == Some(d.effect.scale)
    ensures Directive(rule, s, readFloat, ReadWord(s, q).0, ReadWord(s, q).1, o)
      == Next(Cursor(q + |d.text|, Apply(o, d)))
  {
  }

  lemma PositionRead(rule: InlineRule, s: string, readFloat: FloatReader, q: nat, d: Dir, o: Output)
    requires d.effect.SetPosition? && q + |d.text| <= |s| && ReadWord(s, q) == ("position", q + 8)
    requires ReadWord(s, SkipWhitespace(s, q + 8)) == (d.value, q + |d.text|)
    requires ReadPosition(d.value) == Ok(d.effect.position)
    ensures Directive(rule, s, readFloat, ReadWord(s, q).0, ReadWord(s, q).1, o)
      == Next(Cursor(q + |d.text|, Apply(o, d)))
  {
  }

  lemma TransformRead(rule: InlineRule, s: string, readFloat: FloatReader, q: nat, d: Dir, o: Output)
    requires d.effect.SetTransform? && Spelled(d) && q + |d.text| <= |s| && ReadWord(s, q) == ("transform", q + 9)
    requires ReadStringOrWord(s, SkipWhitespace(s, q + 9)) == (d.value, q + |d.text|)
    ensures Directive(rule, s, readFloat, ReadWord(s, q).0, ReadWord(s, q).1, o)
      == Next(Cursor(q + |d.text|, Apply(o, d)))
  {
  }

  lemma AdaptiveSyncRead(rule: InlineRule, s: string, readFloat: FloatReader, q: nat, d: Dir, o: Output)
    requires d.effect.SetAdaptiveSync? && Spelled(d) && q + |d.text| <= |s|
    requires ReadWord(s, q) == ("adaptive_sync", q + 13)
    requires ReadWord(s, SkipWhitespace(s, q + 13)) == (d.value, q + |d.text|)
    ensures Directive(rule, s, readFloat, ReadWord(s, q).0, ReadWord(s, q).1, o)
      == Next(Cursor(q + |d.text|, Apply(o, d)))
  {
  }

  /** The keywords and the `adaptive_sync` values are words. */
  lemma ShortWords()
    ensures IsWord("enable") && IsWord("disable") && IsWord("mode") && IsWord("scale")
    ensures IsWord("on") && IsWord("off")
  {
  }

  lemma LongWords()
    ensures IsWord("position") && IsWord("transform") && IsWord("adaptive_sync")
  {
  }

  /** Reading one written directive line applies that directive. */
  lemma DirectiveOver(rule: InlineRule, s: string, readFloat: FloatReader, q: nat, d: Dir, tail: string, o: Output)
    requires q <= |s| && s[q..] == d.text + tail && DirRereads(d, readFloat)
    requires tail == [] || EndsWord(tail[0])
    ensures Directive(rule, s, readFloat, ReadWord(s, q).0, ReadWord(s, q).1, o)
      == Next(Cursor(q + |d.text|, Apply(o, d)))
  {
    match d.effect
    case SetEnabled(_) => EnabledOver(rule, s, readFloat, q, d, tail, o);
    case SetMode(_) => ModeOver(rule, s, readFloat, q, d, tail, o);
    case SetScale(_) => ScaleOver(rule, s, readFloat, q, d, tail, o);
    case SetPosition(_) => PositionOver(rule, s, readFloat, q, d, tail, o);
    case SetTransform(_) => TransformOver(rule, s, readFloat, q, d, tail, o);
    case SetAdaptiveSync(_) => AdaptiveSyncOver(rule, s, readFloat, q, d, tail, o);
  }

  lemma EnabledOver(rule: InlineRule, s: string, readFloat: FloatReader, q: nat, d: Dir, tail: string, o: Output)
    requires d.effect.SetEnabled?
    requires q <= |s| && s[q..] == d.text + tail && DirRereads(d, readFloat)
    requires tail == [] || EndsWord(tail[0])
    ensures Directive(rule, s, readFloat, ReadWord(s, q).0, ReadWord(s, q).1, o)
      == Next(Cursor(q + |d.text|, Apply(o, d)))
  {
    ShortWords();
    ReadWordOver(s, q, d.text, tail);
    EnabledRead(rule, s, readFloat, q, d, o);
  }

  lemma ModeOver(rule: InlineRule, s: string, readFloat: FloatReader, q: nat, d: Dir, tail: string, o: Output)
    requires d.effect.SetMode?
    requires q <= |s| && s[q..] == d.text + tail && DirRereads(d, readFloat)
    requires tail == [] || EndsWord(tail[0])
    ensures Directive(rule, s, readFloat, ReadWord(s, q).0, ReadWord(s, q).1, o)
      == Next(Cursor(q + |d.text|, Apply(o, d)))
  {
    ShortWords();
    ValueLineLayout(s, q, d, "mode", tail, q + 4, q + |d.text|);
    ModeRead(rule, s, readFloat, q, d, o);
  }

  lemma ScaleOver(rule: InlineRule, s: string, readFloat: FloatReader, q: nat, d: Dir, tail: string, o: Output)
    requires d.effect.SetScale?
    requires q <= |s| && s[q..] == d.text + tail && DirRereads(d, readFloat)
    requires tail == [] || EndsWord(tail[0])
    ensures Directive(rule, s, readFloat, ReadWord(s, q).0, ReadWord(s, q).1, o)
      == Next(Cursor(q + |d.text|, Apply(o, d)))
  {
    ShortWords();
    ValueLineLayout(s, q, d, "scale", tail, q + 5, q + |d.text|);
    ScaleRead(rule, s, readFloat, q, d, o);
  }

  lemma PositionOver(rule: InlineRule, s: string, readFloat: FloatReader, q: nat, d: Dir, tail: string, o: Output)
    requires d.effect.SetPosition?
    requires q <= |s| && s[q..] == d.text + tail && DirRereads(d, readFloat)
    requires tail == [] || EndsWord(tail[0])
    ensures Directive(rule, s, readFloat, ReadWord(s, q).0, ReadWord(s, q).1, o)
      == Next(Cursor(q + |d.text|, Apply(o, d)))
  {
    PositionLayout(s, readFloat, q, d, tail);
    PositionRead(rule, s, readFloat, q, d, o);
  }

  lemma PositionLayout(s: string, readFloat: FloatReader, q: nat, d: Dir, tail: string)
    requires d.effect.SetPosition?
    requires q <= |s| && s[q..] == d.text + tail && DirRereads(d, readFloat)
    requires tail == [] || EndsWord(tail[0])
    ensures q + |d.text| <= |s| && ReadWord(s, q) == ("position", q + 8)
    ensures ReadWord(s, SkipWhitespace(s, q + 8)) == (d.value, q + |d.text|)
    ensures ReadPosition(d.value) == Ok(d.effect.position)
  {
    LongWords();
    ValueLineLayout(s, q, d, "position", tail, q + 8, q + |d.text|);
  }

  lemma TransformOver(rule: InlineRule, s: string, readFloat: FloatReader, q: nat, d: Dir, tail: string, o: Output)
    requires d.effect.SetTransform?
    requires q <= |s| && s[q..] == d.text + tail && DirRereads(d, readFloat)
    requires tail == [] || EndsWord(tail[0])
    ensures Directive(rule, s, readFloat, ReadWord(s, q).0, ReadWord(s, q).1, o)
      == Next(Cursor(q + |d.text|, Apply(o, d)))
  {
    LongWords();
    ValueLineLayout(s, q, d, "transform", tail, q + 9, q + |d.text|);
    TransformRead(rule, s, readFloat, q, d, o);
  }

  lemma AdaptiveSyncOver(rule: InlineRule, s: string, readFloat: FloatReader, q: nat, d: Dir, tail: string, o: Output)
    requires d.effect.SetAdaptiveSync?
    requires q <= |s| && s[q..] == d.text + tail && DirRereads(d, readFloat)
    requires tail == [] || EndsWord(tail[0])
    ensures Directive(rule, s, readFloat, ReadWord(s, q).0, ReadWord(s, q).1, o)
      == Next(Cursor(q + |d.text|, Apply(o, d)))
  {
    ShortWords();
    LongWords();
    ValueLineLayout(s, q, d, "adaptive_sync", tail, q + 13, q + |d.text|);
    AdaptiveSyncRead(rule, s, readFloat, q, d, o);
  }

  /** Every written line starts with a lower-case keyword letter. */
  lemma TextStart(d: Dir)
    requires Spelled(d)
    ensures 0 < |d.text| && 'a' <= d.text[0] <= 'z'
  {
  }

  /** What follows a directive line: white space before the next line, or the text after the last. */
  lemma JoinedHead(ds: seq<Dir>, ws: string, rest: string)
    requires 0 < |ws| && IsSpace(ws[0]) && 0 < |rest| && EndsWord(rest[0])
    ensures 0 < |Joined(ds, ws) + rest| && EndsWord((Joined(ds, ws) + rest)[0])
  {
    if |ds| > 0 {
      assert (Joined(ds, ws) + rest)[0] == ws[0];
    } else {
      assert Joined(ds, ws) + rest == rest;
    }
  }

  /** The text at a directive line: white space, the line, and what follows it. */
  lemma LineLayout(s: string, p: nat, ws: string, d: Dir, tail: string)
    requires p <= |s| && s[p..] == ws + d.text + tail
    requires Spelled(d)
    ensures p + |ws| + |d.text| <= |s|
    ensures s[p..] == ws + (d.text + tail) && s[p + |ws|..] == d.text + tail
    ensures 0 < |d.text + tail| && 'a' <= (d.text + tail)[0] <= 'z'
  {
    TextStart(d);
    assert ws + d.text + tail == ws + (d.text + tail);
    Advance(s, p, ws, d.text + tail);
  }

  /** One iteration of the directive loop over a written line applies that line. */
  lemma DirectiveStepOver(rule: InlineRule, s: string, readFloat: FloatReader, term: char, st: Cursor<Output>,
                          ws: string, q: nat, d: Dir, tail: string)
    requires st.pos <= |s| && s[st.pos..] == ws + d.text + tail && q == st.pos + |ws|
    requires 0 < |ws| && AllSpace(ws) && (term == '\n' ==> '\n' !in ws) && (term == '}' || term == '\n')
    requires DirRereads(d, readFloat)
    requires tail == [] || EndsWord(tail[0])
    ensures DirectiveStep(rule, s, readFloat, term, st) == Next(Cursor(q + |d.text|, Apply(st.value, d)))
  {
    StepToKeyword(rule, s, readFloat, term, st, ws, q, d, tail);
    DirectiveOver(rule, s, readFloat, q, d, tail, st.value);
  }

  lemma StepToKeyword(rule: InlineRule, s: string, readFloat: FloatReader, term: char, st: Cursor<Output>,
                      ws: string, q: nat, d: Dir, tail: string)
    requires st.pos <= |s| && s[st.pos..] == ws + d.text + tail && q == st.pos + |ws|
    requires 0 < |ws| && AllSpace(ws) && (term == '\n' ==> '\n' !in ws) && (term == '}' || term == '\n')
    requires Spelled(d)
    requires tail == [] || EndsWord(tail[0])
    ensures q <= |s| && s[q..] == d.text + tail
    ensures DirectiveStep(rule, s, readFloat, term, st) == Directive(rule, s, readFloat, ReadWord(s, q).0, ReadWord(s, q).1, st.value)
  {
    LineLayout(s, st.pos, ws, d, tail);
    StepReachesKeyword(rule, s, readFloat, term, st, ws, q, d.text + tail);
  }

  /** The written directives, line by line: the first line, then the rest. */
  lemma JoinedStep(s: string, p: nat, ws: string, ds: seq<Dir>, rest: string, p': nat)
    requires 0 < |ds| && p <= |s| && s[p..] == Joined(ds, ws) + rest
    requires p' == p + |ws| + |ds[0].text|
    ensures s[p..] == ws + ds[0].text + (Joined(ds[1..], ws) + rest)
    ensures p' <= |s| && s[p'..] == Joined(ds[1..], ws) + rest
  {
    var tail := Joined(ds[1..], ws) + rest;
    JoinedSplit(ds, ws, rest);
    Advance(s, p, ws + ds[0].text, tail);
  }

  lemma JoinedSplit(ds: seq<Dir>, ws: string, rest: string)
    requires 0 < |ds|
    ensures Joined(ds, ws) + rest == ws + ds[0].text + (Joined(ds[1..], ws) + rest)
  {
  }

  /** The first written line, read by one turn of the directive loop. */
  lemma DirectiveLoopFirst(rule: InlineRule, s: string, readFloat: FloatReader,
                           p: nat, o: Output, ds: seq<Dir>, rest: string, n: nat, p': nat)
    requires p <= |s| && s[p..] == Joined(ds, "\n    ") + rest && n == p + |Joined(ds, "\n    ")|
    requires 0 < |ds| && AllReread(ds, readFloat)
    requires 0 < |rest| && EndsWord(rest[0])
    requires p' == p + 5 + |ds[0].text|
    ensures p' <= |s| && s[p'..] == Joined(ds[1..], "\n    ") + rest && n == p' + |Joined(ds[1..], "\n    ")|
    ensures AllReread(ds[1..], readFloat)
    ensures DirectiveLoop(rule, s, readFloat, '}', Cursor(p, o))
      == DirectiveLoop(rule, s, readFloat, '}', Cursor(p', Apply(o, ds[0])))
  {
    var ws := "\n    ";
    var d := ds[0];
    var tail := Joined(ds[1..], ws) + rest;
    JoinedStep(s, p, ws, ds, rest, p');
    JoinedHead(ds[1..], ws, rest);
    assert DirRereads(d, readFloat);
    DirectiveStepOver(rule, s, readFloat, '}', Cursor(p, o), ws, p + |ws|, d, tail);
    assert AllReread(ds[1..], readFloat) by {
      forall i | 0 <= i < |ds[1..]| ensures DirRereads(ds[1..][i], readFloat) {
        assert ds[1..][i] == ds[i + 1];
      }
    }
  }

  /** The directive loop over the written lines `ds` applies them all, in order. */
  lemma {:induction false} DirectiveLoopOver(rule: InlineRule, s: string, readFloat: FloatReader,
                                             p: nat, o: Output, ds: seq<Dir>, rest: string, n: nat)
    requires p <= |s| && s[p..] == Joined(ds, "\n    ") + rest && n == p + |Joined(ds, "\n    ")|
    requires AllReread(ds, readFloat)
    requires 0 < |rest| && EndsWord(rest[0])
    ensures n <= |s|
    ensures DirectiveLoop(rule, s, readFloat, '}', Cursor(p, o))
      == DirectiveLoop(rule, s, readFloat, '}', Cursor(n, ApplyAll(o, ds)))
    decreases |ds|
  {
    if |ds| == 0 {
      assert n == p;
    } else {
      var p' := p + 5 + |ds[0].text|;
      DirectiveLoopFirst(rule, s, readFloat, p, o, ds, rest, n, p');
      DirectiveLoopOver(rule, s, readFloat, p', Apply(o, ds[0]), ds[1..], rest, n);
    }
  }

  /** The text a written output leaves for `parseOutput`, after its `output` keyword. */
  function BlockText(o: Output, formatG: FloatWriter): string {
    " \"" + o.criteria + "\" {" + Joined(Directives(o, formatG), "\n    ") + "\n  }"
  }

  /** The directive loop of a written block rebuilds the output and stops on the closing brace. */
  lemma BlockLoopOver(rule: InlineRule, s: string, readFloat: FloatReader, formatG: FloatWriter,
                      p: nat, o: Output, x: string, m: nat)
    requires p <= |s| && s[p..] == Joined(Directives(o, formatG), "\n    ") + ("\n  }" + x)
    requires m == p + |Joined(Directives(o, formatG), "\n    ")| + 3
    requires OutputRereads(o, formatG, readFloat)
    ensures m < |s| && s[m] == '}'
    ensures DirectiveLoop(rule, s, readFloat, '}', Cursor(p, NewOutput(o.criteria))) == Done(Cursor(m, o))
  {
    var ds := Directives(o, formatG);
    var j := Joined(ds, "\n    ");
    var n := p + |j|;
    DirectivesReread(o, formatG, readFloat);
    DirectiveLoopOver(rule, s, readFloat, p, NewOutput(o.criteria), ds, "\n  }" + x, n);
    Advance(s, p, j, "\n  }" + x);
    ApplyDirectives(o, formatG);
    BlockEnd(rule, s, readFloat, n, o, x, m);
  }

  /** Reading a written, re-readable output block gives back the output. */
  lemma ParseOutputOver(rule: InlineRule, s: string, readFloat: FloatReader, formatG: FloatWriter,
                        e: nat, o: Output, x: string, r: nat)
    requires e <= |s| && s[e..] == BlockText(o, formatG) + x && r == e + |BlockText(o, formatG)|
    requires OutputRereads(o, formatG, readFloat)
    ensures ParseOutput(rule, s, readFloat, e) == Done((o, r))
  {
    var c := o.criteria;
    var j := Joined(Directives(o, formatG), "\n    ");
    var h := e + |c| + 3;
    var q := h + 1;
    var p := q + 1;
    var m := p + |j| + 3;
    assert BlockText(o, formatG) + x == " \"" + c + "\" {" + j + ("\n  }" + x);
    assert r == m + 1;
    OutputHeaderLayout(s, e, c, j, "\n  }" + x, h, q);
    BlockLoopOver(rule, s, readFloat, formatG, p, o, x, m);
    ParseOutputBlock(rule, s, readFloat, e, c, h, q, p, m, o, r);
  }

  /** A written output's block `b`, after white space `lead`: the reader finds `output` at `q`, the block after it and `y` after the block. */
  lemma OutputLayout(s: string, p: nat, lead: string, b: string, y: string, q: nat, e: nat, r: nat)
    requires p <= |s| && s[p..] == lead + "  " + "output" + b + y
    requires AllSpace(lead) && 0 < |b| && b[0] == ' '
    requires q == p + |lead| + 2 && e == q + 6 && r == e + |b|
    ensures p < q < |s| && SkipWhitespaceAndComments(s, p) == q && s[q] == 'o'
    ensures ReadWord(s, q) == ("output", e)
    ensures e <= |s| && s[e..] == b + y
    ensures r <= |s| && s[r..] == y
  {
    assert lead + "  " + "output" + b + y == (lead + "  ") + "output" + (b + y);
    assert AllSpace(lead + "  ");
    assert IsWord("output");
    BlanksThenWord(s, p, lead + "  ", "output", b + y, q, e);
    Advance(s, e, b, y);
  }

  /** A written block opens with a space. */
  lemma BlockStart(o: Output, formatG: FloatWriter)
    ensures 0 < |BlockText(o, formatG)| && BlockText(o, formatG)[0] == ' '
  {
  }

  /** The written outputs, split after the first. */
  lemma OutputsSplit(outs: seq<Output>, formatG: FloatWriter, lead: string, x: string)
    requires 0 < |outs|
    ensures lead + OutputsText(outs, formatG) + "}" + x
      == lead + "  " + "output" + BlockText(outs[0], formatG) + ("\n\n" + OutputsText(outs[1..], formatG) + "}" + x)
  {
    assert OutputsText(outs, formatG) == OutputText(outs[0], formatG) + OutputsText(outs[1..], formatG);
    OutputTextShape(outs[0], formatG);
    OutputRegroup(lead, BlockText(outs[0], formatG), OutputsText(outs[1..], formatG), x);
  }

  lemma OutputRegroup(lead: string, b: string, t: string, x: string)
    ensures lead + ("  " + "output" + b + "\n\n" + t) + "}" + x
      == lead + "  " + "output" + b + ("\n\n" + t + "}" + x)
  {
  }

  /** The first written output of a profile body: where the reader finds its keyword, its block and the rest of the body. */
  lemma OutputsFirst(s: string, readFloat: FloatReader, formatG: FloatWriter,
                     p: nat, outs: seq<Output>, lead: string, x: string, q: nat, e: nat, r: nat, n: nat)
    requires p <= |s| && s[p..] == lead + OutputsText(outs, formatG) + "}" + x
    requires AllSpace(lead) && 0 < |outs| && AllOutputsReread(outs, formatG, readFloat)
    requires q == p + |lead| + 2 && e == q + 6 && r == e + |BlockText(outs[0], formatG)|
    requires n == p + |lead + OutputsText(outs, formatG) + "}"|
    ensures p < q < |s| && SkipWhitespaceAndComments(s, p) == q && s[q] == 'o'
    ensures ReadWord(s, q) == ("output", e) && e <= |s|
    ensures s[e..] == BlockText(outs[0], formatG) + ("\n\n" + OutputsText(outs[1..], formatG) + "}" + x)
    ensures r <= |s| && s[r..] == "\n\n" + OutputsText(outs[1..], formatG) + "}" + x
    ensures AllSpace("\n\n") && n == r + |"\n\n" + OutputsText(outs[1..], formatG) + "}"|
    ensures OutputRereads(outs[0], formatG, readFloat) && AllOutputsReread(outs[1..], formatG, readFloat)
  {
    var y := "\n\n" + OutputsText(outs[1..], formatG) + "}" + x;
    OutputsRereadTail(outs, formatG, readFloat);
    OutputsSplit(outs, formatG, lead, x);
    BlockStart(outs[0], formatG);
    OutputLayout(s, p, lead, BlockText(outs[0], formatG), y, q, e, r);
  }

  /** A written output whose `output` keyword ends at `e`: `parseProfile`'s loop reads it and goes on at `r`. */
  lemma ProfileOutputOver(rule: InlineRule, s: string, readFloat: FloatReader, formatG: FloatWriter,
                          p: nat, v: Profile, q: nat, e: nat, o: Output, y: string, r: nat)
    requires p < q < |s| && SkipWhitespaceAndComments(s, p) == q && s[q] == 'o'
    requires ReadWord(s, q) == ("output", e) && e <= |s|
    requires s[e..] == BlockText(o, formatG) + y
    requires r == e + |BlockText(o, formatG)| && OutputRereads(o, formatG, readFloat)
    ensures ProfileLoop(rule, s, readFloat, Cursor(p, v))
      == ProfileLoop(rule, s, readFloat, Cursor(r, Profile(v.name, v.outputs + [o])))
  {
    ParseOutputOver(rule, s, readFloat, formatG, e, o, y, r);
    ProfileLoopStep(rule, s, readFloat, p, v, q, e, o, r);
  }

  /** An empty profile body: `parseProfile`'s loop stops after the closing brace. */
  lemma ProfileLoopEnd(rule: InlineRule, s: string, readFloat: FloatReader, formatG: FloatWriter,
                       p: nat, v: Profile, outs: seq<Output>, lead: string, x: string, n: nat)
    requires p <= |s| && s[p..] == lead + OutputsText(outs, formatG) + "}" + x
    requires AllSpace(lead) && |outs| == 0
    requires n == p + |lead + OutputsText(outs, formatG) + "}"|
    ensures ProfileLoop(rule, s, readFloat, Cursor(p, v)) == Done(Cursor(n, Profile(v.name, v.outputs + outs)))
  {
    var q := p + |lead|;
    assert OutputsText(outs, formatG) == "";
    ProfileEndLayout(s, p, lead, x, q);
    ProfileStepEnd(rule, s, readFloat, p, v, q, n);
    assert v.outputs + outs == v.outputs;
    assert Profile(v.name, v.outputs) == v;
  }

  lemma OutputsRereadTail(outs: seq<Output>, formatG: FloatWriter, readFloat: FloatReader)
    requires 0 < |outs| && AllOutputsReread(outs, formatG, readFloat)
    ensures OutputRereads(outs[0], formatG, readFloat) && AllOutputsReread(outs[1..], formatG, readFloat)
  {
    assert forall i | 0 <= i < |outs[1..]| :: outs[1..][i] == outs[i + 1];
  }

  lemma ConsThenRest<T>(a: seq<T>, b: seq<T>)
    requires 0 < |b|
    ensures (a + [b[0]]) + b[1..] == a + b
  {
    assert [b[0]] + b[1..] == b;
  }

  /** `parseProfile`'s loop over written outputs reads them all and stops after the closing brace. */
  lemma {:induction false} ProfileLoopOver(rule: InlineRule, s: string, readFloat: FloatReader, formatG: FloatWriter,
                                           p: nat, v: Profile, outs: seq<Output>, lead: string, x: string, n: nat)
    requires p <= |s| && s[p..] == lead + OutputsText(outs, formatG) + "}" + x
    requires AllSpace(lead)
    requires n == p + |lead + OutputsText(outs, formatG) + "}"|
    requires AllOutputsReread(outs, formatG, readFloat)
    ensures ProfileLoop(rule, s, readFloat, Cursor(p, v)) == Done(Cursor(n, Profile(v.name, v.outputs + outs)))
    decreases |outs|
  {
    if |outs| == 0 {
      ProfileLoopEnd(rule, s, readFloat, formatG, p, v, outs, lead, x, n);
    } else {
      var q := p + |lead| + 2;
      var e := q + 6;
      var r := e + |BlockText(outs[0], formatG)|;
      var v' := Profile(v.name, v.outputs + [outs[0]]);
      OutputsFirst(s, readFloat, formatG, p, outs, lead, x, q, e, r, n);
      ProfileOutputOver(rule, s, readFloat, formatG, p, v, q, e, outs[0], "\n\n" + OutputsText(outs[1..], formatG) + "}" + x, r);
      ConsThenRest(v.outputs, outs);
      ProfileLoopOver(rule, s, readFloat, formatG, r, v', outs[1..], "\n\n", x, n);
    }
  }

  /** What follows the `profile` keyword in a written profile, up to its `{`. */
  function HeaderText(name: string): string {
    if name != "" then " \"" + name + "\" {" else " {"
  }

  /** `serializeProfile`'s header line: the `profile` keyword, the reader's header text and a line break. */
  lemma HeaderLineShape(name: string)
    ensures ProfileHeaderLine(name) == "profile" + HeaderText(name) + "\n"
  {
    if name != "" {
      assert "profile \"" == "profile" + " \"";
      assert "\" {\n" == "\" {" + "\n";
      assert "profile \"" + name + "\" {\n" == "profile" + (" \"" + name + "\" {") + "\n";
    } else {
      assert "profile {\n" == "profile" + " {" + "\n";
    }
  }

  /** `serializeProfile`'s text, cut where the reader's tokens begin. */
  lemma ProfileTextShape(pr: Profile, formatG: FloatWriter)
    ensures ProfileText(pr, formatG)
      == "profile" + HeaderText(pr.name) + "\n" + OutputsText(pr.outputs, formatG) + "}" + "\n"
  {
    HeaderLineShape(pr.name);
    TextRegroup(HeaderText(pr.name), OutputsText(pr.outputs, formatG));
  }

  lemma TextRegroup(ht: string, ot: string)
    ensures ("profile" + ht + "\n") + ot + "}\n" == "profile" + ht + "\n" + ot + "}" + "\n"
  {
    assert "}\n" == "}" + "\n";
  }

  /** A written profile header: the reader finds its name and the `{` at `h`. */
  lemma HeaderLayout(s: string, e: nat, name: string, y: string, h: nat)
    requires e <= |s| && s[e..] == HeaderText(name) + y && '"' !in name && h + 1 == e + |HeaderText(name)|
    ensures ProfileHeader(s, e) == (name, h) && h < |s| && s[h] == '{' && s[h + 1..] == y
  {
    if name != "" {
      NamedHeader(s, e, name, y, h);
    } else {
      AnonymousHeader(s, e, y, h);
    }
  }

  /** `parseProfile` once its header and `{` are found: the body loop reads the written outputs. */
  lemma ParseProfileAt(rule: InlineRule, s: string, readFloat: FloatReader, formatG: FloatWriter,
                       e: nat, name: string, h: nat, b: nat, outs: seq<Output>, x: string, n: nat)
    requires e <= |s| && h < |s| && s[h] == '{' && ProfileHeader(s, e) == (name, h) && b == h + 1
    requires s[b..] == "\n" + OutputsText(outs, formatG) + "}" + x
    requires n == b + |"\n" + OutputsText(outs, formatG) + "}"|
    requires AllOutputsReread(outs, formatG, readFloat)
    ensures ParseProfile(rule, s, readFloat, e) == Done(Cursor(n, Profile(name, outs)))
  {
    assert AllSpace("\n");
    ProfileLoopOver(rule, s, readFloat, formatG, b, Profile(name, []), outs, "\n", x, n);
    assert [] + outs == outs;
    ParseProfileOpen(rule, s, readFloat, e, name, h, Cursor(b, Profile(name, [])), Done(Cursor(n, Profile(name, outs))));
  }

  /** Reading a written, re-readable profile gives back the profile and stops after its `}`. */
  lemma ParseProfileOver(rule: InlineRule, s: string, readFloat: FloatReader, formatG: FloatWriter,
                         e: nat, name: string, outs: seq<Output>, y: string, x: string, n: nat, h: nat, b: nat)
    requires e <= |s| && s[e..] == HeaderText(name) + y && y == "\n" + OutputsText(outs, formatG) + "}" + x
    requires '"' !in name && AllOutputsReread(outs, formatG, readFloat)
    requires h + 1 == e + |HeaderText(name)| && b == h + 1
    requires n == b + |"\n" + OutputsText(outs, formatG) + "}"|
    ensures ParseProfile(rule, s, readFloat, e) == Done(Cursor(n, Profile(name, outs)))
  {
    HeaderLayout(s, e, name, y, h);
    ParseProfileAt(rule, s, readFloat, formatG, e, name, h, b, outs, x, n);
  }

  /** The separator `Serialize` writes before a profile. */
  function Gap(first: bool): string {
    if first then "" else "\n"
  }

  /** The written profiles, split after the first: its `profile` keyword, the text after it, and the rest. */
  lemma ProfilesSplit(ps: seq<Profile>, formatG: FloatWriter, first: bool, lead: string)
    requires 0 < |ps|
    ensures lead + ProfilesText(ps, formatG, first)
      == (lead + Gap(first)) + "profile"
         + (HeaderText(ps[0].name)
            + ("\n" + OutputsText(ps[0].outputs, formatG) + "}" + ("\n" + ProfilesText(ps[1..], formatG, false))))
  {
    assert ProfilesText(ps, formatG, first)
      == Gap(first) + ProfileText(ps[0], formatG) + ProfilesText(ps[1..], formatG, false);
    ProfileTextShape(ps[0], formatG);
    ProfileRegroup(lead, Gap(first), HeaderText(ps[0].name), OutputsText(ps[0].outputs, formatG),
                   ProfilesText(ps[1..], formatG, false));
  }

  lemma ProfileRegroup(lead: string, g: string, ht: string, ot: string, rest: string)
    ensures lead + (g + ("profile" + ht + "\n" + ot + "}" + "\n") + rest)
      == (lead + g) + "profile" + (ht + ("\n" + ot + "}" + ("\n" + rest)))
  {
  }

  /** A written profile whose `profile` keyword ends at `e`: the top-level loop reads it and goes on at `r`. */
  lemma TopProfileOver(rule: InlineRule, s: string, readFloat: FloatReader, formatG: FloatWriter,
                       p: nat, v: seq<Profile>, q: nat, e: nat, pr: Profile, body: string, x: string, r: nat)
    requires p <= q < |s| && SkipWhitespaceAndComments(s, p) == q && s[q] == 'p'
    requires ReadWord(s, q) == ("profile", e) && e < |s|
    requires s[e..] == HeaderText(pr.name) + (body + x) && body == "\n" + OutputsText(pr.outputs, formatG) + "}"
    requires r == e + |HeaderText(pr.name)| + |body|
    requires ProfileRereads(pr, formatG, readFloat)
    ensures TopLoop(rule, s, readFloat, Cursor(p, v)) == TopLoop(rule, s, readFloat, Cursor(r, v + [pr]))
  {
    var h := e + |HeaderText(pr.name)| - 1;
    ParseProfileOver(rule, s, readFloat, formatG, e, pr.name, pr.outputs, body + x, x, r, h, h + 1);
    assert Profile(pr.name, pr.outputs) == pr;
    TopLoopStep(rule, s, readFloat, p, v, q, e, pr, r);
  }

  /** The first written profile, read by one turn of the top-level loop. */
  lemma TopLoopFirst(rule: InlineRule, s: string, readFloat: FloatReader, formatG: FloatWriter,
                     p: nat, v: seq<Profile>, v': seq<Profile>, ps: seq<Profile>, lead: string, first: bool, r: nat)
    requires p <= |s| && s[p..] == lead + ProfilesText(ps, formatG, first)
    requires AllSpace(lead) && 0 < |ps| && AllProfilesReread(ps, formatG, readFloat)
    requires r + 1 == p + |lead| + |Gap(first)| + |ProfileText(ps[0], formatG)|
    requires v' == v + [ps[0]]
    ensures r <= |s| && s[r..] == "\n" + ProfilesText(ps[1..], formatG, false)
    ensures AllSpace("\n") && AllProfilesReread(ps[1..], formatG, readFloat)
    ensures v' + ps[1..] == v + ps
    ensures TopLoop(rule, s, readFloat, Cursor(p, v)) == TopLoop(rule, s, readFloat, Cursor(r, v'))
  {
    var pr := ps[0];
    var ws := lead + Gap(first);
    var ht := HeaderText(pr.name);
    var body := "\n" + OutputsText(pr.outputs, formatG) + "}";
    var x := "\n" + ProfilesText(ps[1..], formatG, false);
    var q := p + |ws|;
    var e := q + 7;
    ProfilesRereadTail(ps, formatG, readFloat);
    ProfilesSplit(ps, formatG, first, lead);
    ProfileTextShape(pr, formatG);
    SpaceAppend(lead, Gap(first));
    TopLayout(s, p, ws, ht + (body + x), q, e);
    ProfileAfter(s, e, ht, body, x, r);
    TopProfileOver(rule, s, readFloat, formatG, p, v, q, e, pr, body, x, r);
    ConsThenRest(v, ps);
  }

  lemma ProfilesRereadTail(ps: seq<Profile>, formatG: FloatWriter, readFloat: FloatReader)
    requires 0 < |ps| && AllProfilesReread(ps, formatG, readFloat)
    ensures ProfileRereads(ps[0], formatG, readFloat) && AllProfilesReread(ps[1..], formatG, readFloat)
  {
    assert forall i | 0 <= i < |ps[1..]| :: ps[1..][i] == ps[i + 1];
  }

  /** The top-level loop over written profiles reads them all and stops at the end of the text. */
  lemma {:induction false} TopLoopOver(rule: InlineRule, s: string, readFloat: FloatReader, formatG: FloatWriter,
                                       p: nat, v: seq<Profile>, ps: seq<Profile>, lead: string, first: bool)
    requires p <= |s| && s[p..] == lead + ProfilesText(ps, formatG, first)
    requires AllSpace(lead) && AllProfilesReread(ps, formatG, readFloat)
    ensures TopLoop(rule, s, readFloat, Cursor(p, v)) == Done(Cursor(|s|, v + ps))
    decreases |ps|
  {
    if |ps| == 0 {
      assert s[p..] == lead;
      TopLoopEnd(rule, s, readFloat, p, v);
      assert v + ps == v;
    } else {
      var r := p + |lead| + |Gap(first)| + |ProfileText(ps[0], formatG)| - 1;
      var v' := v + [ps[0]];
      TopLoopFirst(rule, s, readFloat, formatG, p, v, v', ps, lead, first, r);
      TopLoopOver(rule, s, readFloat, formatG, r, v', ps[1..], "\n", false);
    }
  }

  /**
   * The round trip: reading what `Serialize` wrote gives back the
   * configuration, under either rule for inline outputs.
   */
  lemma ParseSerialize(rule: InlineRule, c: Config, formatG: FloatWriter, readFloat: FloatReader)
    requires ConfigRereads(c, formatG, readFloat)
    ensures ParseWith(rule, Serialize(c, formatG), readFloat) == Done(c)
  {
    var s := Serialize(c, formatG);
    assert s[0..] == "" + ProfilesText(c.profiles, formatG, true);
    assert AllSpace("");
    TopLoopOver(rule, s, readFloat, formatG, 0, [], c.profiles, "", true);
    assert [] + c.profiles == c.profiles;
  }

  /** kanshi's `Parse` reads back what `Serialize` wrote. */
  lemma RoundTrip(c: Config, formatG: FloatWriter, readFloat: FloatReader)
    requires ConfigRereads(c, formatG, readFloat)
    ensures Parse(Serialize(c, formatG), readFloat) == Done(c)
    ensures ParseLineAware(Serialize(c, formatG), readFloat) == Done(c)
  {
    ParseSerialize(AsWritten, c, formatG, readFloat);
    ParseSerialize(LineAware, c, formatG, readFloat);
  }

  /** Writing what was read back from a written configuration writes the same text. */
  lemma SerializeIsStable(c: Config, formatG: FloatWriter, readFloat: FloatReader)
    requires ConfigRereads(c, formatG, readFloat)
    ensures Parse(Serialize(c, formatG), readFloat).Done?
    ensures Serialize(Parse(Serialize(c, formatG), readFloat).value, formatG) == Serialize(c, formatG)
  {
    RoundTrip(c, formatG, readFloat);
  }
}

=== FILE: kanshi_scanner.dfy ===
/**
 * The cursor-level scanners of the kanshi parser. Each takes the input and
 * a cursor position and returns where scanning stopped (and what it read);
 * none of them ever moves past the end of the input.
 */
module KanshiScanner {
  import opened GoStrings

  /** Characters that end a word: white space and both braces. */
  predicate EndsWord(c: char) {
    IsSpace(c) || c == '{' || c == '}'
  }

  /** A text `readWord` can return whole. */
  predicate IsWord(w: string) {
    forall i | 0 <= i < |w| :: !EndsWord(w[i])
  }

  /** `skipWhitespace`: the end of the run of white space starting at `p`. */
  function SkipWhitespace(s: string, p: nat): (q: nat)
    requires p <= |s|
    ensures p <= q <= |s|
    ensures AllSpace(s[p..q])
    ensures q == |s| || !IsSpace(s[q])
    decreases |s| - p
  {
    if p < |s| && IsSpace(s[p]) then SkipWhitespace(s, p + 1) else p
  }

  /** `skipUntilNewline`: the next `\n` at or after `p`, or the end of input. */
  function SkipUntilNewline(s: string, p: nat): (q: nat)
    requires p <= |s|
    ensures p <= q <= |s|
    ensures '\n' !in s[p..q]
    ensures q == |s| || s[q] == '\n'
    decreases |s| - p
  {
    if p < |s| && s[p] != '\n' then SkipUntilNewline(s, p + 1) else p
  }

  /** The length of the first line of `t`, without its `\n`. */
  function LineLength(t: string): (n: nat)
    ensures n <= |t|
    ensures forall i | 0 <= i < n :: t[i] != '\n'
    ensures n == |t| || t[n] == '\n'
  {
    if |t| == 0 || t[0] == '\n' then 0 else 1 + LineLength(t[1..])
  }

  /**
   * Text made only of white space and `#` comments, a comment running from
   * `#` to the end of its line.
   */
  predicate Blank(t: string)
    decreases |t|
  {
    if |t| == 0 then true
    else if IsSpace(t[0]) then Blank(t[1..])
    else t[0] == '#' && Blank(t[LineLength(t)..])
  }

  /**
   * `skipWhitespaceAndComments`: skips blanks and comments; stops at the end
   * of input or at the first character that is neither.
   */
  function SkipWhitespaceAndComments(s: string, p: nat): (q: nat)
    requires p <= |s|
    ensures p <= q <= |s|
    ensures q == |s| || (!IsSpace(s[q]) && s[q] != '#')
    ensures Blank(s[p..q])
    decreases |s| - p
  {
    if p < |s| && IsSpace(s[p]) then
      var q := SkipWhitespaceAndComments(s, p + 1);
      assert s[p..q][1..] == s[p + 1..q];
      q
    else if p < |s| && s[p] == '#' then
      var e := SkipUntilNewline(s, p);
      var q := SkipWhitespaceAndComments(s, e);
      CommentThenBlank(s, p, e, q);
      q
    else p
  }

  /** A comment up to its line break, then blank text: blank text. */
  lemma CommentThenBlank(s: string, p: nat, e: nat, q: nat)
    requires p < |s| && p <= e <= q <= |s| && s[p] == '#'
    requires '\n' !in s[p..e] && (e == |s| || s[e] == '\n')
    requires Blank(s[e..q])
    ensures Blank(s[p..q])
  {
    var t := s[p..q];
    assert forall i | 0 <= i < e - p :: t[i] == s[p..e][i];
    LineLengthOfPrefix(t, e - p);
    assert t[e - p..] == s[e..q];
  }

  /**
   * What `skipWhitespaceAndComments` skips never stops inside a comment:
   * after every `#` it skipped there is a line end before the stop, unless
   * the comment runs to the end of input.
   */
  lemma {:induction false} CommentsRunToLineEnd(s: string, p: nat)
    requires p <= |s|
    ensures forall i | p <= i < SkipWhitespaceAndComments(s, p) && s[i] == '#' ::
      SkipWhitespaceAndComments(s, p) == |s| || '\n' in s[i..SkipWhitespaceAndComments(s, p)]
    decreases |s| - p
  {
    var q := SkipWhitespaceAndComments(s, p);
    if p < |s| && IsSpace(s[p]) {
      CommentsRunToLineEnd(s, p + 1);
    } else if p < |s| && s[p] == '#' {
      var e := SkipUntilNewline(s, p);
      CommentsRunToLineEnd(s, e);
      forall i | p <= i < q && s[i] == '#' && q < |s|
        ensures '\n' in s[i..q]
      {
        if i < e {
          assert e < |s| && s[e] == '\n' && e < q;
          assert s[i..q][e - i] == '\n';
        } else {
          assert i > e || s[e] != '#';
        }
      }
    }
  }

  lemma {:induction false} LineLengthOfPrefix(t: string, n: nat)
    requires n <= |t|
    requires forall i | 0 <= i < n :: t[i] != '\n'
    requires n == |t| || t[n] == '\n'
    ensures LineLength(t) == n
  {
    if 0 < n {
      LineLengthOfPrefix(t[1..], n - 1);
    }
  }

  /** The end of the word starting at `p`. */
  function WordEnd(s: string, p: nat): (q: nat)
    requires p <= |s|
    ensures p <= q <= |s|
    ensures IsWord(s[p..q])
    ensures q == |s| || EndsWord(s[q])
    decreases |s| - p
  {
    if p < |s| && !EndsWord(s[p]) then WordEnd(s, p + 1) else p
  }

  /**
   * `readWord`: the longest word starting at `p`, and the position after
   * it. It is empty, and the cursor does not move, on white space or a brace.
   */
  function ReadWord(s: string, p: nat): (r: (string, nat))
    requires p <= |s|
    ensures p <= r.1 <= |s| && r.0 == s[p..r.1] && IsWord(r.0)
    ensures r.1 == |s| || EndsWord(s[r.1])
  {
    var q := WordEnd(s, p);
    (s[p..q], q)
  }

  /** The first `"` at or after `p`, or the end of input. */
  function QuoteEnd(s: string, p: nat): (q: nat)
    requires p <= |s|
    ensures p <= q <= |s|
    ensures '"' !in s[p..q]
    ensures q == |s| || s[q] == '"'
    decreases |s| - p
  {
    if p < |s| && s[p] != '"' then QuoteEnd(s, p + 1) else p
  }

  /**
   * `readQuotedString`: the text between a `"` at `p` and the next `"`, with
   * no escapes; an unterminated string runs to the end of input. Returns
   * `""` without moving when `p` is not at a `"`.
   */
  function ReadQuotedString(s: string, p: nat): (r: (string, nat))
    requires p <= |s|
    ensures '"' !in r.0
    ensures p <= r.1 <= |s|
    ensures (p == |s| || s[p] != '"') ==> r == ("", p)
    ensures p < |s| && s[p] == '"' ==>
      && p + 1 + |r.0| <= |s| && s[p + 1..p + 1 + |r.0|] == r.0
      && (if p + 1 + |r.0| < |s| then r.1 == p + 2 + |r.0| && s[r.1 - 1] == '"' else r.1 == |s|)
  {
    if p >= |s| || s[p] != '"' then ("", p)
    else
      var e := QuoteEnd(s, p + 1);
      var text := s[p + 1..e];
      assert forall i | 0 <= i < |text| :: text[i] == s[p + 1 + i];
      (text, if e < |s| then e + 1 else e)
  }

  /**
   * `readStringOrWord`: at a `"`, the quote-free text after it, then past
   * the closing quote or to the end; anywhere else, the word up to white
   * space, a brace or the end.
   */
  function ReadStringOrWord(s: string, p: nat): (r: (string, nat))
    requires p <= |s|
    ensures p <= r.1 <= |s|
    ensures p < |s| && s[p] == '"' ==>
      && '"' !in r.0 && p + 1 + |r.0| <= |s| && s[p + 1..p + 1 + |r.0|] == r.0
      && ((r.1 == p + 2 + |r.0| && s[r.1 - 1] == '"') || (r.1 == |s| && p + 1 + |r.0| == |s|))
    ensures p == |s| || s[p] != '"' ==> r.1 == p + |r.0| && r.0 == s[p..p + |r.0|] && IsWord(r.0) && (r.1 == |s| || EndsWord(s[r.1]))
    ensures p < |s| && s[p] == '"' ==> r == ReadQuotedString(s, p)
    ensures p == |s| || s[p] != '"' ==> r == ReadWord(s, p)
  {
    if p < |s| && s[p] == '"' then ReadQuotedString(s, p) else ReadWord(s, p)
  }
}

=== FILE: kanshi_serializer.dfy ===
/**
 * The kanshi configuration writer: a fixed layout, every output as a
 * braced block, directives in a fixed order, absent directives omitted.
 */
module KanshiSerializer {
  import opened Wrappers
  import opened GoStrings
  import opened KanshiConfig

  /**
   * The text of a scale: the `%g` text `g`, with `.0` appended when it has
   * no decimal point, so that it never looks like an integer.
   */
  function ScaleText(g: string): (r: string)
    ensures '.' in r
    ensures g <= r && |r| <= |g| + 2
    ensures '.' in g ==> r == g
    ensures '.' !in g ==> r == g + ".0"
  {
    if '.' in g then g else g + ".0"
  }

  /** A scale text is left as it is when written again. */
  lemma ScaleTextStable(g: string)
    ensures ScaleText(ScaleText(g)) == ScaleText(g)
  {
  }

  /** `%d,%d`: no spaces around the comma. */
  function PositionText(p: Position): (r: string)
    ensures ',' in r && ' ' !in r
  {
    assert FormatInt(p.x) + "," + FormatInt(p.y) == FormatInt(p.x) + [','] + FormatInt(p.y);
    assert (FormatInt(p.x) + [','] + FormatInt(p.y))[|FormatInt(p.x)|] == ',';
    FormatInt(p.x) + "," + FormatInt(p.y)
  }

  function EnabledLine(enabled: Option<bool>): string {
    match enabled
    case None => ""
    case Some(on) => if on then "    enable\n" else "    disable\n"
  }

  function ModeLine(mode: string): string {
    if mode != "" then "    mode " + mode + "\n" else ""
  }

  function ScaleLine(scale: Option<Float64>, formatG: FloatWriter): string {
    match scale
    case None => ""
    case Some(v) => "    scale " + ScaleText(formatG(v)) + "\n"
  }

  function PositionLine(position: Option<Position>): string {
    match position
    case None => ""
    case Some(p) => "    position " + PositionText(p) + "\n"
  }

  function TransformLine(transform: string): string {
    if transform != "" then "    transform " + transform + "\n" else ""
  }

  function AdaptiveSyncLine(adaptiveSync: Option<bool>): string {
    match adaptiveSync
    case None => ""
    case Some(on) => if on then "    adaptive_sync on\n" else "    adaptive_sync off\n"
  }

  /** The output sets no directive at all. */
  predicate SetsNothing(o: Output) {
    o.enabled.None? && o.mode == "" && o.scale.None? && o.position.None? && o.transform == "" && o.adaptiveSync.None?
  }

  /** The directive lines of `serializeOutput`, in its fixed order; none for an output that sets nothing. */
  function DirectiveLines(o: Output, formatG: FloatWriter): (r: string)
    ensures r == "" <==> SetsNothing(o)
  {
    EnabledLine(o.enabled)
    + ModeLine(o.mode)
    + ScaleLine(o.scale, formatG)
    + PositionLine(o.position)
    + TransformLine(o.transform)
    + AdaptiveSyncLine(o.adaptiveSync)
  }

  /** `serializeOutput`: always a block with the criteria quoted, never an inline output. */
  function OutputText(o: Output, formatG: FloatWriter): string {
    "  output \"" + o.criteria + "\" {\n" + DirectiveLines(o, formatG) + "  }\n\n"
  }

  /**
   * An output's text opens with its quoted criteria and a `{`, and closes
   * with `}` and a blank line; an output that sets nothing is only that frame.
   */
  lemma OutputTextFrame(o: Output, formatG: FloatWriter)
    ensures "  output \"" + o.criteria + "\" {\n" <= OutputText(o, formatG)
    ensures |OutputText(o, formatG)| >= 5 && OutputText(o, formatG)[|OutputText(o, formatG)| - 5..] == "  }\n\n"
    ensures SetsNothing(o) <==> OutputText(o, formatG) == "  output \"" + o.criteria + "\" {\n" + "  }\n\n"
  {
  }

  function OutputsText(outputs: seq<Output>, formatG: FloatWriter): string {
    if |outputs| == 0 then "" else OutputText(outputs[0], formatG) + OutputsText(outputs[1..], formatG)
  }

  function ProfileHeaderLine(name: string): string {
    if name != "" then "profile \"" + name + "\" {\n" else "profile {\n"
  }

  function ProfileText(p: Profile, formatG: FloatWriter): (r: string)
    ensures |r| > 0
  {
    ProfileHeaderLine(p.name) + OutputsText(p.outputs, formatG) + "}\n"
  }

  /** The profiles in order, each but the first preceded by a blank line. */
  function ProfilesText(profiles: seq<Profile>, formatG: FloatWriter, first: bool): (r: string)
    ensures r == "" <==> profiles == []
  {
    if |profiles| == 0 then ""
    else
      var p := ProfileText(profiles[0], formatG);
      var head := (if first then "" else "\n") + p;
      var rest := ProfilesText(profiles[1..], formatG, false);
      head + rest
  }

  /** A list of profiles written after others: the same text after a blank line. */
  lemma ProfilesTextAfter(ps: seq<Profile>, formatG: FloatWriter)
    requires ps != []
    ensures ProfilesText(ps, formatG, false) == "\n" + ProfilesText(ps, formatG, true)
  {
    var p := ProfileText(ps[0], formatG);
    var rest := ProfilesText(ps[1..], formatG, false);
    assert ProfilesText(ps, formatG, false) == ("\n" + p) + rest;
    assert ProfilesText(ps, formatG, true) == ("" + p) + rest;
    Regroup("\n", p, rest);
  }

  lemma Regroup(a: string, b: string, c: string)
    ensures (a + b) + c == a + (("" + b) + c)
  {
    assert "" + b == b;
  }

  /** `Serialize`: the profile blocks in order, and nothing at all for no profiles. */
  function Serialize(c: Config, formatG: FloatWriter): (r: string)
    ensures r == "" <==> c.profiles == []
  {
    ProfilesText(c.profiles, formatG, true)
  }

  /**
   * Writing two lists of profiles one after the other is writing their
   * concatenation: the profiles are written independently, separated by a
   * blank line.
   */
  lemma {:induction false} ProfilesTextAppend(ps: seq<Profile>, qs: seq<Profile>, formatG: FloatWriter, first: bool)
    ensures ProfilesText(ps + qs, formatG, first)
      == ProfilesText(ps, formatG, first) + ProfilesText(qs, formatG, first && ps == [])
    decreases |ps|
  {
    if ps == [] {
      assert ps + qs == qs;
    } else {
      assert (ps + qs)[0] == ps[0] && (ps + qs)[1..] == ps[1..] + qs;
      ProfilesTextAppend(ps[1..], qs, formatG, false);
    }
  }

  /** `Serialize` of two configurations' profiles together: the two texts, a blank line between them. */
  lemma SerializeAppend(c: Config, d: Config, formatG: FloatWriter)
    ensures Serialize(Config(c.profiles + d.profiles), formatG)
      == Serialize(c, formatG) + (if c.profiles != [] && d.profiles != [] then "\n" else "")
         + Serialize(d, formatG)
  {
    var a := ProfilesText(c.profiles, formatG, true);
    var b := ProfilesText(d.profiles, formatG, true);
    var t := ProfilesText(d.profiles, formatG, c.profiles == []);
    ProfilesTextAppend(c.profiles, d.profiles, formatG, true);
    assert Serialize(Config(c.profiles + d.profiles), formatG) == a + t;
    if c.profiles == [] {
      assert a + t == b;
    } else if d.profiles == [] {
      assert a + t == a;
    } else {
      ProfilesTextAfter(d.profiles, formatG);
      assert t == "\n" + b;
      assert a + ("\n" + b) == a + "\n" + b;
    }
  }
}

=== FILE: kanshi_steps.dfy ===
/**
 * What one step of the kanshi parser does on text of a known shape: which
 * branch of the directive, profile and top-level loops it takes there.
 */
module KanshiSteps {
  import opened GoStrings
  import opened KanshiConfig
  import opened KanshiScanner
  import opened KanshiParser
  import opened KanshiLayout

  /** A directive scan that finds a keyword hands it to the directive switch. */
  lemma StepAtKeyword(rule: InlineRule, s: string, readFloat: FloatReader, term: char, st: Cursor<Output>, q: nat)
    requires st.pos < q < |s| && SkipWhitespaceAndComments(s, st.pos) == q
    requires s[q] != term && !(term == '\n' && InlineStop(rule, s, st.pos, q))
    ensures DirectiveStep(rule, s, readFloat, term, st)
      == Directive(rule, s, readFloat, ReadWord(s, q).0, ReadWord(s, q).1, st.value)
  {
  }

  /** White space `ws` before a token: the scan stops right after it, with no line end seen inline. */
  lemma BlanksBeforeToken(rule: InlineRule, s: string, term: char, p: nat, ws: string, rest: string)
    requires p <= |s| && s[p..] == ws + rest
    requires 0 < |ws| && AllSpace(ws) && (term == '\n' ==> '\n' !in ws)
    requires 0 < |rest| && !IsSpace(rest[0]) && rest[0] != '#'
    ensures p < p + |ws| < |s| && SkipWhitespaceAndComments(s, p) == p + |ws| && s[p + |ws|] == rest[0]
    ensures !(term == '\n' && InlineStop(rule, s, p, p + |ws|))
  {
    var q := p + |ws|;
    SkipBlanksOver(s, p, ws, rest);
    Advance(s, p, ws, rest);
    assert s[q] == rest[0];
    assert s[q - 1] == ws[|ws| - 1];
    assert s[p..q] == ws;
  }

  /**
   * At a directive line's keyword: the scan skipped exactly the white space
   * `ws` before it and hands the keyword, at `q`, to the directive switch.
   */
  lemma StepReachesKeyword(rule: InlineRule, s: string, readFloat: FloatReader, term: char, st: Cursor<Output>,
                           ws: string, q: nat, rest: string)
    requires st.pos <= |s| && s[st.pos..] == ws + rest && q == st.pos + |ws|
    requires 0 < |ws| && AllSpace(ws) && (term == '\n' ==> '\n' !in ws)
    requires 0 < |rest| && !IsSpace(rest[0]) && rest[0] != '#' && rest[0] != term
    ensures q <= |s|
    ensures DirectiveStep(rule, s, readFloat, term, st) == Directive(rule, s, readFloat, ReadWord(s, q).0, ReadWord(s, q).1, st.value)
  {
    BlanksBeforeToken(rule, s, term, st.pos, ws, rest);
    StepAtKeyword(rule, s, readFloat, term, st, q);
  }

  /** The loop of a written block ends at its closing brace. */
  lemma BlockEnd(rule: InlineRule, s: string, readFloat: FloatReader, p: nat, v: Output, x: string, n: nat)
    requires p <= |s| && s[p..] == "\n  }" + x && n == p + 3
    ensures n < |s| && s[n] == '}'
    ensures DirectiveLoop(rule, s, readFloat, '}', Cursor(p, v)) == Done(Cursor(n, v))
  {
    assert "\n  }" + x == "\n  " + ("}" + x);
    assert AllSpace("\n  ");
    SkipBlanksOver(s, p, "\n  ", "}" + x);
    Advance(s, p, "\n  ", "}" + x);
    assert s[n] == '}';
  }

  /** `parseOutput` on a block: the criteria ending at `h`, the `{` at `q`, and the block's directive loop. */
  lemma ParseOutputBlock(rule: InlineRule, s: string, readFloat: FloatReader, e: nat, c: string, h: nat, q: nat,
                         p: nat, m: nat, o: Output, r: nat)
    requires e <= |s| && h <= |s| && q < |s| && s[q] == '{' && p == q + 1 && r == m + 1
    requires ReadStringOrWord(s, SkipWhitespace(s, e)) == (c, h) && SkipWhitespace(s, h) == q
    requires DirectiveLoop(rule, s, readFloat, '}', Cursor(p, NewOutput(c))) == Done(Cursor(m, o))
    ensures ParseOutput(rule, s, readFloat, e) == Done((o, r))
  {
    assert ParseOutput(rule, s, readFloat, e) == OutputBody(rule, s, readFloat, c, h);
    OutputBodyBlock(rule, s, readFloat, c, h, q, p, m, o, r);
  }

  /** The block branch of `parseOutput`'s body: the `{` at `q`, and the block's directive loop. */
  lemma OutputBodyBlock(rule: InlineRule, s: string, readFloat: FloatReader, c: string, h: nat, q: nat,
                        p: nat, m: nat, o: Output, r: nat)
    requires h <= |s| && q < |s| && s[q] == '{' && p == q + 1 && r == m + 1 && SkipWhitespace(s, h) == q
    requires DirectiveLoop(rule, s, readFloat, '}', Cursor(p, NewOutput(c))) == Done(Cursor(m, o))
    ensures OutputBody(rule, s, readFloat, c, h) == Done((o, r))
  {
  }

  /** `parseProfile`'s loop meets an `output` keyword and reads the output after it. */
  lemma ProfileStepOutput(rule: InlineRule, s: string, readFloat: FloatReader, p: nat, v: Profile,
                          q: nat, e: nat, o: Output, r: nat)
    requires p < q < |s| && SkipWhitespaceAndComments(s, p) == q && s[q] == 'o'
    requires ReadWord(s, q) == ("output", e) && e <= |s|
    requires ParseOutput(rule, s, readFloat, e) == Done((o, r))
    ensures ProfileStep(rule, s, readFloat, Cursor(p, v)) == Next(Cursor(r, Profile(v.name, v.outputs + [o])))
  {
  }

  /** `parseProfile`'s loop meets the closing brace at `q`. */
  lemma ProfileStepEnd(rule: InlineRule, s: string, readFloat: FloatReader, p: nat, v: Profile, q: nat, n: nat)
    requires p < |s| && q < |s| && SkipWhitespaceAndComments(s, p) == q && s[q] == '}' && n == q + 1
    ensures ProfileStep(rule, s, readFloat, Cursor(p, v)) == Stop(Cursor(n, v))
  {
  }

  lemma NamedHeader(s: string, e: nat, name: string, y: string, h: nat)
    requires e <= |s| && s[e..] == " \"" + name + "\" {" + y && '"' !in name && h == e + |name| + 4
    ensures ProfileHeader(s, e) == (name, h) && h < |s| && s[h] == '{' && s[h + 1..] == y
  {
    NamedHeaderLayout(s, e, name, y, h);
  }

  lemma NamedHeaderLayout(s: string, e: nat, name: string, y: string, h: nat)
    requires e <= |s| && s[e..] == " \"" + name + "\" {" + y && '"' !in name && h == e + |name| + 4
    ensures SkipWhitespace(s, e) == e + 1 && s[e + 1] == '"'
    ensures ReadStringOrWord(s, e + 1) == (name, h - 1) && SkipWhitespace(s, h - 1) == h
    ensures h < |s| && s[h] == '{' && s[h + 1..] == y
  {
    assert " \"" + name + "\" {" + y == " \"" + name + "\"" + (" {" + y);
    QuotedAfterSpace(s, e, name, " {" + y, h - 1);
    SpaceBrace(s, h - 1, y, h);
    assert s[e + 1] == '"' by { assert s[e..][1] == '"'; }
  }

  lemma AnonymousHeader(s: string, e: nat, y: string, h: nat)
    requires e <= |s| && s[e..] == " {" + y && h == e + 1
    ensures ProfileHeader(s, e) == ("", h) && h < |s| && s[h] == '{' && s[h + 1..] == y
  {
    SpaceBrace(s, e, y, h);
  }

  /** `parseProfile` once its header and `{` are found: whatever the body loop, started at `st`, gives. */
  lemma ParseProfileOpen(rule: InlineRule, s: string, readFloat: FloatReader, e: nat, name: string, h: nat,
                         st: Cursor<Profile>, res: Outcome<Cursor<Profile>>)
    requires e <= |s| && h < |s| && s[h] == '{' && ProfileHeader(s, e) == (name, h)
    requires st == Cursor(h + 1, Profile(name, [])) && res == ProfileLoop(rule, s, readFloat, st)
    ensures ParseProfile(rule, s, readFloat, e) == res
  {
  }

  /** One turn of the top-level loop over a whole profile. */
  lemma TopStepProfile(rule: InlineRule, s: string, readFloat: FloatReader, p: nat, v: seq<Profile>,
                       q: nat, e: nat, pr: Profile, n: nat)
    requires p <= q < |s| && SkipWhitespaceAndComments(s, p) == q && s[q] == 'p'
    requires ReadWord(s, q) == ("profile", e) && e <= |s|
    requires ParseProfile(rule, s, readFloat, e) == Done(Cursor(n, pr))
    ensures TopStep(rule, s, readFloat, Cursor(p, v)) == Next(Cursor(n, v + [pr]))
  {
  }

  /** Only white space is left: the top-level loop stops at the end of the text. */
  lemma TopLoopEnd(rule: InlineRule, s: string, readFloat: FloatReader, p: nat, v: seq<Profile>)
    requires p <= |s| && AllSpace(s[p..])
    ensures TopLoop(rule, s, readFloat, Cursor(p, v)) == Done(Cursor(|s|, v))
  {
    assert s[p..] == s[p..] + [];
    SkipBlanksOver(s, p, s[p..], []);
  }

  /** A whole profile read by one turn of the top-level loop: the loop goes on after it. */
  lemma TopLoopStep(rule: InlineRule, s: string, readFloat: FloatReader, p: nat, v: seq<Profile>,
                    q: nat, e: nat, pr: Profile, n: nat)
    requires p <= q < |s| && SkipWhitespaceAndComments(s, p) == q && s[q] == 'p'
    requires ReadWord(s, q) == ("profile", e) && e <= |s|
    requires ParseProfile(rule, s, readFloat, e) == Done(Cursor(n, pr))
    ensures n <= |s| + 1
    ensures TopLoop(rule, s, readFloat, Cursor(p, v)) == TopLoop(rule, s, readFloat, Cursor(n, v + [pr]))
  {
    TopStepProfile(rule, s, readFloat, p, v, q, e, pr, n);
  }

  /** An output read by one turn of `parseProfile`'s loop: the loop goes on after it. */
  lemma ProfileLoopStep(rule: InlineRule, s: string, readFloat: FloatReader, p: nat, v: Profile,
                        q: nat, e: nat, o: Output, r: nat)
    requires p < q < |s| && SkipWhitespaceAndComments(s, p) == q && s[q] == 'o'
    requires ReadWord(s, q) == ("output", e) && e <= |s|
    requires ParseOutput(rule, s, readFloat, e) == Done((o, r))
    ensures r <= |s| + 1
    ensures ProfileLoop(rule, s, readFloat, Cursor(p, v))
      == ProfileLoop(rule, s, readFloat, Cursor(r, Profile(v.name, v.outputs + [o])))
  {
    ProfileStepOutput(rule, s, readFloat, p, v, q, e, o, r);
  }
}

=== FILE: niri_outputs.dfy ===
/**
 * The niri side: turning the records of `niri msg --json outputs`, once
 * decoded, into the application's `Output` values. The JSON decoding itself
 * is not modelled; its result is the sequence of (connector, record) pairs
 * in the order the Go map happens to be walked.
 */
module NiriOutputs {
  import opened Wrappers
  import opened GoStrings
  import KanshiConfig

  /** A display mode as the application reports it. */
  datatype Mode = Mode(
    width: int,
    height: int,
    refreshMilliHz: int,      // the refresh rate before its division by 1000.0
    isCurrent: bool,
    isPreferred: bool)

  /** The Go zero value of `Mode`. */
  const ZeroMode := Mode(0, 0, 0, false, false)

  datatype Pos = Pos(x: int, y: int)

  datatype Size = Size(width: int, height: int)

  /** A connected output; Go's nullable `*T` fields become `Option`s. */
  datatype Output = Output(
    connector: string,
    make: string,
    model: string,
    serial: string,
    description: string,
    currentMode: Mode,
    availableModes: seq<Mode>,
    logicalPos: Option<Pos>,
    logicalSize: Option<Size>,
    scale: KanshiConfig.Float64,
    transform: string)

  /** One entry of a record's `modes`; the refresh rate is in millihertz. */
  datatype RawMode = RawMode(width: int, height: int, refreshRate: int, isPreferred: bool)

  /** A record's `logical` block. */
  datatype RawLogical = RawLogical(x: int, y: int, width: int, height: int,
                                   scale: KanshiConfig.Float64, transform: string)

  /** One decoded record of niri's JSON; `serial` and `logical` may be `null`. */
  datatype RawOutput = RawOutput(
    name: string,
    make: string,
    model: string,
    serial: Option<string>,
    modes: seq<RawMode>,
    currentMode: int,         // an index into `modes`, not checked
    logical: Option<RawLogical>,
    vrrSupported: bool,
    vrrEnabled: bool)

  /** The kanshi-style description: the make and the model when present, then the serial or `Unknown`. */
  function Description(make: string, model: string, serial: string): (d: string)
    ensures d == (if make == "" then "" else make + " ")
               + (if model == "" then "" else model + " ")
               + (if serial == "" then "Unknown" else serial)
  {
    var last := if serial == "" then "Unknown" else serial;
    var parts := (if make != "" then [make] else []) + (if model != "" then [model] else []) + [last];
    assert Join(parts, " ") == (if make == "" then "" else make + " ")
                               + (if model == "" then "" else model + " ") + last by {
      JoinCons(model, [last], " ");
      if make != "" && model != "" {
        assert parts == [make] + [model, last];
        JoinCons(make, [model, last], " ");
      } else if make != "" {
        assert parts == [make] + [last];
        JoinCons(make, [last], " ");
      } else if model != "" {
        assert parts == [model] + [last];
      }
    }
    Join(parts, " ")
  }

  /** `mode` carries the width, height, refresh rate and preference of `m`. */
  predicate Copied(m: RawMode, mode: Mode) {
    mode.width == m.width && mode.height == m.height
    && mode.refreshMilliHz == m.refreshRate && mode.isPreferred == m.isPreferred
  }

  /**
   * What the mapping promises about the output `o` it builds for the record
   * `r` under the key `connector`; `MappedDetermines` shows that this fixes
   * every field.
   */
  predicate Mapped(connector: string, r: RawOutput, o: Output) {
    && o.connector == connector && o.make == r.make && o.model == r.model
    // a `null` serial reads as the empty string
    && o.serial == (if r.serial.Some? then r.serial.value else "")
    && o.description == (if r.make == "" then "" else r.make + " ")
                      + (if r.model == "" then "" else r.model + " ")
                      + (if o.serial == "" then "Unknown" else o.serial)
    // one mode per raw mode, in order, marked current exactly at `current_mode`
    && |o.availableModes| == |r.modes|
    && (forall i :: 0 <= i < |r.modes| ==>
          Copied(r.modes[i], o.availableModes[i]) && (o.availableModes[i].isCurrent <==> i == r.currentMode))
    && o.currentMode == (if 0 <= r.currentMode < |r.modes| then o.availableModes[r.currentMode] else ZeroMode)
    // without a `logical` block the logical fields keep their zero values
    && (r.logical.None? ==> o.logicalPos == None && o.logicalSize == None && o.scale == 0 && o.transform == "")
    && (r.logical.Some? ==>
          && o.logicalPos == Some(Pos(r.logical.value.x, r.logical.value.y))
          && o.logicalSize == Some(Size(r.logical.value.width, r.logical.value.height))
          && o.scale == r.logical.value.scale && o.transform == r.logical.value.transform)
  }

  /** The loop over a record's modes: the modes in order, and the one at index `current`. */
  method ConvertModes(modes: seq<RawMode>, current: int) returns (available: seq<Mode>, currentMode: Mode)
    ensures |available| == |modes|
    ensures forall i :: 0 <= i < |modes| ==> Copied(modes[i], available[i])
    ensures forall i :: 0 <= i < |modes| ==> (available[i].isCurrent <==> i == current)
    ensures currentMode == if 0 <= current < |modes| then available[current] else ZeroMode
  {
    available := [];
    currentMode := ZeroMode;
    var i := 0;
    while i < |modes|
      invariant 0 <= i <= |modes| && |available| == i
      invariant forall k :: 0 <= k < i ==> Copied(modes[k], available[k])
      invariant forall k :: 0 <= k < i ==> (available[k].isCurrent <==> k == current)
      invariant currentMode == if 0 <= current < i then available[current] else ZeroMode
    {
      var m := modes[i];
      var mode := Mode(m.width, m.height, m.refreshRate, i == current, m.isPreferred);
      available := available + [mode];
      if i == current {
        currentMode := mode;
      }
      i := i + 1;
    }
  }

  /** The body of the loop over niri's map: one record under the key `connector`. */
  method MapOutput(connector: string, r: RawOutput) returns (o: Output)
    ensures Mapped(connector, r, o)
  {
    var serial := if r.serial.Some? then r.serial.value else "";
    var available, currentMode := ConvertModes(r.modes, r.currentMode);
    var logicalPos, logicalSize, scale, transform := None, None, 0, "";
    if r.logical.Some? {
      var l := r.logical.value;
      logicalPos, logicalSize := Some(Pos(l.x, l.y)), Some(Size(l.width, l.height));
      scale, transform := l.scale, l.transform;
    }
    o := Output(connector, r.make, r.model, serial, Description(r.make, r.model, serial),
                currentMode, available, logicalPos, logicalSize, scale, transform);
  }

  /** The mapping after decoding: one output per (key, record) pair, in the order given. */
  method MapOutputs(raw: seq<(string, RawOutput)>) returns (outputs: seq<Output>)
    ensures |outputs| == |raw|
    ensures forall i :: 0 <= i < |raw| ==> outputs[i].connector == raw[i].0
    ensures forall i :: 0 <= i < |raw| ==> Mapped(raw[i].0, raw[i].1, outputs[i])
  {
    outputs := [];
    var i := 0;
    while i < |raw|
      invariant 0 <= i <= |raw| && |outputs| == i
      invariant forall k :: 0 <= k < i ==> Mapped(raw[k].0, raw[k].1, outputs[k])
    {
      var o := MapOutput(raw[i].0, raw[i].1);
      outputs := outputs + [o];
      i := i + 1;
    }
  }

  /** `Mapped` leaves no field open: two outputs it allows for one record are equal. */
  lemma MappedDetermines(connector: string, r: RawOutput, o: Output, o': Output)
    requires Mapped(connector, r, o) && Mapped(connector, r, o')
    ensures o == o'
  {
    forall i | 0 <= i < |r.modes|
      ensures o.availableModes[i] == o'.availableModes[i]
    {
      assert Copied(r.modes[i], o.availableModes[i]) && Copied(r.modes[i], o'.availableModes[i]);
    }
    assert o.availableModes == o'.availableModes;
  }

  /** The test's laptop panel: a `null` serial, so the serial is empty and the description ends in `Unknown`. */
  lemma LaptopPanel(o: Output, logical: Option<RawLogical>)
    requires Mapped("eDP-1", RawOutput("eDP-1", "Lenovo Group Limited", "0x40A9", None,
                                       [RawMode(1920, 1080, 60033, true)], 0, logical, false, false), o)
    ensures o.serial == "" && o.description == "Lenovo Group Limited 0x40A9 Unknown"
    ensures o.currentMode == Mode(1920, 1080, 60033, true, true)
  {
  }

  /** The test's monitor: make, model and serial joined by spaces, and the first of two modes current. */
  lemma Monitor(o: Output, logical: Option<RawLogical>)
    requires Mapped("DP-1", RawOutput("DP-1", "Dell Inc.", "DELL U3419W", Some("7VK66T2"),
                                      [RawMode(3440, 1440, 59973, true), RawMode(1920, 1080, 60000, false)],
                                      0, logical, false, false), o)
    ensures o.description == "Dell Inc. DELL U3419W 7VK66T2"
    ensures |o.availableModes| == 2 && o.currentMode.width == 3440 && o.currentMode.height == 1440
    ensures !o.availableModes[1].isCurrent
  {
  }
}

=== FILE: wrappers.dfy ===
/** Failure-compatible wrappers shared by the whole model. */
module Wrappers {

  /** A value that may be absent; stands for a nullable Go `*T`. */
  datatype Option<+T> = None | Some(value: T)

  /** Either a value or an error; stands for a Go `(value, error)` pair. */
  datatype Result<+T, +E> = Ok(value: T) | Err(error: E)
}
